=== FILE: README.md ===
# Consultorio scheduling core, modelled in Dafny

This project models the core logic of a small practice-management web app.
Professionals publish weekly availability rules and blackout periods.
Patients book appointments through a form or a scripted chat.
A middleware gates every page by role.

The model covers these parts:

- **The free-slot engine** (`lib/agenda/slots.ts`). For one calendar day it walks each weekly
  availability rule in steps of its appointment length. It drops every step that meets a blackout
  or an appointment, using the source's three-case overlap test, and sorts the rest by start time.
  It uses the date helpers of `lib/utils/dates.ts`: day bounds through a time-zone lookup, the
  weekday through a label lookup, `addMinutes` and `formatDate`.
- **Roles and route guards** (`lib/auth/roles.ts`, `lib/auth/guards.ts`), and the decision table
  of `middleware.ts`.
- **The login and sign-up pages**: the `redirect` sanitiser, the post-login destination, the
  `role` query parameter and the sign-up metadata.
- **The chat hook** (`hooks/useChat.ts`): its message parsers, how the conversation step is
  re-derived from the message history, and the de-duplicating append.
- **The professional's calendar**: the day, week and month ranges, appointments in a range, the
  month-grid rows and the "+N más" cell truncation.
- **Smaller pieces**:
  - the patient's upcoming/past split;
  - the subscription card's "active" test;
  - the admin `PATCH /api/admin/suscripcion` route;
  - the metrics counts;
  - the notification read-state updates;
  - slug generation;
  - the availability form.

Conventions:

- Instants are integer milliseconds since the epoch (UTC) and times of day are integer minutes.
- `null`/`undefined` is `Wrappers.Option`.
- Where JavaScript tests a string for truthiness, the model uses `Text.Truthy`.
- Strings are `seq<char>`.
- JavaScript's `<`/`<=` on strings is `Text.LexLe`. Dafny's own `<=` on sequences is the prefix
  test, which models `startsWith`.
- `Intl.DateTimeFormat`, `JSON.parse`, `toLowerCase`/`normalize("NFD")`, `Math.random`, the
  database and the environment enter as parameters. Each operation's contract holds for every
  value of those parameters.
- The calendar page works in the browser's local time. It is modelled on a local axis with a fixed
  offset, on which local midnight is a multiple of a day.

One behaviour is stated as the code has it. The chat posts "No hay horarios disponibles el
<fecha>. Elige otra fecha." when a day has no free slots, and the live hook then shows the start
step. That text contains "horarios disponibles", so re-deriving the step from the message history
yields the slot-list step instead. `Chat.SinHorariosShowsSlots` proves this.

## Model

| member | source | states |
|---|---|---|
| Dates.WeekdayFromLabel | lib/utils/dates.ts:28-37 | The short English weekday label maps to its Monday-based index 0..6, and the label at that index is the label given. Any other label falls back to 0 (Monday). |
| Dates.DayOfWeek | lib/utils/dates.ts:22-38 | The weekday of an instant lies in 0..6. When the zone's label for the instant is a known label, the index names exactly that label. |
| Dates.GetDayBounds | lib/utils/dates.ts:44-63 | When the day's bounds exist, end minus start is one day less one millisecond, and both ends and noon UTC lie within the Date range. Outside that range it yields None, where `toISOString` would throw. |
| Dates.UtcZoneStartsAtMidnight | lib/utils/dates.ts:49-61 | In a zone whose clock reads 12:00 at noon UTC, the day starts twelve hours before noon UTC, at a UTC midnight. |
| Dates.FixedOffsetStartExactIff | lib/utils/dates.ts:56-61 | For a fixed-offset zone, the computed start is local midnight exactly when the offset lies in [-12h, +12h). Offsets beyond that wrap the wall clock and shift the result by a day. |
| Dates.AddMinutesMonoid | lib/utils/dates.ts:85-87 | Adding zero minutes is the identity, adding a and then b equals adding a + b, and the shift is exactly the minutes times 60 000 ms. |
| Dates.CivilFromDays | lib/utils/dates.ts:99-101 | The civil date of a day number has a month in 1..12 and a day in 1..31, and converting it back gives the same day number. |
| Dates.FormatDate | lib/utils/dates.ts:99-101 | `formatDate` yields a 10-character string exactly when the instant lies within the Date range. Otherwise it yields None, where `toISOString` throws. |
| Dates.FormatDateReadsBack | lib/utils/dates.ts:99-101 | For years 0..9999 the formatted date has the YYYY-MM-DD shape. Read back as a number, it is the civil date of the UTC day that contains the instant. |
| Dates.IsoDatePartReads | lib/utils/dates.ts:99-101 | The first ten characters of the ISO rendering of a four-digit-year date have the YYYY-MM-DD shape and read back as that date. |
| Dates.FormatDateExtendedYear | lib/utils/dates.ts:99-101 | Outside years 0..9999 the slice starts with a sign, so it is not a YYYY-MM-DD date. |
| Text.Trim | hooks/useChat.ts:22-23 | `trim()` yields the piece of its input that has only white space before and after it and no white space at either of its own edges. |
| Text.TrimIdempotent | hooks/useChat.ts:22-23 | Trimming twice is trimming once. |
| Text.TrimNoEdgeSpace | hooks/useChat.ts:22-23 | A string with no white space at its edges is its own trim. |
| Text.TrimmedOrNull | app/profesional/disponibilidad/page.tsx:78 | `s.trim() \|\| null` is None exactly when the text is all white space. Otherwise it is a non-empty piece of the text with no white space at its edges and only white space around it. |
| Text.TrimmedOrNullStable | app/profesional/disponibilidad/page.tsx:78 | Applying `s.trim() \|\| null` to its own result (null read as "") gives the same result. |
| Text.TrimPadded | hooks/useChat.ts:22-23 | A non-empty text with no white space at its edges, padded on either side with white space only, trims back to itself. |
| Text.ContainsAt | hooks/useChat.ts:60-65 | `includes` holds exactly when the pattern occurs at some position. |
| Text.ParseIntNaN | lib/agenda/slots.ts:16-17 | `parseInt` yields NaN exactly when no digit follows the leading white space and optional sign. |
| Text.ParseTwoDigits | lib/agenda/slots.ts:16-17 | A two-digit field followed by a non-digit parses to its value. |
| Text.DigitsLexOrder | app/profesional/dashboard/EstadoSuscripcionCard.tsx:66-67 | For digit strings of equal length, JavaScript's string order agrees with numeric order, and equality agrees with equal value. |
| Text.IsoLexOrder | app/profesional/dashboard/EstadoSuscripcionCard.tsx:66-67 | Comparing two YYYY-MM-DD strings with `<=` orders them as calendar dates. |
| Text.LexLeAppend | app/profesional/dashboard/EstadoSuscripcionCard.tsx:66-67 | Comparing two concatenations whose heads have equal length decides on the heads first and on the tails only when the heads are equal. |
| Text.PadDigits | lib/utils/dates.ts:99-101 | Zero-padding a number to width w gives w digits that read back as the number. |
| Roles.ParseRole | lib/auth/roles.ts:16-18 | A role name parses exactly when it is valid, and the parsed role prints back as the same name. |
| Roles.RoleNameRoundTrip | lib/auth/roles.ts:3-6 | Every role's name is valid and parses back to that role. |
| Roles.RolesIdentical | lib/auth/roles.ts:3-6 | The `ROLES` table has exactly the two role names as keys, and maps each to itself. |
| Roles.RoleTests | lib/auth/roles.ts:8-18 | A value is valid exactly when it is "profesional" or "paciente". The two role tests never both hold, both fail on null, and one of them holds exactly when the role is valid. |
| Guards.EnlacePublicoIff | lib/auth/guards.ts:26-31 | "/" + segment is a professional's public link exactly when the segment is non-empty, contains no slash and is not a reserved slug. |
| Guards.EsRutaPublicaIff | lib/auth/guards.ts:33-38 | A path is public exactly when it is one of "/", "/login", "/registro", starts with "/api/", or is a public link. |
| Guards.RoleAreasDisjoint | lib/auth/guards.ts:40-46 | No path is in both role areas. Every path under "/profesional/" or "/paciente/" is in its area and not public. A loose path like "/profesionalX" is both in the professional area and public. |
| Guards.LooseAreaPrefix | lib/auth/guards.ts:40-42 | "/profesionalX" passes the bare `startsWith` area test and is also a public link. |
| Guards.RutaParaRol | lib/auth/guards.ts:48-52 | Each role's home lies in that role's own area, outside the other role's area, and is not a public path. |
| Guards.PuedeAccederIff | lib/auth/guards.ts:54-60 | Without a valid role nothing is accessible. With one, a path is accessible exactly when it is public or lies in that role's area. |
| Guards.DashboardReachable | lib/auth/guards.ts:48-60 | Every role may access its own home. |
| Middleware.WrongAreaTarget | middleware.ts:85 | A user in the wrong area is sent to the login page exactly when the role string is not a valid role. Otherwise the target is a non-public page that the role may open. |
| Middleware.UnconfiguredOrLogoutPasses | middleware.ts:16-21 | Without the two configuration variables every request passes, and "/logout" always passes. |
| Middleware.EnlacePublicoPasses | middleware.ts:62-64 | A public link passes whatever the role. |
| Middleware.LogoutNotPublic | middleware.ts:41-43 | "/logout" is not a public route, so only its explicit check lets it through. |
| Middleware.OtherPublicPaths | middleware.ts:65-72 | On the other public paths a signed-in professional or patient is sent to their home, and anyone else passes. |
| Middleware.PublicNeverToLogin | middleware.ts:60-73 | A public path never redirects to the login page. |
| Middleware.NoRoleToLogin | middleware.ts:76-80 | A protected path without a role redirects to the login page and carries the requested path in `redirect`. |
| Middleware.ProfesionalArea | middleware.ts:83-89 | In the professional area a professional passes, a patient goes to the patient home, and any other role goes to the login page. |
| Middleware.PacienteArea | middleware.ts:92-98 | In the patient area a patient passes, a professional goes to the professional home, and any other role goes to the login page. |
| Middleware.OutsideAreasToLogin | middleware.ts:100-101 | A protected path outside both areas sends every signed-in user to the login page. |
| Middleware.GateAgreesWithGuard | middleware.ts:76-101 | For a valid role on a protected path, the middleware lets the request through exactly when `puedeAccederARuta` allows it. |
| Middleware.LoginPage | middleware.ts:60-73 | The login page sends a professional or patient to their home and lets anyone else through. |
| Middleware.DashboardPasses | middleware.ts:83-98 | A user asking for their own home is let through. |
| Middleware.RedirectsSettle | middleware.ts:60-101 | Following a redirect reaches a page that passes within one more hop. Invalid roles and area paths settle after a single hop. |
| AuthPages.SanitizeRedirectIff | app/login/page.tsx:34-41 | The `redirect` parameter is kept, unchanged, exactly when it starts with "/", does not start with "//" and contains no ':'. Otherwise it is dropped. |
| AuthPages.SanitizeRedirectIdempotent | app/registro/page.tsx:26-32 | Sanitising a sanitised redirect changes nothing. |
| AuthPages.LoginReturnsToRequestedPath | app/login/page.tsx:34-41 | The path the middleware puts in `redirect` survives the login page's sanitiser whenever it is a same-origin path. |
| AuthPages.LoginSubmit | app/login/page.tsx:43-76 | A sign-in error is shown as is, a missing user leaves the page where it is, and navigation happens exactly when sign-in succeeds and a user is present. |
| AuthPages.LoginDestinationPasses | app/login/page.tsx:71-75 | Without a redirect, a valid role goes to its home and anyone else to "/". The middleware lets that destination through. |
| AuthPages.HomePasses | middleware.ts:60-73 | "/" passes the middleware for anyone who is neither a professional nor a patient. |
| AuthPages.LoginNavigatesToRedirect | app/login/page.tsx:72 | A successful login with a same-origin redirect navigates to it, whatever the role. |
| AuthPages.InitialRole | app/registro/page.tsx:16-37 | The sign-up form starts on the role the `role` parameter names when it is valid, and on patient otherwise. |
| AuthPages.Metadata | app/registro/page.tsx:50-54 | The sign-up metadata records the chosen role, and carries a specialty field exactly for professionals. |
| AuthPages.MetadataStable | app/registro/page.tsx:50-54 | Rebuilding the metadata from its own fields gives the same metadata. Trimming and blank-to-null are stable. |
| AuthPages.RegistroSubmit | app/registro/page.tsx:58-76 | A sign-up error is shown as is, a missing user shows an error, and navigation happens exactly when sign-up succeeds with a user. |
| AuthPages.DestinationsAgree | app/registro/page.tsx:74-76 | After sign-up the destination equals the login page's destination for the same role. Without a redirect it is the role's home, which the middleware lets through. |
| AgendaTypes.ParseEstado | types/agenda.ts:1 | Exactly the three appointment states parse, and each prints back as itself. |
| AgendaTypes.EstadoRoundTrip | types/agenda.ts:1 | Every appointment state prints as one of the three names and parses back to itself. |
| AgendaTypes.ParseOrigen | types/agenda.ts:2 | Exactly "formulario" and "chat" parse as an origin, and each prints back as itself. |
| AgendaTypes.OrigenRoundTrip | types/agenda.ts:2 | Every origin prints and parses back to itself. |
| AgendaTypes.WeekdayConvention | types/agenda.ts:50-58 | The weekday index of the date helpers and the `DIAS_SEMANA` labels agree: Monday is 0 ("Lunes") and Sunday is 6 ("Domingo"). |
| Slots.SplitAtColon | lib/agenda/slots.ts:15 | The part before the first colon contains no colon and is a prefix of the input. A remainder exists exactly when the input has a colon, and then the input is head + ":" + remainder. |
| Slots.TimeToMinutesOfClock | lib/agenda/slots.ts:14-19 | "HH:mm", optionally followed by further ":"-fields, reads as 60·HH + mm minutes. |
| Slots.SecondsIgnored | lib/agenda/slots.ts:14-19 | "HH:mm:ss" and "HH:mm" give the same minutes. |
| Slots.Walk | lib/agenda/slots.ts:85-87 | The k-th generated slot starts k steps after the rule's start minute on the given day. |
| Slots.WalkAscending | lib/agenda/slots.ts:85-87 | With a positive step, the generated slots start in strictly increasing order. |
| Slots.WalkLength | lib/agenda/slots.ts:85 | Step k is generated exactly when the step is positive and the slot ending k+1 steps after the start still fits before the rule's end. |
| Slots.GeneratedFacts | lib/agenda/slots.ts:80-87 | A slot generated by a rule lasts exactly the rule's duration and lies inside the rule's window on that day. |
| Slots.RuleSlotsExact | lib/agenda/slots.ts:80-87 | A slot is produced by a rule exactly when it is one of the whole-duration steps that fit in the rule's window. |
| Slots.ShortWindowNoSlots | lib/agenda/slots.ts:85 | A rule whose window is shorter than its duration yields no slot. |
| Slots.CandidatesMembers | lib/agenda/slots.ts:80-104 | The candidates are exactly the slots some selected rule produces. |
| Slots.ThreeCaseIsHalfOpenOverlap | lib/agenda/slots.ts:90-95 | For non-empty intervals the source's three-case overlap test is the half-open overlap test, so touching intervals do not overlap. |
| Slots.EmptyIntervalAtEdge | lib/agenda/slots.ts:90-95 | An empty occupied interval at a slot's edge still counts as an overlap under the three-case test, although it overlaps nothing half-open. |
| Slots.FreeSlots | lib/agenda/slots.ts:90-102 | Every candidate that overlaps an occupied interval is dropped, and every other candidate is kept as often as it occurs. |
| Slots.FreeSlotsAppend | lib/agenda/slots.ts:80-104 | Filtering the candidates of several rules is filtering each rule's candidates in turn. |
| Slots.ComputeSlots | lib/agenda/slots.ts:77-108 | The result is sorted by start time and is, as a multiset, the non-overlapping candidates. |
| Slots.ComputeSlotsExact | lib/agenda/slots.ts:77-108 | A slot is offered exactly when a selected rule generates it and no occupied interval overlaps it. |
| Slots.LiveRules | lib/agenda/slots.ts:37-42 | The rules read are exactly the stored rules of this professional for this weekday that are not deleted. |
| Slots.BlockIntervals | lib/agenda/slots.ts:48-54 | The blackout intervals are exactly those of this professional's live blackouts that end after the day starts and begin before it ends. |
| Slots.CitaIntervals | lib/agenda/slots.ts:57-64 | The appointment intervals are exactly those of this professional's live scheduled or completed appointments that overlap the day. |
| Slots.GetSlotsDisponibles | lib/agenda/slots.ts:25-109 | The result is absent exactly when the day's bounds cannot be formed, and is otherwise sorted by start time. |
| Slots.GetSlotsUnfold | lib/agenda/slots.ts:31-108 | With bounds, the result is the free-slot computation over the rules for the weekday at noon, the blackouts and appointments of the day, and the day's start. |
| Slots.SlotsExact | lib/agenda/slots.ts:25-109 | A slot is returned exactly when one of the professional's live rules for that weekday generates it and no live blackout or scheduled/completed appointment of the day overlaps it. |
| Slots.SlotsAvoidOccupied | lib/agenda/slots.ts:90-97 | A returned slot is non-empty and overlaps no blackout or appointment of the day, in the source's sense and, for non-empty intervals, in the half-open sense. |
| Slots.NoRulesNoSlots | lib/agenda/slots.ts:44 | Without a rule for that weekday the day has no slots, whatever blackouts and appointments exist. |
| Sorting.SortBy | lib/agenda/slots.ts:106-108 | Sorting by a numeric key yields a permutation of the input in ascending key order. |
| Sorting.SortByMembers | lib/agenda/slots.ts:106-108 | Sorting neither loses nor invents elements. |
| Sorting.SortByIdempotent | lib/agenda/slots.ts:106-108 | Sorting a sorted list returns it unchanged. |
| Sorting.Filter | app/paciente/citas/page.tsx:41-47 | `filter` keeps only elements that satisfy the predicate, and each of those as often as it occurs in the input. Their order is stated by Sorting.FilterAppend. |
| Sorting.FilterAppend | app/profesional/calendario/page.tsx:68-73 | Filtering a concatenation filters each part. |
| Sorting.FilterPartition | app/paciente/citas/page.tsx:41-47 | A predicate and its negation split a list: each element lands in exactly one filter, as often as it occurs. |
| SlotScenarios.MorningWalk | lib/agenda/slots.ts:80-104 | A 09:00-12:00 rule with 30-minute appointments yields the six half-hours from 09:00 to 11:30. |
| SlotScenarios.ScenarioFreeMorning | lib/agenda/slots.ts:77-108 | With nothing occupied, that morning offers all six half-hours in order. |
| SlotScenarios.ScenarioAppointmentAtTen | lib/agenda/slots.ts:90-95 | An appointment 10:00-10:30 removes only the 10:00 slot. The touching 09:30 and 10:30 slots stay. |
| SlotScenarios.ScenarioBlackoutMorning | lib/agenda/slots.ts:48-54 | A blackout from 09:00 to 09:45 removes the 09:00 and 09:30 slots and leaves 10:00 through 11:30. |
| Chat.ParseFecha | hooks/useChat.ts:21-25 | The date parser answers null exactly when the message neither starts with "FECHA:" nor trims to a YYYY-MM-DD date. What it returns has no edge white space. With the prefix it is the trimmed rest after "FECHA:", possibly empty. Without the prefix it is exactly the trimmed message, which then has the date shape. |
| Chat.ParseFechaBareDate | hooks/useChat.ts:23-25 | A YYYY-MM-DD date with only white space around it parses to that date. |
| Chat.ParseFechaRoundTrip | hooks/useChat.ts:21-22 | Parsing "FECHA:" followed by a trimmed date returns that date. |
| Chat.ParseFechaPadded | hooks/useChat.ts:21-22 | After "FECHA:", a non-empty date with white space only around it parses to that date. |
| Chat.ParseSlot | hooks/useChat.ts:27-38 | The slot parser succeeds exactly when the message starts with "SLOT:" and the trimmed rest parses as JSON with truthy `inicio` and `fin`. The slot returned is then exactly that parsed object's `inicio` and `fin`, both non-empty. |
| Chat.ParseSlotRoundTrip | hooks/useChat.ts:185-186 | A "SLOT:" message built from a slot's JSON parses back to that slot. |
| Chat.ParseSlotPadded | hooks/useChat.ts:28-31 | White space around the JSON after "SLOT:" is trimmed before parsing, so the padded message parses like the unpadded one. |
| Chat.ParsersDisjoint | hooks/useChat.ts:21-38 | A "FECHA:" message is never read as a slot. A "SLOT:" message is read as a date only if its trimmed text is a date. |
| Chat.LastPickedWins | hooks/useChat.ts:48-55 | Scanning the history keeps the last hit: none exactly when no message yields one, otherwise one message's value with no later hit. |
| Chat.LastFechaWins | hooks/useChat.ts:48-51 | The chosen date is the date of the last patient message that carries one, and none exactly when no such message exists. |
| Chat.DerivarPaso | hooks/useChat.ts:40-69 | The derived date and slot are the last ones the patient sent. The step follows from the last system message and the date, and is never the error step. |
| Chat.NonSistemaTailIgnored | hooks/useChat.ts:48-58 | A trailing non-system message that carries neither a date nor a slot changes nothing in the derivation. |
| Chat.PasoPriorities | hooks/useChat.ts:57-68 | The last system text decides the step. A confirmation marker wins, then "Confirmar cita", then "Horarios disponibles" or "horarios disponibles", each exactly when no earlier marker is present. Without any marker the step is the date step exactly when a date was chosen, and the start step otherwise. |
| Chat.ConfirmarSubsumed | hooks/useChat.ts:62 | A text containing "¿Confirmar cita" already contains "Confirmar cita", so the first test of that branch is redundant. |
| Chat.SentFechaDerived | hooks/useChat.ts:149 | After the patient sends "FECHA:" + a date, re-deriving yields that date, and the last system text is unchanged. |
| Chat.SentSlotDerived | hooks/useChat.ts:185-186 | After the patient sends a slot, re-deriving yields that slot. |
| Chat.AvisoMarkers | hooks/useChat.ts:157-159 | The no-slots notice contains "horarios disponibles" and none of the confirmation markers. |
| Chat.SinHorariosShowsSlots | hooks/useChat.ts:156-166 | After the no-slots notice, re-deriving yields the slot-list step, although the live hook shows the start step. |
| Chat.AppendNuevo | hooks/useChat.ts:123-127 | A realtime message extends the history, which then holds its id. |
| Chat.AppendNuevoProps | hooks/useChat.ts:123-127 | The append is the identity exactly when the id is already present, and otherwise adds the message at the end. It keeps ids unique and is idempotent. |
| Calendar.DaysSinceMonday | app/profesional/calendario/page.tsx:54-55 | Stepping back from any weekday by the source's offset lands on a Monday. |
| Calendar.SemanaRango | app/profesional/calendario/page.tsx:53-60 | The week view runs from a local Monday midnight to the following Sunday at 23:59:59.999 and contains the base date. |
| Calendar.SemanaRangoUnique | app/profesional/calendario/page.tsx:53-60 | Any local Monday midnight m with m <= base < m + 7 days is the start of the week range, so the range starts at the unique such Monday. |
| Calendar.SemanaDias | app/profesional/calendario/page.tsx:80-84 | The week view lists seven days, each one local day after the last, at the same time of day, with weekdays in consecutive order. |
| Calendar.SemanaDiasCover | app/profesional/calendario/page.tsx:53-60 | The seven listed days run Monday to Sunday, each at local midnight, and exactly cover the week range. |
| Calendar.MesRango | app/profesional/calendario/page.tsx:61-63 | The month view starts at local midnight on the 1st of the base date's month and ends one second before the 1st of the next month. The range spans 28 to 31 days. |
| Calendar.MonthSpan | app/profesional/calendario/page.tsx:62-63 | The local 1st of one month and the 1st of the next (the month may carry into the year) lie 28 to 31 days apart. |
| Calendar.LocalDateFacts | app/profesional/calendario/page.tsx:62-63 | A local calendar date falls at local midnight, and the next day falls one day later. |
| Calendar.MesDias | app/profesional/calendario/page.tsx:85-91 | The month listing holds each day from the start while it does not pass the end, one day apart, with one day per started day of the range. |
| Calendar.CitasEnRango | app/profesional/calendario/page.tsx:68-73 | An appointment is shown exactly when its start lies in the closed range. |
| Calendar.CitasEnRangoAppend | app/profesional/calendario/page.tsx:68-73 | Filtering a concatenation of appointment lists filters each list. |
| Calendar.DiaRangoAsWritten | app/profesional/calendario/page.tsx:50-52 | As written, the day view's range is the single instant of the base date. |
| Calendar.DiaRangoMissesSameDay | app/profesional/calendario/page.tsx:50-52 | With a base of 10:15:23.456, an appointment at 11:00 that same day falls outside the day view's range. |
| Calendar.DiaRango | app/profesional/calendario/page.tsx:50-52 | The corrected day range runs from local midnight for one whole day and contains the base date. |
| Calendar.DiaRangoIff | app/profesional/calendario/page.tsx:50-52 | Under the corrected range, an appointment is shown exactly when it starts on the base date's local day. |
| Calendar.RangoVista | app/profesional/calendario/page.tsx:46-66 | As written, the week and month ranges start at local midnight and the week range contains the base date. The day range is the single instant of the base date. |
| Calendar.RangoVistaCorregido | app/profesional/calendario/page.tsx:46-66 | With the corrected day range, every view's range starts at local midnight and the day and week ranges contain the base date. The day range holds exactly the instants of the base date's local day. The week and month ranges are those of the code as written. |
| Calendar.MesOffset | app/profesional/calendario/page.tsx:410-412 | The number of leading blanks in the month grid is the first day's weekday counted from Monday, in 0..6. |
| Calendar.MesFilas | app/profesional/calendario/page.tsx:414-428 | The grid rows have seven cells each, and read in order they are the leading blanks, every day once in order, then fewer than seven trailing blanks. |
| Calendar.DayInWeekdayColumn | app/profesional/calendario/page.tsx:410-428 | Every day of the month sits in the grid column of its weekday, Monday first. |
| Calendar.Truncar | app/profesional/calendario/page.tsx:374-395 | A cell shows the first two slots (all of them when there are at most two), and shows "+N más" exactly when there are more than two. Shown plus hidden slots count all of them. |
| Calendar.TruncarAccounts | app/profesional/calendario/page.tsx:374-395 | The shown slots followed by the hidden ones give back the cell's list. The "+N" count is the number hidden, and nothing is hidden when no count shows. |
| PacienteCitas.FuturasPasadasPartition | app/paciente/citas/page.tsx:41-47 | Every appointment is listed exactly once, as upcoming or as past. |
| PacienteCitas.FuturasMembers | app/paciente/citas/page.tsx:41-47 | An appointment is upcoming exactly when it is scheduled and has not started. Cancelled and completed appointments are always past. |
| PacienteCitas.FuturasPasadasOrder | app/paciente/citas/page.tsx:43-47 | Upcoming appointments are listed soonest first, and past ones most recent first. |
| Suscripcion.ActivaByDay | app/profesional/dashboard/EstadoSuscripcionCard.tsx:62-67 | With well-formed dates, the card shows the subscription active exactly when its state is "activa" and today lies between the start and end dates, both included, as calendar dates. |
| Suscripcion.InactiveCases | app/profesional/dashboard/EstadoSuscripcionCard.tsx:32-67 | The card shows a subscription as active exactly when the load succeeded and the row it read is active. A failed load, a state other than "activa", or a missing date always means inactive. |
| Suscripcion.ActivaOnUtcDay | app/profesional/dashboard/EstadoSuscripcionCard.tsx:61-67 | With today taken as the UTC date of the current instant, activity depends on that UTC day lying within the subscription's dates. |
| AdminRoute.StripBearer | app/api/admin/suscripcion/route.ts:15 | The key is a suffix of the header. It differs from the header exactly when the header starts with "Bearer" in any letter case followed by white space. Then only those six letters and the whole white space run after them are removed. |
| AdminRoute.Patch | app/api/admin/suscripcion/route.ts:12-66 | An update is attempted exactly when the caller is authorised and the body is valid, and then with the body's id and state. The answer is 200 exactly when the update returns a row, and carries that row. Every answer is 200, 400, 401, 404 or 500. |
| AdminRoute.UnauthorisedIgnoresBody | app/api/admin/suscripcion/route.ts:14-19 | An unauthorised request gets the same 401 whatever its body and whatever the database would do. |
| AdminRoute.NoSecretRefusesAll | app/api/admin/suscripcion/route.ts:16-19 | Without either secret configured, every request is refused. |
| AdminRoute.AdminKeySources | app/api/admin/suscripcion/route.ts:14-15 | The key comes from `x-admin-key` when present, else from a Bearer token in `authorization` in any case. With neither header, no request is authorised. |
| AdminRoute.BearerNeedsSpace | app/api/admin/suscripcion/route.ts:15 | "Bearer" glued to the token, with no white space, is not stripped. |
| AdminRoute.ValidationOrder | app/api/admin/suscripcion/route.ts:21-35 | For an authorised caller, an unreadable body gives 500 with the parser's message. A bad id gives "Falta profesionalId" before the state is looked at, and a bad state then gives the state message. |
| AdminRoute.UpdateOutcomes | app/api/admin/suscripcion/route.ts:37-65 | For a valid request, a database error gives 500 with its message, a thrown error gives 500, and no matching row gives 404. |
| Metricas.CountTag | lib/metricas.ts:48-51 | The count for an event name is its number of occurrences among the rows. |
| Metricas.ResumenDe | lib/metricas.ts:47-61 | Each of the four counts is the number of rows carrying that event, and the active flag is passed through. |
| Metricas.TagsDisjoint | lib/metricas.ts:5-10 | The four counts together never exceed the number of rows. |
| Metricas.CountsBounded | lib/metricas.ts:47-61 | The summary's four counts add up to at most the number of rows. |
| Metricas.CountsAllIffTagged | lib/metricas.ts:5-10 | The counts add up to the number of rows exactly when every row carries one of the four known events. |
| Metricas.OrderIrrelevant | lib/metricas.ts:47-51 | The summary does not depend on the order of the rows. |
| Notificaciones.NoLeidas | hooks/useNotificaciones.ts:73-76 | The unread count never exceeds the number of notifications. |
| Notificaciones.MarcarLocal | hooks/useNotificaciones.ts:51-53 | Marking one notification read sets `leida` on those with that id, and changes nothing else anywhere. |
| Notificaciones.MarcarTodasLocal | hooks/useNotificaciones.ts:66 | Marking all read sets every `leida`, and changes nothing else. |
| Notificaciones.MarcarLeida | hooks/useNotificaciones.ts:47-60 | On success the matching notification becomes read. On failure the list is unchanged and a refetch is requested. |
| Notificaciones.MarcarTodasLeidas | hooks/useNotificaciones.ts:62-71 | Without a user nothing happens. On success all become read, and on failure the list is unchanged and a refetch is requested. |
| Notificaciones.NoLeidasZeroIff | hooks/useNotificaciones.ts:73-76 | The unread count is zero exactly when every notification is read. |
| Notificaciones.MarcarTodasClears | hooks/useNotificaciones.ts:66-76 | After marking all read, the unread count is zero. |
| Notificaciones.MarcarLocalUnread | hooks/useNotificaciones.ts:51-53 | After marking one id, the unread ones are the previously unread ones with another id, and there are never more than before. |
| Notificaciones.MarcarIdempotent | hooks/useNotificaciones.ts:51-66 | Marking read twice is marking read once. |
| Notificaciones.NeverMoreUnread | hooks/useNotificaciones.ts:47-71 | Neither action ever increases the unread count, whether the server call succeeds or fails. |
| Slug.Collapse | lib/utils/slug.ts:11 | The result is made of [a-z0-9] and '-' with no doubled '-', starts with '-' exactly when the input starts with a character other than [a-z0-9], and is empty exactly when the input is. |
| Slug.Normalizar | lib/utils/slug.ts:5-13 | The normalised name is always a valid slug: non-empty, made of [a-z0-9-], with no edge or doubled '-'. |
| Slug.NormalizarKeepsAlnum | lib/utils/slug.ts:5-13 | The slug keeps every letter and digit of the folded, mark-free name, in order. When there are none, the slug is "usuario". |
| Slug.CollapseRun | lib/utils/slug.ts:11 | A non-empty run of characters other than [a-z0-9], followed by the end or by a letter or digit, collapses to a single '-'. |
| Slug.CollapseSeparator | lib/utils/slug.ts:11 | Letters and digits, then a run of other characters, then a letter or digit or the end: the letters and digits are kept, and the run becomes exactly one '-' before the collapsed rest. So "a!b" gives "a-b". |
| Slug.CollapseFixed | lib/utils/slug.ts:11 | A string already made of slug characters with no doubled '-' is left unchanged. |
| Slug.NormalizarIdempotent | lib/utils/slug.ts:5-13 | Normalising a slug again changes nothing, provided the case folding leaves slug characters alone. |
| Slug.SufijoCorto | lib/utils/slug.ts:15-22 | The suffix is six characters, each the character at `floor(draw · 36)` of the alphabet, so each is a lower-case letter or a digit. |
| Slug.SufijoReachable | lib/utils/slug.ts:15-22 | For every six-character string of lower-case letters and digits there are six draws in [0, 1) whose picks spell it, so every suffix can occur. |
| Slug.SlugCandidato | lib/utils/slug.ts:15-27 | The candidate is the normalised name, a '-', then six characters, each the alphabet character its random draw picks. The candidate is itself a valid slug. |
| DisponibilidadForm.Cambiar | app/profesional/disponibilidad/page.tsx:105-148 | Each form control changes only its own field. A select stores one of its options, so a form whose selects were valid stays valid, and a time input stores the text typed. |
| DisponibilidadForm.SelectsStayValid | app/profesional/disponibilidad/page.tsx:107-148 | Through any sequence of edits and submissions, the day stays in 0..6 and the duration stays one of 15, 30, 45 or 60. |
| DisponibilidadForm.EnviarRegla | app/profesional/disponibilidad/page.tsx:32-58 | The error line is cleared exactly when the save succeeds. A successful save resets the form to Monday 09:00-17:00, 30 minutes, whose selects are valid. A failed save keeps the form, so valid selects stay valid, and shows the error message, or "Error al guardar" when there is none. |
| DisponibilidadForm.SentRulesTerminate | app/profesional/disponibilidad/page.tsx:37-42 | A rule sent from the form has a positive duration, so the slot engine's walk over it ends. |
| DisponibilidadForm.InvertedRuleNoSlots | app/profesional/disponibilidad/page.tsx:37-42 | A rule whose end is before its start, or whose window is shorter than its duration, is accepted but yields no slots. |
| DisponibilidadForm.EnviarBloqueo | app/profesional/disponibilidad/page.tsx:60-88 | Missing dates give "Indica fecha de inicio y fin". A sent blackout runs from local midnight of the first date to 23:59:59 of the last, starts before it ends, and carries the trimmed reason or null. Success clears the form, and failure keeps it. |
| DisponibilidadForm.BloqueoOrderIff | app/profesional/disponibilidad/page.tsx:68-73 | A blackout is sent exactly when its start precedes its end. Otherwise the form shows "La fecha de fin debe ser posterior a la de inicio". |
| DisponibilidadForm.BloqueoEdgeCases | app/profesional/disponibilidad/page.tsx:64-79 | A single-day blackout is accepted and an end a day or more before the start is refused. An unparseable date passes the order check, because comparisons with an invalid date are false, and then fails with "Invalid time value" when it is sent. |

## Left out

- The engine's termination precondition: `Slots.GetSlotsDisponibles` requires that the walk of every selected rule ends, that is, a positive duration or an empty window (`Slots.SelectedWalksEnd`). A stored rule with duration 0 or less and a non-empty window would loop forever in the source. Rules entered through the form always satisfy the requirement (`DisponibilidadForm.SentRulesTerminate`).
- `getSlotsDisponiblesRango` (lib/agenda/slots.ts:114-137): it only maps the one-day engine over consecutive dates with the same I/O, and is not modelled.
- Time zones: `Intl.DateTimeFormat` lookups are function parameters (`clockAt`, `labelAt`). No DST behaviour is assumed or modelled; the calendar page uses a fixed-offset local axis.
- Date string parsing (`new Date(iso)`, `"YYYY-MM-DD" + "T00:00:00"`) is a parameter (`localMidnight`). Instants enter as integers.
- The current instant (`new Date()` in the patient page and the subscription card) is a parameter.
- `Dates.FormatDate`: the `MAX_TIME` edges are modelled. Formatting a year beyond 9999 is modelled only as far as its sign character.
- `Sorting.SortBy`: the model sorts stably. `Array.prototype.sort` is stable in current engines, but ties are not otherwise stated.
- `Text.LexLe` compares `char` values. JavaScript compares UTF-16 code units, which differ only for characters outside the Basic Multilingual Plane.
- `Chat.ParseSlot`: `JSON.parse` is a parameter, and a truthy non-string `inicio`/`fin` is not represented. Fields are `Option<string>`.
- `Slug.Normalizar`: `toLowerCase()` and `normalize("NFD")` are one `fold` parameter, and the combining-mark removal is modelled on code points U+0300-U+036F.
- `Slug.SufijoCorto`: `Math.random()` values are the `draws` parameter.
- The database: reads and writes in the slot engine, the admin route, the hooks and the pages are parameters or inputs (`Slots.Store`, `actualizar`, `Guardado`).
- `Metricas.ResumenDe`: `getResumenMetricas` throws the read's error when the `eventos_sistema` query fails (lib/metricas.ts:45). The model takes the rows as read successfully, so that throw is outside the model, as is the `tieneSuscripcionActiva` call after it.
- `tieneSuscripcionActiva` (lib/suscripcion.ts) is not part of this model. Its result enters `Metricas.ResumenDe` as a flag.
- Headers, `process.env` and `request.json()` in the admin route and the middleware are parameters. Cookie handling and the Supabase client are left out.
- The middleware's `matcher` configuration (which paths reach the middleware at all) is left out.
- Navigation (`router.push`, the calendar's previous/next buttons) and rendering are left out. The pages' decisions are modelled as values.
- The calendar's per-hour cell filters (app/profesional/calendario/page.tsx:333-345) are left out: they bucket by `getHours()` on the browser clock.
- `Calendar.MesRango` models the month's end as one second before the next month starts, which matches `23:59:59` with zero milliseconds. Appointments in that last second are excluded, as in the source.
- The 500 ms pause after sign-up and the loading flags are left out.
- The chat's server calls (`enviarMensaje`, `getSlotsParaChat`) are left out. Only the messages they post are modelled.
- PacienteCitas.FuturasPasadasPartition: the partition is stated for a single clock reading `now`. The source calls `new Date()` once per element in each of the two filters (app/paciente/citas/page.tsx:42 and 46). A "programada" appointment that starts between the two readings can therefore appear in both lists, and that case is not modelled.
- Slots.GetSlotsDisponibles: `fecha` enters as an already parsed `CivilDate`. The `fecha.split("-").map(Number)` step (lib/utils/dates.ts:48) is not modelled, so a malformed string that gives `NaN` fields and then a `RangeError` from the date formatting is outside the model.
- `Intl.DateTimeFormat` throws a `RangeError` for an unknown time zone (lib/utils/dates.ts:23 and 50). The parameters `clockAt` and `labelAt` are total functions, so that error path is not modelled.
- Slots.GetSlotsDisponibles: the engine ignores the `error` of its three reads (lib/agenda/slots.ts:37-64). A read error is modelled as an empty read. A failed blackout or appointment read therefore offers slots that are in fact blocked or booked, and the model does not distinguish that from a day with no blackouts or appointments.

## Findings

| source | as written | input that shows it | evidently intended | confidence | as-written member | corrected member |
|---|---|---|---|---|---|---|
| app/profesional/calendario/page.tsx:50-52 | The day view's range is `inicio = fin = fechaBase`, a single instant, so the day view shows only appointments starting at exactly that millisecond. | Base date at 10:15:23.456; an appointment that day at 11:00 is not shown. | The range covers the whole local day of the base date, as the week and month views do. | not executed | Calendar.DiaRangoAsWritten, Calendar.DiaRangoMissesSameDay, Calendar.RangoVista | Calendar.DiaRango, Calendar.DiaRangoIff, Calendar.RangoVistaCorregido |

=== FILE: admin_route.dfy ===
/**
 * `PATCH /api/admin/suscripcion` (app/api/admin/suscripcion/route.ts): who
 * may call it, how the body is validated, and which status it answers. The
 * request headers, the two environment variables, the parsed JSON body and
 * the outcome of the database update are inputs.
 */
module AdminRoute {
  import opened Wrappers
  import opened Text

  /** `ESTADOS`. */
  const ESTADOS: seq<string> := ["activa", "inactiva"]

  const NO_AUTORIZADO := "No autorizado"
  const FALTA_PROFESIONAL := "Falta profesionalId"
  const ESTADO_INVALIDO := "estado debe ser 'activa' o 'inactiva'"
  const NO_ENCONTRADA := "No se encontró suscripción para ese profesional"
  const ERROR_INTERNO := "Error interno"

  /** The request headers the route reads; `None` is a header that is not sent. */
  datatype Headers = Headers(xAdminKey: Option<string>, authorization: Option<string>)

  /** `ADMIN_SECRET` and `SUPABASE_SERVICE_ROLE_KEY`; `None` is unset. */
  datatype Env = Env(adminSecret: Option<string>, serviceRoleKey: Option<string>)

  /** A property of the JSON body: missing, a string, or another JSON value (with its truthiness). */
  datatype Campo = Ausente | Texto(s: string) | OtroValor(truthy: bool)

  /**
   * The body: `request.json()` together with the destructuring, which throws
   * (an `Error`) for malformed JSON or a `null` body, or yields the two fields.
   */
  datatype Cuerpo = CuerpoInvalido(message: string) | Cuerpo(profesionalId: Campo, estado: Campo)

  /** How the update settled: thrown (with `e.message` when `e` is an `Error`), an error object, or the row or none. */
  datatype Actualizacion<R> = Lanzada(thrown: Option<string>) | ErrorDb(message: string) | Fila(data: Option<R>)

  /** The JSON of the response. */
  datatype Payload<R> = ErrorPayload(error: string) | SuscripcionPayload(suscripcion: R)

  /** The response, and the update the route issued (professional and status) if it got that far. */
  datatype Respuesta<R> = Respuesta(status: int, payload: Payload<R>, update: Option<(string, string)>)

  /** ASCII case-insensitive equality of two characters, as the `i` flag compares letters. */
  predicate SameLetterIgnoringCase(c: char, d: char) {
    c == d || ('a' <= c <= 'z' && d as int == c as int - 32) || ('A' <= c <= 'Z' && d as int == c as int + 32)
  }

  /** `s` starts with "Bearer" in any letter case. */
  predicate StartsWithBearer(s: string) {
    |s| >= 6 && forall i :: 0 <= i < 6 ==> SameLetterIgnoringCase(s[i], "Bearer"[i])
  }

  /**
   * `.replace(/^Bearer\s+/i, "")`: the key is a suffix of the header. It
   * differs from the header exactly when "Bearer" (any case) is followed by
   * whitespace, and then what was removed is "Bearer" with the whole
   * whitespace run after it.
   */
  function StripBearer(s: string): (r: string)
    ensures |r| <= |s| && r == s[|s| - |r|..]
    ensures r != s <==> StartsWithBearer(s) && |s| > 6 && IsSpace(s[6])
    ensures r != s ==> (&& |s| - |r| > 6
                        && (forall j :: 6 <= j < |s| - |r| ==> IsSpace(s[j]))
                        && (|r| == 0 || !IsSpace(r[0])))
  {
    if StartsWithBearer(s) && |s| > 6 && IsSpace(s[6]) then TrimStart(s[6..]) else s
  }

  /** `adminKey`: `x-admin-key` if sent (even empty), else the authorization header without its Bearer prefix, else "". */
  function AdminKey(h: Headers): string {
    match h.xAdminKey
    case Some(k) => k
    case None =>
      match h.authorization
      case Some(a) => StripBearer(a)
      case None => ""
  }

  /** `secret`: `ADMIN_SECRET` unless it is unset or empty, else the service role key. */
  function Secret(env: Env): Option<string> {
    if Truthy(env.adminSecret) then env.adminSecret else env.serviceRoleKey
  }

  predicate Autorizado(h: Headers, env: Env) {
    Truthy(Secret(env)) && AdminKey(h) == Secret(env).value
  }

  /** `!profesionalId || typeof profesionalId !== "string"` fails. */
  predicate ProfesionalValido(c: Campo) {
    c.Texto? && c.s != ""
  }

  /** `estado` is one of `ESTADOS` (`includes` matches only those exact strings). */
  predicate EstadoValido(c: Campo) {
    c.Texto? && c.s in ESTADOS
  }

  /**
   * `PATCH`. `actualizar(profesionalId, estado)` is the outcome of the update
   * of that professional's live subscription, which the route only reaches
   * with an authorised caller and a valid body.
   */
  function Patch<R>(h: Headers, env: Env, body: Cuerpo, actualizar: (string, string) -> Actualizacion<R>): (r: Respuesta<R>)
    ensures r.update.Some? <==> Autorizado(h, env) && body.Cuerpo? && ProfesionalValido(body.profesionalId) && EstadoValido(body.estado)
    ensures r.update.Some? ==> r.update.value == (body.profesionalId.s, body.estado.s)
    ensures r.status == 200 <==> r.update.Some? && actualizar(r.update.value.0, r.update.value.1).Fila? && actualizar(r.update.value.0, r.update.value.1).data.Some?
    ensures r.status == 200 ==> r.payload == SuscripcionPayload(actualizar(r.update.value.0, r.update.value.1).data.value)
    ensures r.status in {200, 400, 401, 404, 500}
  {
    if !Autorizado(h, env) then Respuesta(401, ErrorPayload(NO_AUTORIZADO), None)
    else match body
      case CuerpoInvalido(m) => Respuesta(500, ErrorPayload(m), None)
      case Cuerpo(p, e) =>
        if !ProfesionalValido(p) then Respuesta(400, ErrorPayload(FALTA_PROFESIONAL), None)
        else if !EstadoValido(e) then Respuesta(400, ErrorPayload(ESTADO_INVALIDO), None)
        else
          var update := (p.s, e.s);
          match actualizar(p.s, e.s)
          case Lanzada(m) => Respuesta(500, ErrorPayload(m.GetOr(ERROR_INTERNO)), Some(update))
          case ErrorDb(m) => Respuesta(500, ErrorPayload(m), Some(update))
          case Fila(None) => Respuesta(404, ErrorPayload(NO_ENCONTRADA), Some(update))
          case Fila(Some(row)) => Respuesta(200, SuscripcionPayload(row), Some(update))
  }

  /**
   * An unauthorised request gets 401 whatever its body and whatever the
   * database would answer: the body is not read and nothing is updated.
   */
  lemma UnauthorisedIgnoresBody<R>(h: Headers, env: Env, b1: Cuerpo, b2: Cuerpo,
                                   a1: (string, string) -> Actualizacion<R>, a2: (string, string) -> Actualizacion<R>)
    requires !Autorizado(h, env)
    ensures Patch(h, env, b1, a1) == Patch(h, env, b2, a2) == Respuesta(401, ErrorPayload(NO_AUTORIZADO), None)
  {
  }

  /** With neither secret configured (unset or empty) every request is refused. */
  lemma NoSecretRefusesAll<R>(h: Headers, env: Env, body: Cuerpo, actualizar: (string, string) -> Actualizacion<R>)
    requires !Truthy(env.adminSecret) && !Truthy(env.serviceRoleKey)
    ensures Patch(h, env, body, actualizar).status == 401
  {
  }

  /**
   * The key: `x-admin-key` wins whenever it is sent, even empty; otherwise a
   * "Bearer <token>" authorization header (any case of "Bearer") gives the
   * token; with neither header the key is "" and can never match a secret.
   */
  lemma AdminKeySources(h: Headers, token: string, prefix: string)
    requires |prefix| == 6 && forall i :: 0 <= i < 6 ==> SameLetterIgnoringCase(prefix[i], "Bearer"[i])
    requires |token| == 0 || !IsSpace(token[0])
    ensures h.xAdminKey.Some? ==> AdminKey(h) == h.xAdminKey.value
    ensures h.xAdminKey.None? && h.authorization == Some(prefix + " " + token) ==> AdminKey(h) == token
    ensures h == Headers(None, None) ==> AdminKey(h) == "" && forall env: Env :: !Autorizado(h, env)
  {
    var a := prefix + " " + token;
    assert a[..6] == prefix && a[6] == ' ' && a[7..] == token && a[6..][1..] == token;
    assert StartsWithBearer(a);
  }

  /** An authorisation header without a whitespace after "Bearer" is used whole as the key. */
  lemma BearerNeedsSpace(token: string)
    requires |token| == 0 || !IsSpace(token[0])
    ensures StripBearer("Bearer" + token) == "Bearer" + token
  {
  }

  /**
   * With an authorised caller the body decides in order: a body that cannot
   * be read is a 500, then a bad `profesionalId` is a 400 before a bad
   * `estado` is.
   */
  lemma ValidationOrder<R>(h: Headers, env: Env, body: Cuerpo, actualizar: (string, string) -> Actualizacion<R>)
    requires Autorizado(h, env)
    ensures body.CuerpoInvalido? ==> Patch(h, env, body, actualizar) == Respuesta(500, ErrorPayload(body.message), None)
    ensures body.Cuerpo? && !ProfesionalValido(body.profesionalId) ==>
      Patch(h, env, body, actualizar) == Respuesta(400, ErrorPayload(FALTA_PROFESIONAL), None)
    ensures body.Cuerpo? && ProfesionalValido(body.profesionalId) && !EstadoValido(body.estado) ==>
      Patch(h, env, body, actualizar) == Respuesta(400, ErrorPayload(ESTADO_INVALIDO), None)
  {
  }

  /** Once the update runs: an error is a 500 carrying its message, no row is a 404. */
  lemma UpdateOutcomes<R>(h: Headers, env: Env, p: string, e: string, actualizar: (string, string) -> Actualizacion<R>)
    requires Autorizado(h, env) && p != "" && e in ESTADOS
    ensures var r := Patch(h, env, Cuerpo(Texto(p), Texto(e)), actualizar);
      && (actualizar(p, e).ErrorDb? ==> r.status == 500 && r.payload == ErrorPayload(actualizar(p, e).message))
      && (actualizar(p, e).Lanzada? ==> r.status == 500)
      && (actualizar(p, e) == Fila(None) ==> r.status == 404 && r.payload == ErrorPayload(NO_ENCONTRADA))
  {
  }
}

=== FILE: agenda_types.dfy ===
/**
 * The agenda's data model (`types/agenda.ts`): appointment status and origin,
 * weekly availability rules, blackout periods, appointments and time slots.
 *
 * Timestamps that the source keeps as ISO strings are integer milliseconds
 * here; the rule times `hora_inicio` / `hora_fin` stay strings, because the
 * engine parses them itself. A row's `deleted_at` is reduced to whether it is
 * set.
 */
module AgendaTypes {
  import opened Wrappers
  import Dates

  /** `EstadoCita`. */
  datatype EstadoCita = Programada | Cancelada | Completada

  /** `OrigenCita`. */
  datatype OrigenCita = Formulario | Chat

  function EstadoName(e: EstadoCita): string {
    match e
    case Programada => "programada"
    case Cancelada => "cancelada"
    case Completada => "completada"
  }

  /** Reads a stored status; only the three literals of the union type are statuses. */
  function ParseEstado(s: string): (r: Option<EstadoCita>)
    ensures r.Some? <==> s == "programada" || s == "cancelada" || s == "completada"
    ensures r.Some? ==> EstadoName(r.value) == s
  {
    if s == "programada" then Some(Programada)
    else if s == "cancelada" then Some(Cancelada)
    else if s == "completada" then Some(Completada)
    else None
  }

  /** Every status is exactly one of the three literals, and reads back as itself. */
  lemma EstadoRoundTrip(e: EstadoCita)
    ensures ParseEstado(EstadoName(e)) == Some(e)
    ensures EstadoName(e) in {"programada", "cancelada", "completada"}
  {
  }

  function OrigenName(o: OrigenCita): string {
    match o
    case Formulario => "formulario"
    case Chat => "chat"
  }

  function ParseOrigen(s: string): (r: Option<OrigenCita>)
    ensures r.Some? <==> s == "formulario" || s == "chat"
    ensures r.Some? ==> OrigenName(r.value) == s
  {
    if s == "formulario" then Some(Formulario)
    else if s == "chat" then Some(Chat)
    else None
  }

  lemma OrigenRoundTrip(o: OrigenCita)
    ensures ParseOrigen(OrigenName(o)) == Some(o)
  {
  }

  /** A weekly availability rule (`Disponibilidad`); `diaSemana` is 0 = lunes … 6 = domingo. */
  datatype Disponibilidad = Disponibilidad(
    profesionalId: string,
    diaSemana: int,
    horaInicio: string,
    horaFin: string,
    duracionCitaMin: int,
    deleted: bool)

  /** A blackout period (`BloqueoAgenda`). */
  datatype BloqueoAgenda = BloqueoAgenda(
    profesionalId: string,
    fechaInicio: int,
    fechaFin: int,
    motivo: Option<string>,
    deleted: bool)

  /** An appointment (`Cita`). */
  datatype Cita = Cita(
    id: string,
    profesionalId: string,
    pacienteId: string,
    inicio: int,
    fin: int,
    estado: EstadoCita,
    origen: OrigenCita,
    deleted: bool)

  /** A bookable interval (`TimeSlot`): the instants `inicio` and `fin`. */
  datatype TimeSlot = TimeSlot(inicio: int, fin: int)

  /** Day names shown by the availability form, indexed by `diaSemana`. */
  const DIAS_SEMANA: seq<string> := ["Lunes", "Martes", "Miércoles", "Jueves", "Viernes", "Sábado", "Domingo"]

  /**
   * One weekday convention throughout: the index of a day name in
   * `DIAS_SEMANA` is the number that `getDayOfWeek` gives the matching
   * weekday label, so Monday is 0 and Sunday is 6.
   */
  lemma WeekdayConvention()
    ensures |DIAS_SEMANA| == |Dates.WEEKDAY_LABELS| == 7
    ensures forall i :: 0 <= i < 7 ==> Dates.WeekdayFromLabel(Dates.WEEKDAY_LABELS[i]) == i
    ensures DIAS_SEMANA[Dates.WeekdayFromLabel("Mon")] == "Lunes"
    ensures DIAS_SEMANA[Dates.WeekdayFromLabel("Sun")] == "Domingo"
  {
    assert Dates.WEEKDAY_LABELS[0] == "Mon";
    assert Dates.WEEKDAY_LABELS[1] == "Tue";
    assert Dates.WEEKDAY_LABELS[2] == "Wed";
    assert Dates.WEEKDAY_LABELS[3] == "Thu";
    assert Dates.WEEKDAY_LABELS[4] == "Fri";
    assert Dates.WEEKDAY_LABELS[5] == "Sat";
    assert Dates.WEEKDAY_LABELS[6] == "Sun";
  }
}

=== FILE: auth_pages.dfy ===
/**
 * The pure decisions of the sign-in and sign-up pages (`app/login/page.tsx`,
 * `app/registro/page.tsx`): the open-redirect sanitiser of the `redirect`
 * query parameter, the role preselected from the `role` parameter, the
 * metadata sent with the sign-up, and the page a successful submit navigates
 * to. The Supabase calls are parameters: their error message, whether a user
 * came back, and the role stored in the profile.
 */
module AuthPages {
  import opened Wrappers
  import opened Text
  import opened Roles
  import opened Guards
  import Middleware

  /**
   * A path that stays on this origin: it starts with exactly one "/" (so it
   * is not protocol-relative) and has no ":" anywhere (so no scheme).
   */
  predicate SameOriginPath(p: string) {
    |p| > 0 && p[0] == '/' && (|p| == 1 || p[1] != '/') && ':' !in p
  }

  /**
   * The sanitiser both pages apply to the `redirect` parameter (`None` is an
   * absent parameter): the value is kept when it is truthy, starts with "/",
   * does not start with "//" and does not include ":".
   */
  function SanitizeRedirect(raw: Option<string>): Option<string> {
    if raw.Some? && |raw.value| > 0 && "/" <= raw.value && !("//" <= raw.value) && !Contains(raw.value, ":")
    then raw
    else None
  }

  /** `includes` of a one-character string is membership of that character. */
  lemma ContainsChar(s: string, c: char)
    ensures Contains(s, [c]) <==> c in s
  {
    ContainsAt(s, [c]);
    if c in s {
      var i :| 0 <= i < |s| && s[i] == c;
      assert OccursAt(s, [c], i);
    }
    if exists i :: OccursAt(s, [c], i) {
      var i :| OccursAt(s, [c], i);
      assert s[i] == s[i..i + 1][0];
    }
  }

  /**
   * The sanitiser keeps exactly the same-origin paths, returns them
   * unchanged, and drops an absent parameter; so a kept value can never
   * lead off the site.
   */
  lemma SanitizeRedirectIff(raw: Option<string>)
    ensures SanitizeRedirect(raw).Some? <==> raw.Some? && SameOriginPath(raw.value)
    ensures SanitizeRedirect(raw).Some? ==> SanitizeRedirect(raw) == raw
    ensures raw.None? ==> SanitizeRedirect(raw).None?
  {
    if raw.Some? {
      var p := raw.value;
      ContainsChar(p, ':');
      assert ":" == [':'];
      if |p| > 1 {
        assert "//" <= p <==> p[0] == '/' && p[1] == '/';
      } else {
        assert !("//" <= p);
      }
    }
  }

  /** Sanitising twice is sanitising once. */
  lemma SanitizeRedirectIdempotent(raw: Option<string>)
    ensures SanitizeRedirect(SanitizeRedirect(raw)) == SanitizeRedirect(raw)
  {
  }

  /**
   * The gate's round trip: a path the gate sends to the login page comes back
   * as the login page's `redirect` exactly when it is a same-origin path.
   */
  lemma LoginReturnsToRequestedPath(pathname: string, role: Option<string>)
    requires Middleware.Decide(pathname, role, true).Redirect?
    requires Middleware.Decide(pathname, role, true).redirectParam.Some?
    ensures var param := Middleware.Decide(pathname, role, true).redirectParam;
            SanitizeRedirect(param) == (if SameOriginPath(pathname) then Some(pathname) else None)
  {
    SanitizeRedirectIff(Middleware.Decide(pathname, role, true).redirectParam);
  }

  /** What a submit does: show an error, do nothing, or navigate to a page. */
  datatype Outcome = ShowError(message: string) | Stay | Navigate(path: string)

  /** The sign-in page's destination: the sanitised redirect, else the role's dashboard, else the home page. */
  function LoginDestination(redirect: Option<string>, role: Option<string>): string {
    if redirect.Some? then redirect.value
    else if role == Some("profesional") then "/profesional/dashboard"
    else if role == Some("paciente") then "/paciente/dashboard"
    else "/"
  }

  /**
   * `handleSubmit` of the sign-in page: `signInError` is the error message of
   * `signInWithPassword`, `userPresent` whether `getUser` returned a user,
   * and `role` the profile's role.
   */
  function LoginSubmit(rawRedirect: Option<string>, signInError: Option<string>, userPresent: bool, role: Option<string>): (r: Outcome)
    ensures signInError.Some? ==> r == ShowError(signInError.value)
    ensures signInError.None? && !userPresent ==> r == Stay
    ensures r.Navigate? <==> signInError.None? && userPresent
  {
    if signInError.Some? then ShowError(signInError.value)
    else if !userPresent then Stay
    else Navigate(LoginDestination(SanitizeRedirect(rawRedirect), role))
  }

  /**
   * Without a redirect the sign-in lands where the gate lets the user
   * through: a valid role on its dashboard, anyone else on the home page.
   */
  lemma LoginDestinationPasses(role: Option<string>)
    ensures role.Some? && IsValidRole(role.value) ==> LoginDestination(None, role) == RutaParaRol(ParseRole(role.value).value)
    ensures !(role.Some? && IsValidRole(role.value)) ==> LoginDestination(None, role) == "/"
    ensures Middleware.Decide(LoginDestination(None, role), role, true) == Middleware.Next
  {
    if role.Some? && IsValidRole(role.value) {
      var r := ParseRole(role.value).value;
      assert role == Some(RoleName(r));
      DashboardPaths();
      assert LoginDestination(None, role) == RutaParaRol(r);
      Middleware.DashboardPasses(r);
    } else {
      assert LoginDestination(None, role) == "/";
      HomePasses(role);
    }
  }

  /** The home page lets through everyone but a signed-in profesional or paciente. */
  lemma HomePasses(role: Option<string>)
    requires role != Some("profesional") && role != Some("paciente")
    ensures Middleware.Decide("/", role, true) == Middleware.Next
  {
    EsRutaPublicaIff("/");
    NotEnlacePublico("", "");
    Middleware.OtherPublicPaths("/", role);
  }

  /** A sign-in that navigates goes to the kept redirect when there is one. */
  lemma LoginNavigatesToRedirect(rawRedirect: Option<string>, role: Option<string>)
    requires rawRedirect.Some? && SameOriginPath(rawRedirect.value)
    ensures LoginSubmit(rawRedirect, None, true, role) == Navigate(rawRedirect.value)
  {
    SanitizeRedirectIff(rawRedirect);
  }

  /**
   * The role the sign-up form starts with: "paciente", replaced only when the
   * `role` parameter is exactly one of the two role names.
   */
  function InitialRole(roleParam: Option<string>): (r: UserRole)
    ensures roleParam.Some? && IsValidRole(roleParam.value) ==> RoleName(r) == roleParam.value
    ensures !(roleParam.Some? && IsValidRole(roleParam.value)) ==> r == Paciente
  {
    if roleParam == Some("paciente") then Paciente
    else if roleParam == Some("profesional") then Profesional
    else Paciente
  }

  /**
   * The user metadata of the sign-up: `especialidad` is `None` when the key
   * is absent, `Some(None)` when it is sent as `null`.
   */
  datatype SignupMetadata = SignupMetadata(role: UserRole, fullName: Option<string>, especialidad: Option<Option<string>>)

  function Metadata(role: UserRole, fullName: string, especialidad: string): (m: SignupMetadata)
    ensures m.role == role
    ensures m.especialidad.Some? <==> role == Profesional
  {
    SignupMetadata(
      role,
      TrimmedOrNull(fullName),
      if role == Profesional then Some(TrimmedOrNull(especialidad)) else None)
  }

  /**
   * Reshaping the metadata's own fields gives it back: the trimmed values are
   * fixed points, and `null` round-trips as "".
   */
  lemma MetadataStable(role: UserRole, fullName: string, especialidad: string)
    ensures var m := Metadata(role, fullName, especialidad);
            Metadata(role, m.fullName.GetOr(""), if m.especialidad.Some? then m.especialidad.value.GetOr("") else especialidad) == m
  {
    TrimmedOrNullStable(fullName);
    TrimmedOrNullStable(especialidad);
  }

  /** The sign-up page's destination: the sanitised redirect, else the chosen role's dashboard. */
  function RegistroDestination(redirect: Option<string>, role: UserRole): string {
    if redirect.Some? then redirect.value
    else if role == Profesional then "/profesional/dashboard"
    else "/paciente/dashboard"
  }

  /**
   * `handleSubmit` of the sign-up page: a sign-up error shows its message, a
   * missing user shows a fixed message, and otherwise the page navigates.
   */
  function RegistroSubmit(rawRedirect: Option<string>, role: UserRole, signUpError: Option<string>, userPresent: bool): (r: Outcome)
    ensures signUpError.Some? ==> r == ShowError(signUpError.value)
    ensures r.Navigate? <==> signUpError.None? && userPresent
    ensures !r.Navigate? ==> r.ShowError?
  {
    if signUpError.Some? then ShowError(signUpError.value)
    else if !userPresent then ShowError("Error al crear el usuario.")
    else Navigate(RegistroDestination(SanitizeRedirect(rawRedirect), role))
  }

  /**
   * For a valid role the two pages agree on the destination, and without a
   * redirect a new user lands on their own dashboard, which the gate lets
   * through.
   */
  lemma DestinationsAgree(redirect: Option<string>, role: UserRole)
    ensures RegistroDestination(redirect, role) == LoginDestination(redirect, Some(RoleName(role)))
    ensures RegistroDestination(None, role) == RutaParaRol(role)
    ensures Middleware.Decide(RegistroDestination(None, role), Some(RoleName(role)), true) == Middleware.Next
  {
    assert RoleName(Profesional)[1] != RoleName(Paciente)[1];
    assert RegistroDestination(None, role) == RutaParaRol(role) by {
      assert Guards.PREFIJO_PROFESIONAL + "/dashboard" == "/profesional/dashboard";
      assert Guards.PREFIJO_PACIENTE + "/dashboard" == "/paciente/dashboard";
    }
    Middleware.DashboardPasses(role);
  }
}

=== FILE: availability_form.dfy ===
/**
 * The two forms of the availability page
 * (app/profesional/disponibilidad/page.tsx): adding a weekly rule and adding
 * a blackout period. Each submit handler is a function of the form's fields
 * and of how the save call settled; the page's `Date` parsing of a
 * `YYYY-MM-DD` field at local midnight is a parameter.
 */
module DisponibilidadForm {
  import opened Wrappers
  import Text
  import Dates
  import opened AgendaTypes
  import Slots

  /** How an awaited save call settled: resolved, or threw (with `err.message` when `err` is an `Error`). */
  datatype Guardado = Guardado | Fallo(message: Option<string>)

  /** The message shown for a failed save. */
  function SaveErrorText(message: Option<string>): string {
    message.GetOr("Error al guardar")
  }

  // ---------------------------------------------------------------------------
  // Weekly rule form
  // ---------------------------------------------------------------------------

  /** The rule form's fields: `nuevoDia`, `nuevaHoraInicio`, `nuevaHoraFin`, `nuevaDuracion`. */
  datatype ReglaForm = ReglaForm(dia: int, horaInicio: string, horaFin: string, duracion: int)

  /** The fields' initial values, also restored after a successful submit. */
  const REGLA_INICIAL := ReglaForm(0, "09:00", "17:00", 30)

  /** The options of the duration select. */
  const DURACIONES: seq<int> := [15, 30, 45, 60]

  /** What the controls can do to the rule form: pick a day or a duration option, type a time. */
  datatype ReglaCambio =
    | ElegirDia(opcion: nat)
    | ElegirDuracion(opcion: nat)
    | EscribirInicio(hora: string)
    | EscribirFin(hora: string)

  /** A change the page's controls can produce: the selects only offer their own options. */
  predicate CambioPosible(c: ReglaCambio) {
    match c
    case ElegirDia(k) => k < |DIAS_SEMANA|
    case ElegirDuracion(k) => k < |DURACIONES|
    case _ => true
  }

  /** A rule form whose selects hold one of their options. */
  predicate SelectsValid(f: ReglaForm) {
    0 <= f.dia < |DIAS_SEMANA| && f.duracion in DURACIONES
  }

  /**
   * The `onChange` handlers: a select stores `Number(value)` of the chosen
   * option, a time input stores what was typed. Each control touches its own
   * field only, and a select cannot leave its options.
   */
  function Cambiar(f: ReglaForm, c: ReglaCambio): (g: ReglaForm)
    requires CambioPosible(c)
    ensures SelectsValid(f) ==> SelectsValid(g)
    ensures c.ElegirDia? ==> 0 <= g.dia < |DIAS_SEMANA| && g.dia == c.opcion
    ensures c.ElegirDuracion? ==> g.duracion in DURACIONES && g.duracion == DURACIONES[c.opcion]
    ensures c.ElegirDia? || c.ElegirDuracion? ==> g.horaInicio == f.horaInicio && g.horaFin == f.horaFin
    ensures !c.ElegirDia? ==> g.dia == f.dia
    ensures !c.ElegirDuracion? ==> g.duracion == f.duracion
    ensures g.horaInicio == if c.EscribirInicio? then c.hora else f.horaInicio
    ensures g.horaFin == if c.EscribirFin? then c.hora else f.horaFin
  {
    match c
    case ElegirDia(k) => f.(dia := k)
    case ElegirDuracion(k) => f.(duracion := DURACIONES[k])
    case EscribirInicio(h) => f.(horaInicio := h)
    case EscribirFin(h) => f.(horaFin := h)
  }

  /** The rule `addDisponibilidad` stores for professional `profesionalId`: the fields as typed, in no checked order. */
  function ReglaEnviada(f: ReglaForm, profesionalId: string): (r: Disponibilidad)
    ensures r.diaSemana == f.dia && r.duracionCitaMin == f.duracion
    ensures r.horaInicio == f.horaInicio && r.horaFin == f.horaFin
    ensures r.profesionalId == profesionalId && !r.deleted
  {
    Disponibilidad(profesionalId, f.dia, f.horaInicio, f.horaFin, f.duracion, false)
  }

  /** The form and the error line after a submit. */
  datatype ReglaPaso = ReglaPaso(form: ReglaForm, error: Option<string>)

  /**
   * `handleAddDisponibilidad`: the rule is always sent; the error line is
   * cleared exactly when the save succeeds. On success the form returns to
   * its initial values, whose selects are valid whatever came before; on
   * failure it keeps what was typed and shows the error.
   */
  function EnviarRegla(f: ReglaForm, resultado: Guardado): (p: ReglaPaso)
    ensures p.error.None? <==> resultado.Guardado?
    ensures SelectsValid(f) ==> SelectsValid(p.form)
    ensures resultado.Guardado? ==> SelectsValid(p.form) && p.form == REGLA_INICIAL
    ensures resultado.Fallo? ==> p.form == f && p.error == Some(SaveErrorText(resultado.message))
  {
    match resultado
    case Guardado => ReglaPaso(REGLA_INICIAL, None)
    case Fallo(m) => ReglaPaso(f, Some(SaveErrorText(m)))
  }

  /** The form after a run of control changes and submits, starting from `f`. */
  function Recorrer(f: ReglaForm, pasos: seq<Option<ReglaCambio>>, resultados: seq<Guardado>): ReglaForm
    requires |resultados| == |pasos|
    requires forall i :: 0 <= i < |pasos| && pasos[i].Some? ==> CambioPosible(pasos[i].value)
    decreases |pasos|
  {
    if |pasos| == 0 then f
    else
      var g := match pasos[0]
        case Some(c) => Cambiar(f, c)
        case None => EnviarRegla(f, resultados[0]).form;
      Recorrer(g, pasos[1..], resultados[1..])
  }

  /**
   * Whatever the user does, the form's day and duration stay among the select
   * options, starting from the initial values.
   */
  lemma {:induction false} SelectsStayValid(f: ReglaForm, pasos: seq<Option<ReglaCambio>>, resultados: seq<Guardado>)
    requires SelectsValid(f)
    requires |resultados| == |pasos|
    requires forall i :: 0 <= i < |pasos| && pasos[i].Some? ==> CambioPosible(pasos[i].value)
    ensures SelectsValid(Recorrer(f, pasos, resultados))
    decreases |pasos|
  {
    if |pasos| > 0 {
      var g := match pasos[0]
        case Some(c) => Cambiar(f, c)
        case None => EnviarRegla(f, resultados[0]).form;
      assert SelectsValid(g);
      SelectsStayValid(g, pasos[1..], resultados[1..]);
    }
  }

  /** Every rule this form can send has a positive duration, so the slot walk over it ends. */
  lemma SentRulesTerminate(f: ReglaForm, profesionalId: string)
    requires SelectsValid(f)
    ensures ReglaEnviada(f, profesionalId).duracionCitaMin > 0
    ensures Slots.RuleWalkEnds(ReglaEnviada(f, profesionalId))
  {
  }

  /**
   * The form sends the times without comparing them: a rule whose end is
   * before its start, or closer to it than one duration, is stored and yields
   * no slots on any day.
   */
  lemma InvertedRuleNoSlots(f: ReglaForm, profesionalId: string, dayStart: int)
    requires SelectsValid(f)
    requires Slots.TimeToMinutes(f.horaInicio).Some? && Slots.TimeToMinutes(f.horaFin).Some?
    requires Slots.TimeToMinutes(f.horaFin).value - Slots.TimeToMinutes(f.horaInicio).value < f.duracion
    ensures Slots.RuleSlots(ReglaEnviada(f, profesionalId), dayStart) == []
  {
    SentRulesTerminate(f, profesionalId);
    Slots.ShortWindowNoSlots(ReglaEnviada(f, profesionalId), dayStart);
  }

  // ---------------------------------------------------------------------------
  // Blackout form
  // ---------------------------------------------------------------------------

  /** The blackout form's fields: `bloqueoDesde`, `bloqueoHasta` (`YYYY-MM-DD` or ""), `bloqueoMotivo`. */
  datatype BloqueoForm = BloqueoForm(desde: string, hasta: string, motivo: string)

  const BLOQUEO_INICIAL := BloqueoForm("", "", "")

  /** `23:59:59` after local midnight, in milliseconds. */
  const END_OF_DAY_MS := 86_399_000

  const FALTAN_FECHAS := "Indica fecha de inicio y fin"
  const FIN_ANTES := "La fecha de fin debe ser posterior a la de inicio"
  /** The `RangeError` that `toISOString` throws for an invalid date. */
  const INVALID_TIME := "Invalid time value"

  /** What `addBloqueo` receives: the instants of `fecha_inicio` / `fecha_fin` and the motivo. */
  datatype BloqueoEnviado = BloqueoEnviado(fechaInicio: int, fechaFin: int, motivo: Option<string>)

  /** The form, the error line, and what was sent to `addBloqueo` if anything. */
  datatype BloqueoPaso = BloqueoPaso(form: BloqueoForm, error: Option<string>, enviado: Option<BloqueoEnviado>)

  /**
   * `handleAddBloqueo`. `localMidnight(fecha)` is the instant of
   * `new Date(fecha + "T00:00:00")`, `None` for an invalid date; 23:59:59 of
   * the same day is 86 399 000 ms later on the fixed-offset local axis.
   * `resultado` is how `addBloqueo` settled when it is called.
   */
  function EnviarBloqueo(f: BloqueoForm, localMidnight: string -> Option<int>, resultado: Guardado): (p: BloqueoPaso)
    ensures f.desde == "" || f.hasta == "" ==> p == BloqueoPaso(f, Some(FALTAN_FECHAS), None)
    ensures p.enviado.Some? ==>
      && localMidnight(f.desde).Some? && localMidnight(f.hasta).Some?
      && p.enviado.value.fechaInicio == localMidnight(f.desde).value
      && p.enviado.value.fechaFin == localMidnight(f.hasta).value + END_OF_DAY_MS
      && p.enviado.value.fechaInicio < p.enviado.value.fechaFin
      && p.enviado.value.motivo == Text.TrimmedOrNull(f.motivo)
    ensures p.enviado.None? || resultado.Fallo? ==> p.form == f
    ensures p.enviado.Some? && resultado.Guardado? ==> p == BloqueoPaso(BLOQUEO_INICIAL, None, p.enviado)
  {
    if f.desde == "" || f.hasta == "" then BloqueoPaso(f, Some(FALTAN_FECHAS), None)
    else
      var desde := localMidnight(f.desde);
      var hasta := if localMidnight(f.hasta).Some? then Some(localMidnight(f.hasta).value + END_OF_DAY_MS) else None;
      // A comparison with an invalid date is false, so the check lets it through.
      if desde.Some? && hasta.Some? && desde.value >= hasta.value then BloqueoPaso(f, Some(FIN_ANTES), None)
      else if desde.None? || hasta.None? then BloqueoPaso(f, Some(INVALID_TIME), None)
      else
        var enviado := BloqueoEnviado(desde.value, hasta.value, Text.TrimmedOrNull(f.motivo));
        match resultado
        case Guardado => BloqueoPaso(BLOQUEO_INICIAL, None, Some(enviado))
        case Fallo(m) => BloqueoPaso(f, Some(SaveErrorText(m)), Some(enviado))
  }

  /**
   * With both dates filled in and valid, the range is sent exactly when the
   * first day's midnight is before the last day's 23:59:59; otherwise it is
   * refused with the order message.
   */
  lemma BloqueoOrderIff(f: BloqueoForm, localMidnight: string -> Option<int>, resultado: Guardado)
    requires f.desde != "" && f.hasta != ""
    requires localMidnight(f.desde).Some? && localMidnight(f.hasta).Some?
    ensures var p := EnviarBloqueo(f, localMidnight, resultado);
      p.enviado.Some? <==> localMidnight(f.desde).value < localMidnight(f.hasta).value + END_OF_DAY_MS
    ensures var p := EnviarBloqueo(f, localMidnight, resultado);
      p.enviado.None? ==> p.error == Some(FIN_ANTES) && p.form == f
  {
  }

  /**
   * A one-day block (same first and last date) is accepted; a block whose
   * last day starts a day or more before the first day's start is refused;
   * a filled-in but invalid date reaches `toISOString` and fails there.
   */
  lemma BloqueoEdgeCases(f: BloqueoForm, localMidnight: string -> Option<int>, resultado: Guardado)
    requires f.desde != "" && f.hasta != ""
    ensures f.desde == f.hasta && localMidnight(f.desde).Some? ==>
      EnviarBloqueo(f, localMidnight, resultado).enviado.Some?
    ensures (localMidnight(f.desde).Some? && localMidnight(f.hasta).Some?
             && localMidnight(f.hasta).value + Dates.MS_PER_DAY <= localMidnight(f.desde).value) ==>
      EnviarBloqueo(f, localMidnight, resultado) == BloqueoPaso(f, Some(FIN_ANTES), None)
    ensures localMidnight(f.desde).None? || localMidnight(f.hasta).None? ==>
      EnviarBloqueo(f, localMidnight, resultado) == BloqueoPaso(f, Some(INVALID_TIME), None)
  {
  }
}

=== FILE: calendar.dfy ===
/**
 * The date arithmetic of the professional's calendar page
 * (`app/profesional/calendario/page.tsx`): the range each view shows, the
 * days it lists, the appointments inside the range, the month grid's rows,
 * and the truncation of free slots in a week cell.
 *
 * The page works in the browser's local time. Instants here are on the local
 * axis: milliseconds since the local 1970-01-01 00:00, that is UTC
 * milliseconds plus the zone's offset, taken to be fixed (no daylight saving
 * time). Appointment instants are shifted by the same offset, which leaves
 * every comparison unchanged. The local calendar fields of the base date
 * (`getFullYear`, `getMonth`) are parameters.
 */
module Calendar {
  import opened Wrappers
  import Dates
  import opened AgendaTypes
  import Sorting

  const DAY: int := Dates.MS_PER_DAY
  const SECOND: int := 1000

  /** The local day number of an instant (days since the local 1970-01-01). */
  function DayNumber(t: int): int {
    t / DAY
  }

  /** `getDay()`: 0 = Sunday … 6 = Saturday; the local 1970-01-01 was a Thursday. */
  function GetDay(t: int): (r: int)
    ensures 0 <= r < 7
  {
    (DayNumber(t) + 4) % 7
  }

  /** `t` is the first millisecond of a local day. */
  predicate IsDayStart(t: int) {
    t % DAY == 0
  }

  /** An inclusive range of instants. */
  datatype Rango = Rango(inicio: int, fin: int)

  /** Days back from a weekday to the Monday that starts its week: 6 from Sunday, `getDay() - 1` otherwise. */
  function DaysSinceMonday(day: int): (r: int)
    requires 0 <= day < 7
    ensures 0 <= r < 7
    ensures (day - r) % 7 == 1
  {
    if day == 0 then 6 else day - 1
  }

  /**
   * The week view's range: from 00:00:00.000 of the Monday on or before `d`
   * to 23:59:59.999 of the Sunday six days later.
   */
  function SemanaRango(d: int): (r: Rango)
    ensures IsDayStart(r.inicio) && GetDay(r.inicio) == 1
    ensures r.inicio <= d <= r.fin
    ensures r.fin - r.inicio == 7 * DAY - 1
  {
    var back := DaysSinceMonday(GetDay(d));
    var inicio := (DayNumber(d) - back) * DAY;
    WeekStartIsMonday(DayNumber(d), back);
    Rango(inicio, inicio + 6 * DAY + 23 * Dates.MS_PER_HOUR + 59 * Dates.MS_PER_MINUTE + 59 * SECOND + 999)
  }

  lemma WeekStartIsMonday(n: int, back: int)
    requires 0 <= back < 7 && ((n + 4) % 7 - back) % 7 == 1
    ensures GetDay((n - back) * DAY) == 1
    ensures DayNumber((n - back) * DAY) == n - back
  {
    assert ((n - back) * DAY) / DAY == n - back;
  }

  /**
   * The week range is the only Monday-aligned seven-day window holding `d`:
   * any Monday day start `m` with `d` in its seven days is the range's start.
   */
  lemma SemanaRangoUnique(d: int, m: int)
    requires IsDayStart(m) && GetDay(m) == 1 && m <= d < m + 7 * DAY
    ensures m == SemanaRango(d).inicio
  {
    var r := SemanaRango(d);
    var a := m / DAY;
    var b := r.inicio / DAY;
    assert m == a * DAY && r.inicio == b * DAY;
    assert (a + 4) % 7 == 1 && (b + 4) % 7 == 1;
    assert a - b < 7 && b - a < 7;
    SameResidueClose(a + 4, b + 4);
  }

  /** Two numbers with the same residue modulo 7 that are less than 7 apart are equal. */
  lemma SameResidueClose(x: int, y: int)
    requires x % 7 == y % 7 && -7 < x - y < 7
    ensures x == y
  {
    assert x == (x / 7) * 7 + x % 7 && y == (y / 7) * 7 + y % 7;
    assert (x / 7 - y / 7) * 7 == x - y;
  }

  /**
   * The days the week view lists: seven instants on consecutive local days
   * from the range's start, each at the start's time of day, so their
   * weekdays run on from the start's.
   */
  function SemanaDias(inicio: int): (dias: seq<int>)
    ensures |dias| == 7 && dias[0] == inicio
    ensures forall i :: 0 <= i < 7 ==> DayNumber(dias[i]) == DayNumber(inicio) + i
    ensures forall i :: 0 <= i < 7 ==> dias[i] % DAY == inicio % DAY
    ensures forall i :: 0 <= i < 7 ==> GetDay(dias[i]) == (GetDay(inicio) + i) % 7
  {
    var dias := seq(7, i => inicio + i * DAY);
    assert forall i :: 0 <= i < 7 ==>
      (DayNumber(dias[i]) == DayNumber(inicio) + i && dias[i] % DAY == inicio % DAY
       && GetDay(dias[i]) == (GetDay(inicio) + i) % 7) by {
      forall i | 0 <= i < 7
        ensures DayNumber(dias[i]) == DayNumber(inicio) + i
        ensures dias[i] % DAY == inicio % DAY
        ensures GetDay(dias[i]) == (GetDay(inicio) + i) % 7
      {
        NextDays(inicio, i);
      }
    }
    dias
  }

  /** `k` days on, an instant falls on day number `k` later, at the same time of day, `k` weekdays on. */
  lemma NextDays(t: int, k: int)
    ensures DayNumber(t + k * DAY) == DayNumber(t) + k
    ensures (t + k * DAY) % DAY == t % DAY
    ensures GetDay(t + k * DAY) == (GetDay(t) + k) % 7
  {
    SameDayShift(t, k);
    var n := DayNumber(t);
    assert t + k * DAY - (n + k) * DAY == t - n * DAY;
    assert ((n + k + 4) % 7) == (((n + 4) % 7) + k) % 7;
  }

  /**
   * The week view lists Monday to Sunday of the range in order, each a day
   * start, and together they cover the range exactly.
   */
  lemma SemanaDiasCover(d: int)
    ensures var r := SemanaRango(d);
            var dias := SemanaDias(r.inicio);
            && dias[0] == r.inicio
            && dias[6] + DAY - 1 == r.fin
            && (forall i :: 0 <= i < 7 ==> IsDayStart(dias[i]) && GetDay(dias[i]) == (i + 1) % 7)
  {
    var r := SemanaRango(d);
    var n := r.inicio / DAY;
    assert r.inicio == n * DAY;
    forall i | 0 <= i < 7 ensures IsDayStart(SemanaDias(r.inicio)[i]) && GetDay(SemanaDias(r.inicio)[i]) == (i + 1) % 7 {
      assert SemanaDias(r.inicio)[i] == (n + i) * DAY;
      assert DayNumber((n + i) * DAY) == n + i;
    }
  }

  /**
   * The month view's range: from 00:00:00 of the first of the month to
   * 23:59:59 of its last day (day 0 of the next month), through the local
   * `Date(year, month, day)` constructor.
   */
  function MesRango(year: int, month0: int): (r: Rango)
    ensures r.inicio == LocalDate(year, month0, 1) && IsDayStart(r.inicio)
    ensures r.fin == LocalDate(year, month0 + 1, 1) - SECOND
    ensures 28 * DAY <= r.fin + SECOND - r.inicio <= 31 * DAY
  {
    var inicio := LocalDate(year, month0, 1);
    var fin := LocalDate(year, month0 + 1, 0) + 23 * Dates.MS_PER_HOUR + 59 * Dates.MS_PER_MINUTE + 59 * SECOND;
    LocalDateFacts(year, month0, 1);
    LocalDateFacts(year, month0 + 1, 0);
    MonthSpan(year, month0);
    Rango(inicio, fin)
  }

  /** The first of one month and the first of the next lie 28 to 31 local days apart. */
  lemma MonthSpan(year: int, month0: int)
    ensures 28 * DAY <= LocalDate(year, month0 + 1, 1) - LocalDate(year, month0, 1) <= 31 * DAY
  {
    var y := if 0 <= year <= 99 then 1900 + year else year;
    var a := Dates.MakeDay(y, month0, 1);
    var b := Dates.MakeDay(y, month0 + 1, 1);
    Dates.MonthLength(y, month0);
    assert LocalDate(year, month0 + 1, 1) - LocalDate(year, month0, 1) == (b - a) * DAY;
  }

  /** `new Date(year, month0, day)` on the local axis; the constructor reads the years 0..99 as 1900..1999. */
  function LocalDate(year: int, month0: int, day: int): int {
    var y := if 0 <= year <= 99 then 1900 + year else year;
    Dates.MakeDay(y, month0, day) * DAY
  }

  /** A local date is a day start, and the next date in the month is one day later. */
  lemma LocalDateFacts(year: int, month0: int, day: int)
    ensures IsDayStart(LocalDate(year, month0, day))
    ensures LocalDate(year, month0, day + 1) == LocalDate(year, month0, day) + DAY
  {
    var y := if 0 <= year <= 99 then 1900 + year else year;
    var k := Dates.MakeDay(y, month0, day);
    assert Dates.MakeDay(y, month0, day + 1) == k + 1;
    assert (k + 1) * DAY == k * DAY + DAY;
    assert (k * DAY) % DAY == 0;
  }

  /**
   * The days the month view lists: each day start from `inicio` while it is
   * not after `fin`.
   */
  method MesDias(inicio: int, fin: int) returns (dias: seq<int>)
    ensures forall k :: 0 <= k < |dias| ==> dias[k] == inicio + k * DAY && dias[k] <= fin
    ensures inicio + |dias| * DAY > fin
    ensures |dias| == if fin < inicio then 0 else (fin - inicio) / DAY + 1
  {
    dias := [];
    var d := inicio;
    while d <= fin
      invariant d == inicio + |dias| * DAY
      invariant forall k :: 0 <= k < |dias| ==> dias[k] == inicio + k * DAY && dias[k] <= fin
      invariant |dias| > 0 ==> inicio + (|dias| - 1) * DAY <= fin
      decreases fin - d
    {
      dias := dias + [d];
      d := d + DAY;
    }
    if fin >= inicio {
      CountDays(inicio, fin, |dias|);
    }
  }

  /** `n` days from `inicio` reach `fin`: `n` is the day count the range spans. */
  lemma CountDays(inicio: int, fin: int, n: int)
    requires inicio <= fin && n > 0
    requires inicio + (n - 1) * DAY <= fin < inicio + n * DAY
    ensures n == (fin - inicio) / DAY + 1
  {
    Dates.DivUnique(fin - inicio, n - 1, DAY);
  }

  /** An appointment starts inside the range, both ends included. */
  predicate EnRango(r: Rango, c: Cita) {
    r.inicio <= c.inicio <= r.fin
  }

  /** `citasEnRango`: the appointments starting inside the range, in their order. */
  function CitasEnRango(citas: seq<Cita>, r: Rango): (res: seq<Cita>)
    ensures |res| <= |citas|
    ensures forall c :: c in res <==> c in citas && r.inicio <= c.inicio <= r.fin
  {
    Sorting.Filter(citas, c => EnRango(r, c))
  }

  /** The filter keeps the appointments' relative order: the range of a concatenation is the concatenation of the ranges. */
  lemma CitasEnRangoAppend(citas: seq<Cita>, r: Rango, extra: seq<Cita>)
    ensures CitasEnRango(citas + extra, r) == CitasEnRango(citas, r) + CitasEnRango(extra, r)
  {
    Sorting.FilterAppend(citas, extra, c => EnRango(r, c));
  }

  /**
   * The day view's range as the page builds it: both ends are the base
   * instant itself, time of day included.
   */
  function DiaRangoAsWritten(d: int): (r: Rango)
    ensures r.inicio == r.fin == d
  {
    Rango(d, d)
  }

  /**
   * With the day view's range as written, an appointment later on the same
   * day is not listed: at 10:15:23.456 the 11:00 appointment is missing.
   */
  lemma DiaRangoMissesSameDay(c: Cita)
    requires c.inicio == 11 * Dates.MS_PER_HOUR
    ensures var d := 10 * Dates.MS_PER_HOUR + 15 * Dates.MS_PER_MINUTE + 23 * SECOND + 456;
            DayNumber(c.inicio) == DayNumber(d) && c !in CitasEnRango([c], DiaRangoAsWritten(d))
  {
  }

  /** The day view's range as evidently intended: the whole local day of `d`, like the week view's days. */
  function DiaRango(d: int): (r: Rango)
    ensures IsDayStart(r.inicio) && r.inicio <= d <= r.fin && r.fin - r.inicio == DAY - 1
  {
    var inicio := DayNumber(d) * DAY;
    Rango(inicio, inicio + DAY - 1)
  }

  /** With the whole-day range, an appointment is listed exactly when it starts on the same local day as `d`. */
  lemma DiaRangoIff(d: int, c: Cita)
    ensures DiaRango(d).inicio <= c.inicio <= DiaRango(d).fin <==> DayNumber(c.inicio) == DayNumber(d)
  {
    DayIff(d, c.inicio);
  }

  /** An instant lies in the whole-day range of `d` exactly when it falls on the same local day. */
  lemma DayIff(d: int, t: int)
    ensures DiaRango(d).inicio <= t <= DiaRango(d).fin <==> DayNumber(t) == DayNumber(d)
  {
    var n := DayNumber(d);
    var m := DayNumber(t);
    assert m * DAY <= t < (m + 1) * DAY;
    if m < n {
      assert (m + 1) * DAY <= n * DAY;
    }
    if m > n {
      assert (n + 1) * DAY <= m * DAY;
    }
  }

  /** The three views. */
  datatype Vista = Dia | Semana | Mes

  /**
   * The range a view shows, as the page builds it: the day view's range is the
   * base instant alone. `year` and `month0` are the local calendar fields of `d`.
   */
  function RangoVista(vista: Vista, d: int, year: int, month0: int): (r: Rango)
    ensures vista != Mes ==> r.inicio <= d <= r.fin
    ensures vista != Dia ==> IsDayStart(r.inicio)
    ensures vista == Dia ==> r.inicio == r.fin
  {
    match vista
    case Dia => DiaRangoAsWritten(d)
    case Semana => SemanaRango(d)
    case Mes => MesRango(year, month0)
  }

  /**
   * The ranges with the day view corrected to the whole local day: every view
   * then starts at local midnight, and the day view holds exactly the instants
   * of the base date's day.
   */
  function RangoVistaCorregido(vista: Vista, d: int, year: int, month0: int): (r: Rango)
    ensures IsDayStart(r.inicio)
    ensures vista != Mes ==> r.inicio <= d <= r.fin
    ensures vista != Dia ==> r == RangoVista(vista, d, year, month0)
    ensures vista == Dia ==> forall t :: r.inicio <= t <= r.fin <==> DayNumber(t) == DayNumber(d)
  {
    match vista
    case Dia =>
      var r := DiaRango(d);
      assert forall t :: r.inicio <= t <= r.fin <==> DayNumber(t) == DayNumber(d) by {
        forall t ensures r.inicio <= t <= r.fin <==> DayNumber(t) == DayNumber(d) {
          DayIff(d, t);
        }
      }
      r
    case Semana => SemanaRango(d)
    case Mes => MesRango(year, month0)
  }

  /** Leading empty cells of the month grid: the first day's column counting from Monday. */
  function MesOffset(firstDay: int): (offset: int)
    requires 0 <= firstDay < 7
    ensures 0 <= offset <= 6
    ensures offset == (firstDay + 6) % 7
  {
    if firstDay == 0 then 6 else firstDay - 1
  }

  /** The cells of `rows` read row by row. */
  function Flatten<T>(rows: seq<seq<T>>): seq<T> {
    if |rows| == 0 then [] else rows[0] + Flatten(rows[1..])
  }

  lemma {:induction false} FlattenAppend<T>(rows: seq<seq<T>>, row: seq<T>)
    ensures Flatten(rows + [row]) == Flatten(rows) + row
  {
    if |rows| == 0 {
      assert rows + [row] == [row];
    } else {
      assert (rows + [row])[1..] == rows[1..] + [row];
      FlattenAppend(rows[1..], row);
    }
  }

  /** Every row has seven cells. */
  ghost predicate FullRows<T>(rows: seq<seq<T>>) {
    forall i :: 0 <= i < |rows| ==> |rows[i]| == 7
  }

  /** `n` empty cells. */
  function Empties<T>(n: nat): (r: seq<Option<T>>)
    ensures |r| == n && forall i :: 0 <= i < n ==> r[i] == None
  {
    seq(n, _ => None)
  }

  /** The days as filled cells. */
  function Cells<T>(dias: seq<T>): (r: seq<Option<T>>)
    ensures |r| == |dias| && forall i :: 0 <= i < |dias| ==> r[i] == Some(dias[i])
  {
    seq(|dias|, i requires 0 <= i < |dias| => Some(dias[i]))
  }

  /**
   * The month grid of `VistaMensual`: `offset` empty cells, then the days,
   * cut into rows of seven, the last row padded with empty cells.
   */
  method MesFilas<T>(dias: seq<T>, offset: nat) returns (rows: seq<seq<Option<T>>>)
    requires offset <= 6
    ensures FullRows(rows)
    ensures exists pad :: 0 <= pad < 7 && Flatten(rows) == Empties(offset) + Cells(dias) + Empties(pad)
  {
    rows := [];
    var fila: seq<Option<T>> := Empties(offset);
    var i := 0;
    while i < |dias|
      invariant 0 <= i <= |dias|
      invariant FullRows(rows)
      invariant |fila| < 7
      invariant Flatten(rows) + fila == Empties(offset) + Cells(dias[..i])
    {
      assert Cells(dias[..i + 1]) == Cells(dias[..i]) + [Some(dias[i])];
      assert Flatten(rows) + (fila + [Some(dias[i])]) == (Flatten(rows) + fila) + [Some(dias[i])];
      fila := fila + [Some(dias[i])];
      if |fila| == 7 {
        FlattenAppend(rows, fila);
        rows := rows + [fila];
        fila := [];
        assert Flatten(rows) + fila == Flatten(rows);
      }
      i := i + 1;
    }
    assert dias[..|dias|] == dias;
    if |fila| > 0 {
      var pad := 7 - |fila|;
      var filler := Empties(pad);
      FlattenAppend(rows, fila + filler);
      rows := rows + [fila + filler];
      assert Flatten(rows) == Empties(offset) + Cells(dias) + Empties(pad);
    } else {
      assert Flatten(rows) == Empties(offset) + Cells(dias) + Empties(0);
    }
  }

  /** The cell at row `r`, column `c` of full rows is the `7 r + c`-th cell read row by row. */
  lemma {:induction false} FlattenIndex<T>(rows: seq<seq<T>>, r: int, c: int)
    requires FullRows(rows) && 0 <= r < |rows| && 0 <= c < 7
    ensures |Flatten(rows)| == 7 * |rows|
    ensures Flatten(rows)[7 * r + c] == rows[r][c]
  {
    if r == 0 {
      FlattenLength(rows);
    } else {
      FlattenIndex(rows[1..], r - 1, c);
      FlattenLength(rows);
    }
  }

  lemma {:induction false} FlattenLength<T>(rows: seq<seq<T>>)
    requires FullRows(rows)
    ensures |Flatten(rows)| == 7 * |rows|
  {
    if |rows| > 0 {
      FlattenLength(rows[1..]);
    }
  }

  /**
   * Every day of a month lands in its weekday's column: with the grid built
   * from the offset of the first day's weekday and consecutive day starts,
   * day `k` sits in row `(offset + k) / 7`, in the column of its weekday
   * counting from Monday.
   */
  lemma DayInWeekdayColumn(rows: seq<seq<Option<int>>>, dias: seq<int>, offset: nat, pad: nat, k: int)
    requires |dias| > 0 && forall j :: 0 <= j < |dias| ==> dias[j] == dias[0] + j * DAY
    requires offset == MesOffset(GetDay(dias[0]))
    requires FullRows(rows) && Flatten(rows) == Empties(offset) + Cells(dias) + Empties(pad)
    requires 0 <= k < |dias|
    ensures (offset + k) / 7 < |rows| && rows[(offset + k) / 7][(offset + k) % 7] == Some(dias[k])
    ensures (offset + k) % 7 == (GetDay(dias[k]) + 6) % 7
  {
    GridPosition(rows, offset, dias, pad, k);
    DayColumn(dias, offset, k);
  }

  /** Day `k` of consecutive day starts falls in the Monday-first column of its weekday. */
  lemma DayColumn(dias: seq<int>, offset: nat, k: int)
    requires |dias| > 0 && forall j :: 0 <= j < |dias| ==> dias[j] == dias[0] + j * DAY
    requires offset == MesOffset(GetDay(dias[0]))
    requires 0 <= k < |dias|
    ensures (offset + k) % 7 == (GetDay(dias[k]) + 6) % 7
  {
    WeekdayColumn(dias[0], k, dias[k]);
  }

  /** Cell `k` of the days sits in row `(offset + k) / 7`, column `(offset + k) % 7`. */
  lemma GridPosition<T>(rows: seq<seq<Option<T>>>, offset: nat, dias: seq<T>, pad: nat, k: int)
    requires FullRows(rows)
    requires Flatten(rows) == Empties(offset) + Cells(dias) + Empties(pad)
    requires 0 <= k < |dias|
    ensures (offset + k) / 7 < |rows| && rows[(offset + k) / 7][(offset + k) % 7] == Some(dias[k])
  {
    var n := offset + k;
    var cells := Flatten(rows);
    CellAt(cells, offset, dias, pad, k);
    FlattenLength(rows);
    RowColumn(n, |rows|);
    var r, c := n / 7, n % 7;
    FlattenIndex(rows, r, c);
    assert 7 * r + c == n;
    assert rows[r][c] == cells[n];
    assert cells[n] == Some(dias[k]);
    assert r == (offset + k) / 7 && c == (offset + k) % 7;
  }

  /** A cell index below `7 * m` splits into a row below `m` and a column below 7. */
  lemma RowColumn(n: nat, m: nat)
    requires n < 7 * m
    ensures n == 7 * (n / 7) + n % 7
    ensures 0 <= n / 7 < m && 0 <= n % 7 < 7
  {
    var q := n / 7;
    assert n == 7 * q + n % 7;
    Dates.MulMono(q - m + 1, 7);
  }

  /** The column of the day `k` days after `d0`, counted on from `d0`'s column, is that day's Monday-first weekday. */
  lemma WeekdayColumn(d0: int, k: int, dk: int)
    requires k >= 0 && dk == d0 + k * DAY
    ensures (MesOffset(GetDay(d0)) + k) % 7 == (GetDay(dk) + 6) % 7
  {
    SameDayShift(d0, k);
    ColumnArith(DayNumber(d0), k);
  }

  lemma CellAt<T>(cells: seq<Option<T>>, offset: nat, dias: seq<T>, pad: nat, k: int)
    requires cells == Empties(offset) + Cells(dias) + Empties(pad)
    requires 0 <= k < |dias|
    ensures offset + k < |cells| && cells[offset + k] == Some(dias[k])
  {
    assert cells[offset + k] == (Empties(offset) + Cells(dias))[offset + k];
  }

  lemma SameDayShift(t: int, k: int)
    ensures DayNumber(t + k * DAY) == DayNumber(t) + k
  {
    var n := DayNumber(t);
    assert n * DAY <= t < (n + 1) * DAY;
    assert t + k * DAY == (n + k) * DAY + (t - n * DAY);
    Dates.DivUnique(t + k * DAY, n + k, DAY);
  }

  /** Column arithmetic: shifting the first day's Monday-first column by `k` gives day `k`'s. */
  lemma ColumnArith(nd: int, k: int)
    requires k >= 0
    ensures (((nd + 4) % 7 + 6) % 7 + k) % 7 == (((nd + k + 4) % 7) + 6) % 7
  {
    var a := nd + 4;
    assert a == (a / 7) * 7 + a % 7;
    var b := nd + k + 4;
    assert b == (b / 7) * 7 + b % 7;
    ModAddCongruent(a % 7 + 6, k, a + 6 + k);
    ModAddCongruent(b % 7, 6, b + 6);
  }

  lemma ModAddCongruent(x: int, y: int, z: int)
    requires (z - (x % 7 + y)) % 7 == 0
    ensures ((x % 7) + y) % 7 == z % 7
  {
  }

  /** What a week cell shows of its free slots: the first two, and the number left over for "+N más". */
  datatype CeldaSlots<T> = CeldaSlots(shown: seq<T>, more: Option<int>)

  function Truncar<T>(slots: seq<T>): (c: CeldaSlots<T>)
    ensures c.shown <= slots && |c.shown| <= 2
    ensures |slots| <= 2 ==> c.shown == slots
    ensures |slots| > 2 ==> |c.shown| == 2
    ensures c.more.Some? <==> |slots| > 2
    ensures |c.shown| + c.more.GetOr(0) == |slots|
  {
    CeldaSlots(if |slots| <= 2 then slots else slots[..2], if |slots| > 2 then Some(|slots| - 2) else None)
  }

  /**
   * Nothing is lost in a cell: the shown slots followed by the hidden ones
   * give back the cell's slots, and "+N más" counts exactly the hidden ones.
   */
  lemma TruncarAccounts<T>(slots: seq<T>)
    ensures var c := Truncar(slots);
      && c.shown + slots[|c.shown|..] == slots
      && c.more.GetOr(0) == |slots[|c.shown|..]|
      && (c.more.None? ==> slots[|c.shown|..] == [])
  {
    var c := Truncar(slots);
    assert slots == slots[..|c.shown|] + slots[|c.shown|..];
  }
}

=== FILE: chat.dfy ===
/**
 * The booking chat's state recovered from its message log
 * (`hooks/useChat.ts`): the parsers of the patient's "FECHA:" and "SLOT:"
 * messages, `derivarPasoDesdeMensajes`, and the de-duplicating append of a
 * message delivered in real time. `JSON.parse` is a parameter.
 */
module Chat {
  import opened Wrappers
  import opened Text

  /** `EmisorMensaje`. */
  datatype Emisor = Paciente | Sistema | Profesional

  /** The fields of a `MensajeChat` the hook reads. */
  datatype Mensaje = Mensaje(id: string, emisor: Emisor, mensaje: string)

  /** `PasoFlujoChat`. */
  datatype Paso = Inicio | ElegirFecha | MostrarSlots | ConfirmarSlot | CitaCreada | Error

  /** A chosen slot as the chat carries it: the two ISO instant strings. */
  datatype SlotElegido = SlotElegido(inicio: string, fin: string)

  /**
   * What `JSON.parse` produced, reduced to the two properties the parser reads
   * (`None` when a property is missing or not a string; `null`, numbers and
   * strings have neither).
   */
  datatype JsonSlot = JsonSlot(inicio: Option<string>, fin: Option<string>)

  /** `JSON.parse`: `None` is a thrown `SyntaxError`. */
  type JsonParse = string -> Option<JsonSlot>

  const PREFIJO_FECHA: string := "FECHA:"
  const PREFIJO_SLOT: string := "SLOT:"

  /**
   * `parseFechaFromMensaje`: after a "FECHA:" prefix the trimmed rest (which
   * may be ""), otherwise the trimmed message when it has the shape of a date.
   */
  function ParseFecha(m: string): (r: Option<string>)
    ensures r.Some? ==> NoEdgeSpace(r.value)
    ensures r.None? <==> !(PREFIJO_FECHA <= m) && !IsoDateShape(Trim(m))
    ensures !(PREFIJO_FECHA <= m) && r.Some? ==> IsoDateShape(r.value) && r.value == Trim(m)
    ensures PREFIJO_FECHA <= m ==> r.Some? && r.value == Trim(m[|PREFIJO_FECHA|..])
  {
    if PREFIJO_FECHA <= m then Some(Trim(m[|PREFIJO_FECHA|..]))
    else if IsoDateShape(Trim(m)) then Some(Trim(m))
    else None
  }

  /** What the patient sends on choosing a date reads back as that date. */
  lemma ParseFechaRoundTrip(fecha: string)
    requires NoEdgeSpace(fecha)
    ensures ParseFecha(PREFIJO_FECHA + fecha) == Some(fecha)
  {
    assert (PREFIJO_FECHA + fecha)[|PREFIJO_FECHA|..] == fecha;
    TrimNoEdgeSpace(fecha);
  }

  /** White space around the date after the "FECHA:" prefix is trimmed away. */
  lemma ParseFechaPadded(pre: string, fecha: string, post: string)
    requires forall i :: 0 <= i < |pre| ==> IsSpace(pre[i])
    requires forall i :: 0 <= i < |post| ==> IsSpace(post[i])
    requires |fecha| > 0 && NoEdgeSpace(fecha)
    ensures ParseFecha(PREFIJO_FECHA + pre + fecha + post) == Some(fecha)
  {
    var m := PREFIJO_FECHA + pre + fecha + post;
    assert m[|PREFIJO_FECHA|..] == pre + fecha + post;
    assert PREFIJO_FECHA <= m;
    TrimPadded(pre, fecha, post);
  }

  /**
   * A bare date, with any whitespace around it, reads back as that date: the
   * patient may type the date instead of choosing it.
   */
  lemma ParseFechaBareDate(pre: string, fecha: string, post: string)
    requires forall i :: 0 <= i < |pre| ==> IsSpace(pre[i])
    requires forall i :: 0 <= i < |post| ==> IsSpace(post[i])
    requires IsoDateShape(fecha)
    ensures ParseFecha(pre + fecha + post) == Some(fecha)
  {
    var m := pre + fecha + post;
    assert NoEdgeSpace(fecha) by {
      assert IsDigit(fecha[0]) && IsDigit(fecha[9]);
    }
    TrimPadded(pre, fecha, post);
    assert m[0] == if |pre| > 0 then pre[0] else fecha[0];
    assert !(PREFIJO_FECHA <= m) by {
      assert PREFIJO_FECHA[0] == 'F' && !IsSpace('F') && !IsDigit('F');
    }
  }

  /**
   * `parseSlotFromMensaje`: a "SLOT:" message whose trimmed rest parses to
   * an object with truthy `inicio` and `fin`; every other message, including
   * one whose JSON does not parse, gives `None`.
   */
  function ParseSlot(m: string, parse: JsonParse): (r: Option<SlotElegido>)
    ensures r.Some? <==> PREFIJO_SLOT <= m
                         && parse(Trim(m[|PREFIJO_SLOT|..])).Some?
                         && Truthy(parse(Trim(m[|PREFIJO_SLOT|..])).value.inicio)
                         && Truthy(parse(Trim(m[|PREFIJO_SLOT|..])).value.fin)
    ensures r.Some? ==> |r.value.inicio| > 0 && |r.value.fin| > 0
    ensures r.Some? ==> parse(Trim(m[|PREFIJO_SLOT|..])) == Some(JsonSlot(Some(r.value.inicio), Some(r.value.fin)))
  {
    if PREFIJO_SLOT <= m then
      match parse(Trim(m[|PREFIJO_SLOT|..]))
      case None => None
      case Some(o) =>
        if Truthy(o.inicio) && Truthy(o.fin) then Some(SlotElegido(o.inicio.value, o.fin.value)) else None
    else None
  }

  /**
   * What the patient sends on choosing a slot, "SLOT:" and the slot's JSON,
   * reads back as that slot when the JSON has no edge whitespace and parses
   * back to the slot's two non-empty strings.
   */
  lemma ParseSlotRoundTrip(slot: SlotElegido, json: string, parse: JsonParse)
    requires NoEdgeSpace(json) && |slot.inicio| > 0 && |slot.fin| > 0
    requires parse(json) == Some(JsonSlot(Some(slot.inicio), Some(slot.fin)))
    ensures ParseSlot(PREFIJO_SLOT + json, parse) == Some(slot)
  {
    assert (PREFIJO_SLOT + json)[|PREFIJO_SLOT|..] == json;
    TrimNoEdgeSpace(json);
  }

  /** White space around the JSON after the "SLOT:" prefix is trimmed before parsing. */
  lemma ParseSlotPadded(pre: string, json: string, post: string, parse: JsonParse)
    requires forall i :: 0 <= i < |pre| ==> IsSpace(pre[i])
    requires forall i :: 0 <= i < |post| ==> IsSpace(post[i])
    requires |json| > 0 && NoEdgeSpace(json)
    ensures ParseSlot(PREFIJO_SLOT + pre + json + post, parse) == ParseSlot(PREFIJO_SLOT + json, parse)
  {
    var m := PREFIJO_SLOT + pre + json + post;
    assert m[|PREFIJO_SLOT|..] == pre + json + post;
    assert PREFIJO_SLOT <= m;
    TrimPadded(pre, json, post);
    assert (PREFIJO_SLOT + json)[|PREFIJO_SLOT|..] == json;
    TrimNoEdgeSpace(json);
  }

  /** A slot message is never read as a date, and a date message never as a slot. */
  lemma ParsersDisjoint(m: string, parse: JsonParse)
    ensures PREFIJO_SLOT <= m ==> ParseFecha(m).None? || IsoDateShape(ParseFecha(m).value)
    ensures PREFIJO_FECHA <= m ==> ParseSlot(m, parse).None?
  {
    if PREFIJO_FECHA <= m {
      assert m[0] == 'F';
    }
    if PREFIJO_SLOT <= m {
      assert m[0] == 'S';
    }
  }

  /**
   * The value the latest message of `ms` yields under `pick`, `None` when no
   * message yields one: the loop's "a later value overwrites an earlier one".
   */
  function LastPicked<T>(ms: seq<Mensaje>, pick: Mensaje -> Option<T>): Option<T> {
    if |ms| == 0 then None
    else if pick(ms[|ms| - 1]).Some? then pick(ms[|ms| - 1])
    else LastPicked(ms[..|ms| - 1], pick)
  }

  /** The date a message contributes: a patient message's truthy date. */
  function PickFecha(m: Mensaje): (r: Option<string>)
    ensures r.Some? ==> m.emisor == Paciente && |r.value| > 0
  {
    if m.emisor == Paciente && Truthy(ParseFecha(m.mensaje)) then ParseFecha(m.mensaje) else None
  }

  /** The slot a message contributes: a patient message's parsed slot. */
  function PickSlot(parse: JsonParse): Mensaje -> Option<SlotElegido> {
    (m: Mensaje) => if m.emisor == Paciente then ParseSlot(m.mensaje, parse) else None
  }

  /** The date the patient chose last. */
  function LastFecha(ms: seq<Mensaje>): Option<string> {
    LastPicked(ms, PickFecha)
  }

  /** The slot the patient chose last. */
  function LastSlot(ms: seq<Mensaje>, parse: JsonParse): Option<SlotElegido> {
    LastPicked(ms, PickSlot(parse))
  }

  /** The text of the latest system message, "" when there is none. */
  function LastSistemaTexto(ms: seq<Mensaje>): string {
    if |ms| == 0 then ""
    else if ms[|ms| - 1].emisor == Sistema then ms[|ms| - 1].mensaje
    else LastSistemaTexto(ms[..|ms| - 1])
  }

  /**
   * The last value wins: `LastPicked` is the value of a message after which
   * no message yields one, and `None` exactly when no message yields one.
   */
  lemma {:induction false} LastPickedWins<T>(ms: seq<Mensaje>, pick: Mensaje -> Option<T>)
    ensures LastPicked(ms, pick).None? <==> forall i :: 0 <= i < |ms| ==> pick(ms[i]).None?
    ensures LastPicked(ms, pick).Some? ==>
              exists i :: 0 <= i < |ms| && pick(ms[i]) == LastPicked(ms, pick)
                          && forall j :: i < j < |ms| ==> pick(ms[j]).None?
  {
    if |ms| > 0 {
      var init := ms[..|ms| - 1];
      LastPickedWins(init, pick);
      assert forall i :: 0 <= i < |init| ==> ms[i] == init[i];
      if pick(ms[|ms| - 1]).None? && LastPicked(ms, pick).Some? {
        var i :| 0 <= i < |init| && pick(init[i]) == LastPicked(init, pick)
                 && forall j :: i < j < |init| ==> pick(init[j]).None?;
        assert pick(ms[i]) == LastPicked(ms, pick);
      }
    }
  }

  /**
   * The chosen date comes only from patient messages, and the last patient
   * message with a truthy date wins.
   */
  lemma LastFechaWins(ms: seq<Mensaje>)
    ensures LastFecha(ms).None? <==> forall i :: 0 <= i < |ms| ==> PickFecha(ms[i]).None?
    ensures LastFecha(ms).Some? ==>
              exists i :: 0 <= i < |ms| && ms[i].emisor == Paciente && ParseFecha(ms[i].mensaje) == LastFecha(ms)
                          && forall j :: i < j < |ms| ==> PickFecha(ms[j]).None?
  {
    LastPickedWins(ms, PickFecha);
  }

  /** `paso`, from the latest system text and the chosen date, in the source's order of priority. */
  function PasoDesde(lastTexto: string, fecha: Option<string>): Paso {
    if Contains(lastTexto, "Cita confirmada") || Contains(lastTexto, "cita ha sido agendada") then CitaCreada
    else if Contains(lastTexto, "¿Confirmar cita") || Contains(lastTexto, "Confirmar cita") then ConfirmarSlot
    else if Contains(lastTexto, "Horarios disponibles") || Contains(lastTexto, "horarios disponibles") then MostrarSlots
    else if Truthy(fecha) then ElegirFecha
    else Inicio
  }

  /** The result of `derivarPasoDesdeMensajes`. */
  datatype Derivacion = Derivacion(paso: Paso, fechaElegida: Option<string>, slotElegido: Option<SlotElegido>)

  /**
   * `derivarPasoDesdeMensajes`: one forward pass over the log keeps the last
   * truthy date and slot from patient messages and the last system text.
   */
  method DerivarPaso(ms: seq<Mensaje>, parse: JsonParse) returns (d: Derivacion)
    ensures d.fechaElegida == LastFecha(ms)
    ensures d.slotElegido == LastSlot(ms, parse)
    ensures d.paso == PasoDesde(LastSistemaTexto(ms), d.fechaElegida)
    ensures d.paso != Error
  {
    var fecha: Option<string> := None;
    var slot: Option<SlotElegido> := None;
    var lastTexto := "";
    var i := 0;
    while i < |ms|
      invariant 0 <= i <= |ms|
      invariant fecha == LastPicked(ms[..i], PickFecha)
      invariant slot == LastPicked(ms[..i], PickSlot(parse))
      invariant lastTexto == LastSistemaTexto(ms[..i])
    {
      var m := ms[i];
      assert ms[..i + 1] == ms[..i] + [m];
      LastPickedAppend(ms[..i], m, PickFecha);
      LastPickedAppend(ms[..i], m, PickSlot(parse));
      LastSistemaTextoAppend(ms[..i], m);
      var f := PickFecha(m);
      if f.Some? {
        fecha := f;
      }
      var s := PickSlot(parse)(m);
      if s.Some? {
        slot := s;
      }
      if m.emisor == Sistema {
        lastTexto := m.mensaje;
      }
      i := i + 1;
    }
    assert ms[..|ms|] == ms;
    d := Derivacion(PasoDesde(lastTexto, fecha), fecha, slot);
  }

  /** The "¿Confirmar cita" test is subsumed by the "Confirmar cita" test. */
  lemma ConfirmarSubsumed(t: string)
    ensures Contains(t, "¿Confirmar cita") ==> Contains(t, "Confirmar cita")
  {
    if Contains(t, "¿Confirmar cita") {
      ContainsAt(t, "¿Confirmar cita");
      var i :| OccursAt(t, "¿Confirmar cita", i);
      assert OccursAt(t, "Confirmar cita", i + 1) by {
        assert t[i + 1..i + 15] == t[i..i + 15][1..];
      }
      ContainsAt(t, "Confirmar cita");
    }
  }

  /**
   * Only the latest system message counts: appending a message from the
   * patient or the professional that carries neither date nor slot leaves
   * the derivation unchanged, and the derivation never yields `Error`.
   */
  lemma NonSistemaTailIgnored(ms: seq<Mensaje>, m: Mensaje, parse: JsonParse)
    requires m.emisor != Sistema
    requires PickFecha(m).None? && PickSlot(parse)(m).None?
    ensures LastFecha(ms + [m]) == LastFecha(ms)
    ensures LastSlot(ms + [m], parse) == LastSlot(ms, parse)
    ensures LastSistemaTexto(ms + [m]) == LastSistemaTexto(ms)
  {
    assert (ms + [m])[..|ms|] == ms;
  }

  /**
   * The latest system message decides the step: its marker phrases in
   * priority order (confirmed, confirm, available times), and without any of
   * them the chosen date, `ElegirFecha` exactly when one was chosen.
   */
  lemma PasoPriorities(ms: seq<Mensaje>, texto: string, id: string)
    ensures var t := LastSistemaTexto(ms + [Mensaje(id, Sistema, texto)]);
            t == texto
    ensures PasoDesde(texto, LastFecha(ms)) == CitaCreada
            <==> Contains(texto, "Cita confirmada") || Contains(texto, "cita ha sido agendada")
    ensures PasoDesde(texto, LastFecha(ms)) == ConfirmarSlot
            <==> !Contains(texto, "Cita confirmada") && !Contains(texto, "cita ha sido agendada")
                 && Contains(texto, "Confirmar cita")
    ensures PasoDesde(texto, LastFecha(ms)) == MostrarSlots
            <==> !Contains(texto, "Cita confirmada") && !Contains(texto, "cita ha sido agendada")
                 && !Contains(texto, "Confirmar cita")
                 && (Contains(texto, "Horarios disponibles") || Contains(texto, "horarios disponibles"))
    ensures (!Contains(texto, "Cita confirmada") && !Contains(texto, "cita ha sido agendada")
             && !Contains(texto, "Confirmar cita")
             && !Contains(texto, "Horarios disponibles") && !Contains(texto, "horarios disponibles"))
            ==> (PasoDesde(texto, LastFecha(ms)) == ElegirFecha <==> Truthy(LastFecha(ms)))
                && (PasoDesde(texto, LastFecha(ms)) == Inicio <==> !Truthy(LastFecha(ms)))
    ensures (PasoDesde(texto, LastFecha(ms)) == ElegirFecha || PasoDesde(texto, LastFecha(ms)) == Inicio)
            ==> !Contains(texto, "horarios disponibles")
  {
    ConfirmarSubsumed(texto);
  }

  /**
   * After the patient sends "FECHA:" and a date, reloading the log yields that
   * date; the step then follows the latest system message or, without a
   * marker phrase, is `ElegirFecha`.
   */
  lemma SentFechaDerived(ms: seq<Mensaje>, id: string, fecha: string)
    requires NoEdgeSpace(fecha) && |fecha| > 0
    ensures LastFecha(ms + [Mensaje(id, Paciente, PREFIJO_FECHA + fecha)]) == Some(fecha)
    ensures LastSistemaTexto(ms + [Mensaje(id, Paciente, PREFIJO_FECHA + fecha)]) == LastSistemaTexto(ms)
  {
    var m := Mensaje(id, Paciente, PREFIJO_FECHA + fecha);
    ParseFechaRoundTrip(fecha);
    LastPickedAppend(ms, m, PickFecha);
    LastSistemaTextoAppend(ms, m);
  }

  /** A message that yields a value is the last one to: it wins over the log before it. */
  lemma LastPickedAppend<T>(ms: seq<Mensaje>, m: Mensaje, pick: Mensaje -> Option<T>)
    ensures pick(m).Some? ==> LastPicked(ms + [m], pick) == pick(m)
    ensures pick(m).None? ==> LastPicked(ms + [m], pick) == LastPicked(ms, pick)
  {
    var log := ms + [m];
    assert log[|log| - 1] == m;
    assert log[..|log| - 1] == ms;
  }

  /** A patient message leaves the latest system text as it was. */
  lemma LastSistemaTextoAppend(ms: seq<Mensaje>, m: Mensaje)
    ensures m.emisor == Sistema ==> LastSistemaTexto(ms + [m]) == m.mensaje
    ensures m.emisor != Sistema ==> LastSistemaTexto(ms + [m]) == LastSistemaTexto(ms)
  {
    var log := ms + [m];
    assert log[|log| - 1] == m;
    assert log[..|log| - 1] == ms;
  }

  /** After the patient sends a slot, reloading the log yields that slot. */
  lemma SentSlotDerived(ms: seq<Mensaje>, id: string, slot: SlotElegido, json: string, parse: JsonParse)
    requires NoEdgeSpace(json) && |slot.inicio| > 0 && |slot.fin| > 0
    requires parse(json) == Some(JsonSlot(Some(slot.inicio), Some(slot.fin)))
    ensures LastSlot(ms + [Mensaje(id, Paciente, PREFIJO_SLOT + json)], parse) == Some(slot)
  {
    ParseSlotRoundTrip(slot, json, parse);
  }

  /** The notice sent when a date has no free slots. */
  function SinHorariosAviso(fecha: string): string {
    "No hay horarios disponibles el " + fecha + ". Elige otra fecha."
  }

  /**
   * The notice for a date without free slots contains "horarios disponibles"
   * and no higher marker, so a log ending in it derives `MostrarSlots`,
   * although the hook itself moves to `Inicio` after sending it.
   */
  lemma SinHorariosShowsSlots(ms: seq<Mensaje>, id: string, fecha: string)
    requires IsoDateShape(fecha)
    ensures PasoDesde(LastSistemaTexto(ms + [Mensaje(id, Sistema, SinHorariosAviso(fecha))]), LastFecha(ms)) == MostrarSlots
  {
    var t := SinHorariosAviso(fecha);
    assert LastSistemaTexto(ms + [Mensaje(id, Sistema, t)]) == t;
    AvisoMarkers(fecha);
  }

  /** Which marker phrases the notice contains. */
  lemma AvisoMarkers(fecha: string)
    requires IsoDateShape(fecha)
    ensures Contains(SinHorariosAviso(fecha), "horarios disponibles")
    ensures !Contains(SinHorariosAviso(fecha), "Cita confirmada")
    ensures !Contains(SinHorariosAviso(fecha), "Confirmar cita")
    ensures !Contains(SinHorariosAviso(fecha), "¿Confirmar cita")
    ensures !Contains(SinHorariosAviso(fecha), "cita ha sido agendada")
  {
    var t := SinHorariosAviso(fecha);
    AvisoInfix(fecha);
    AvisoLetters(fecha);
    NoCapitalC(t);
    ConfirmarSubsumed(t);
    NoPairNoContains(t, "cita ha sido agendada", 'c', 'i');
  }

  lemma AvisoInfix(fecha: string)
    ensures Contains(SinHorariosAviso(fecha), "horarios disponibles")
  {
    var head := "No hay horarios disponibles el ";
    assert head == "No hay " + "horarios disponibles" + " el ";
    var rest := " el " + fecha + ". Elige otra fecha.";
    assert SinHorariosAviso(fecha) == ("No hay " + "horarios disponibles" + " el ") + fecha + ". Elige otra fecha.";
    assert SinHorariosAviso(fecha) == "No hay " + "horarios disponibles" + rest;
    ContainsInfix("No hay ", "horarios disponibles", " el " + fecha + ". Elige otra fecha.");
  }

  /** The fixed text around the date has no capital C, and no "ci" after the date. */
  lemma AvisoFixedLetters()
    ensures 'C' !in "No hay horarios disponibles el " && 'c' !in "No hay horarios disponibles el "
    ensures 'C' !in ". Elige otra fecha."
    ensures forall i :: 0 <= i < |". Elige otra fecha."| - 1 ==>
              !(". Elige otra fecha."[i] == 'c' && ". Elige otra fecha."[i + 1] == 'i')
  {
  }

  /** The notice has no 'C' and never a "c" followed by an "i". */
  lemma AvisoLetters(fecha: string)
    requires IsoDateShape(fecha)
    ensures 'C' !in SinHorariosAviso(fecha)
    ensures forall i :: 0 <= i < |SinHorariosAviso(fecha)| - 1 ==>
              !(SinHorariosAviso(fecha)[i] == 'c' && SinHorariosAviso(fecha)[i + 1] == 'i')
  {
    var pre := "No hay horarios disponibles el ";
    var post := ". Elige otra fecha.";
    var t := SinHorariosAviso(fecha);
    AvisoFixedLetters();
    assert forall k :: 0 <= k < |fecha| ==> fecha[k] != 'c' && fecha[k] != 'C';
    forall i | 0 <= i < |t| ensures t[i] != 'C' && (i < |pre| + |fecha| ==> t[i] != 'c') {
      if i < |pre| {
        assert t[i] == pre[i];
      } else if i < |pre| + |fecha| {
        assert t[i] == fecha[i - |pre|];
      } else {
        assert t[i] == post[i - |pre| - |fecha|];
      }
    }
    forall i | |pre| + |fecha| <= i < |t| - 1 ensures !(t[i] == 'c' && t[i + 1] == 'i') {
      assert t[i] == post[i - |pre| - |fecha|];
      assert t[i + 1] == post[i + 1 - |pre| - |fecha|];
    }
  }

  /** A text contains a pattern only if it contains the pattern's first two characters side by side. */
  lemma NoPairNoContains(t: string, p: string, a: char, b: char)
    requires |p| >= 2 && p[0] == a && p[1] == b
    requires forall i :: 0 <= i < |t| - 1 ==> !(t[i] == a && t[i + 1] == b)
    ensures !Contains(t, p)
  {
    ContainsAt(t, p);
    OccursAtHead(t, p);
  }

  /** An occurrence of `p` starts with `p`'s first two characters. */
  lemma OccursAtHead(t: string, p: string)
    requires |p| >= 2
    ensures forall i :: OccursAt(t, p, i) ==> i + 1 < |t| && t[i] == p[0] && t[i + 1] == p[1]
  {
    forall i | OccursAt(t, p, i) ensures t[i] == p[0] && t[i + 1] == p[1] {
      assert t[i] == t[i..i + |p|][0] && t[i + 1] == t[i..i + |p|][1];
    }
  }

  /** A text without the letter 'C' contains none of the capitalised marker phrases. */
  lemma NoCapitalC(t: string)
    requires 'C' !in t
    ensures !Contains(t, "Cita confirmada") && !Contains(t, "Confirmar cita")
  {
    ContainsAt(t, "Cita confirmada");
    ContainsAt(t, "Confirmar cita");
    OccursAtHead(t, "Cita confirmada");
    OccursAtHead(t, "Confirmar cita");
  }

  /** Some message of `ms` has id `id` (`prev.some(m => m.id === id)`). */
  predicate HasId(ms: seq<Mensaje>, id: string) {
    exists i :: 0 <= i < |ms| && ms[i].id == id
  }

  /** No two messages share an id. */
  predicate UniqueIds(ms: seq<Mensaje>) {
    forall i, j :: 0 <= i < j < |ms| ==> ms[i].id != ms[j].id
  }

  /** The real-time append: a message whose id is already listed is dropped. */
  function AppendNuevo(prev: seq<Mensaje>, nuevo: Mensaje): (r: seq<Mensaje>)
    ensures prev <= r
    ensures HasId(r, nuevo.id)
  {
    if HasId(prev, nuevo.id) then prev
    else
      assert (prev + [nuevo])[|prev|] == nuevo;
      prev + [nuevo]
  }

  /**
   * The append keeps ids unique and the earlier messages in place, adds at
   * most the new message at the end, and delivering the same message again
   * changes nothing.
   */
  lemma AppendNuevoProps(prev: seq<Mensaje>, nuevo: Mensaje)
    ensures UniqueIds(prev) ==> UniqueIds(AppendNuevo(prev, nuevo))
    ensures AppendNuevo(prev, nuevo) == prev || AppendNuevo(prev, nuevo) == prev + [nuevo]
    ensures AppendNuevo(prev, nuevo) == prev <==> HasId(prev, nuevo.id)
    ensures AppendNuevo(AppendNuevo(prev, nuevo), nuevo) == AppendNuevo(prev, nuevo)
  {
    if !HasId(prev, nuevo.id) {
      assert |prev + [nuevo]| != |prev|;
    }
  }
}

=== FILE: dates.dfy ===
/**
 * Integer time helpers of the agenda (`lib/utils/dates.ts`).
 *
 * Instants are integer milliseconds since the Unix epoch (UTC), the value of
 * `Date.prototype.getTime`. The two `Intl.DateTimeFormat` lookups of the
 * source, the weekday name and the wall-clock hour/minute of an instant in
 * the professional's zone, are function-typed parameters: nothing here knows
 * about zone databases or daylight saving time, and neither does the source's
 * arithmetic, which takes every day to be 24 h long.
 */
module Dates {
  import opened Wrappers
  import Text

  const MS_PER_MINUTE := 60_000
  const MS_PER_HOUR := 3_600_000
  const MS_PER_DAY := 86_400_000

  /** Largest magnitude of a valid `Date` time value (ECMAScript TimeClip). */
  const MAX_TIME := 8_640_000_000_000_000

  /** `Intl.DateTimeFormat("en-US", {weekday: "short"})` labels, indexed by the weekday number of the agenda. */
  const WEEKDAY_LABELS: seq<string> := ["Mon", "Tue", "Wed", "Thu", "Fri", "Sat", "Sun"]

  /** The weekday number 0 = Monday … 6 = Sunday, from a weekday name. */
  function WeekdayFromLabel(name: string): (r: int)
    ensures 0 <= r < 7
    ensures name in WEEKDAY_LABELS ==> WEEKDAY_LABELS[r] == name
    ensures name !in WEEKDAY_LABELS ==> r == 0
  {
    if name == "Mon" then 0
    else if name == "Tue" then 1
    else if name == "Wed" then 2
    else if name == "Thu" then 3
    else if name == "Fri" then 4
    else if name == "Sat" then 5
    else if name == "Sun" then 6
    else 0
  }

  /**
   * `getDayOfWeek`: the zone's weekday of `instant`, where `labelAt` is the
   * formatter's weekday name for an instant.
   */
  function DayOfWeek(instant: int, labelAt: int -> string): (r: int)
    ensures 0 <= r < 7
    ensures labelAt(instant) in WEEKDAY_LABELS ==> WEEKDAY_LABELS[r] == labelAt(instant)
  {
    WeekdayFromLabel(labelAt(instant))
  }

  /** Numbers read from a "YYYY-MM-DD" string by `split("-").map(Number)`. */
  datatype CivilDate = CivilDate(year: int, month: int, day: int)

  /** Days from 1970-01-01 to y-m-d in the proleptic Gregorian calendar (civil-to-days algorithm). */
  function DaysFromCivil(y: int, m: int, d: int): int
    requires 1 <= m <= 12
  {
    var y' := if m <= 2 then y - 1 else y;
    var era := y' / 400;
    var yoe := y' - era * 400;
    var mp := if m > 2 then m - 3 else m + 9;
    var doy := (153 * mp + 2) / 5 + d - 1;
    var doe := yoe * 365 + yoe / 4 - yoe / 100 + doy;
    era * 146097 + doe - 719468
  }

  /**
   * ECMAScript MakeDay: day number of (year, zero-based month, date), where an
   * out-of-range month carries into the year and the date counts on from the
   * first of the month.
   */
  function MakeDay(year: int, month0: int, date: int): int {
    DaysFromCivil(year + month0 / 12, month0 % 12 + 1, 1) + date - 1
  }

  /** ECMAScript TimeClip: `None` is an invalid `Date` (its `toISOString` throws). */
  function TimeClip(t: int): (r: Option<int>)
    ensures r.Some? <==> -MAX_TIME <= t <= MAX_TIME
    ensures r.Some? ==> r.value == t
  {
    if -MAX_TIME <= t <= MAX_TIME then Some(t) else None
  }

  /** `Date.UTC(y, m - 1, d, 12, 0, 0)` before clipping; `Date.UTC` reads the years 0..99 as 1900..1999. */
  function NoonUtc(fecha: CivilDate): int {
    var y := if 0 <= fecha.year <= 99 then 1900 + fecha.year else fecha.year;
    MakeDay(y, fecha.month - 1, fecha.day) * MS_PER_DAY + 12 * MS_PER_HOUR
  }

  /** Hour and minute parts that `formatToParts` returned (already read as numbers); `None` is a missing part. */
  datatype ClockParts = ClockParts(hour: Option<int>, minute: Option<int>)

  /** The UTC instants bounding a day, as `getDayBoundsISO` returns them. */
  datatype DayBounds = DayBounds(start: int, end: int)

  /** Minutes of the zone's wall clock shown by `parts`, with the source's defaults 12 and 0. */
  function WallMinutes(parts: ClockParts): int {
    parts.hour.GetOr(12) * 60 + parts.minute.GetOr(0)
  }

  /**
   * `getDayBoundsISO(fecha, tz)`, where `clockAt` is the zone's wall-clock
   * lookup. The zone offset is read once, at UTC noon of `fecha`; `None` is the
   * RangeError an out-of-range instant raises.
   */
  function GetDayBounds(fecha: CivilDate, clockAt: int -> ClockParts): (r: Option<DayBounds>)
    ensures r.Some? ==> r.value.end - r.value.start == MS_PER_DAY - 1
    ensures r.Some? ==> -MAX_TIME <= r.value.start && r.value.end <= MAX_TIME
    ensures r.Some? ==> -MAX_TIME <= NoonUtc(fecha) <= MAX_TIME
  {
    var noon := NoonUtc(fecha);
    if TimeClip(noon).None? then None
    else
      var offsetMs := (12 * 60 - WallMinutes(clockAt(noon))) * MS_PER_MINUTE;
      var start := noon + offsetMs - 12 * MS_PER_HOUR;
      var end := start + MS_PER_DAY - 1;
      if TimeClip(start).None? || TimeClip(end).None? then None
      else Some(DayBounds(start, end))
  }

  /** Wall clock of a zone whose offset from UTC is a fixed `offsetMin` minutes, without daylight saving time. */
  function FixedOffsetClock(offsetMin: int): int -> ClockParts {
    (t: int) =>
      var local := ((t + offsetMin * MS_PER_MINUTE) % MS_PER_DAY) / MS_PER_MINUTE;
      ClockParts(Some(local / 60), Some(local % 60))
  }

  /** A day of an in-range date, in a UTC zone (wall clock reads 12:00 at UTC noon), starts at UTC midnight. */
  lemma UtcZoneStartsAtMidnight(fecha: CivilDate, clockAt: int -> ClockParts)
    requires clockAt(NoonUtc(fecha)) == ClockParts(Some(12), Some(0))
    requires GetDayBounds(fecha, clockAt).Some?
    ensures GetDayBounds(fecha, clockAt).value.start == NoonUtc(fecha) - 12 * MS_PER_HOUR
    ensures GetDayBounds(fecha, clockAt).value.start % MS_PER_DAY == 0
  {
  }

  /**
   * The day start depends on the wall clock's hour and minute only, never on
   * its calendar date: for a zone with a fixed offset, the start is the true
   * local midnight exactly when the offset lies in [-12 h, +12 h).
   */
  lemma {:induction false} FixedOffsetStartExactIff(fecha: CivilDate, offsetMin: int)
    requires GetDayBounds(fecha, FixedOffsetClock(offsetMin)).Some?
    ensures GetDayBounds(fecha, FixedOffsetClock(offsetMin)).value.start
              == NoonUtc(fecha) - 12 * MS_PER_HOUR - offsetMin * MS_PER_MINUTE
            <==> -720 <= offsetMin < 720
  {
    var noon := NoonUtc(fecha);
    var dayStart := noon - 12 * MS_PER_HOUR;
    assert noon % MS_PER_DAY == 12 * MS_PER_HOUR;
    var local := ((noon + offsetMin * MS_PER_MINUTE) % MS_PER_DAY) / MS_PER_MINUTE;
    assert local == (720 + offsetMin) % 1440 by {
      var k := noon / MS_PER_DAY;
      assert noon == k * MS_PER_DAY + 720 * MS_PER_MINUTE;
      ModShift(noon + offsetMin * MS_PER_MINUTE, 720 + offsetMin, k);
    }
    var w := WallMinutes(FixedOffsetClock(offsetMin)(noon));
    assert w == local;
    var start := GetDayBounds(fecha, FixedOffsetClock(offsetMin)).value.start;
    assert start == dayStart + (720 - w) * MS_PER_MINUTE;
    if -720 <= offsetMin < 720 {
      assert w == 720 + offsetMin;
    } else {
      assert w != 720 + offsetMin;
    }
  }

  /** Reducing `k` whole days plus `m` minutes modulo a day leaves `m` modulo a day's minutes. */
  lemma ModShift(t: int, m: int, k: int)
    requires t == k * MS_PER_DAY + m * MS_PER_MINUTE
    ensures (t % MS_PER_DAY) / MS_PER_MINUTE == m % 1440
  {
    var q := m / 1440;
    var rem := m % 1440;
    assert m == q * 1440 + rem;
    assert t == (k + q) * MS_PER_DAY + rem * MS_PER_MINUTE;
    assert 0 <= rem * MS_PER_MINUTE < MS_PER_DAY;
    assert t % MS_PER_DAY == rem * MS_PER_MINUTE;
  }

  /** `addMinutes`: the instant `minutes` minutes after `t`. */
  function AddMinutes(t: int, minutes: int): int {
    t + minutes * MS_PER_MINUTE
  }

  /** Adding no minutes is the identity; adding `a` then `b` minutes adds `a + b`. */
  lemma AddMinutesMonoid(t: int, a: int, b: int)
    ensures AddMinutes(t, 0) == t
    ensures AddMinutes(AddMinutes(t, a), b) == AddMinutes(t, a + b)
    ensures AddMinutes(t, a) - t == a * MS_PER_MINUTE
  {
  }

  // ---------------------------------------------------------------------------
  // Day number to calendar date, for `toISOString`
  // ---------------------------------------------------------------------------

  /** `x` lies in the `q`-th block of `d`: the quotient is `q`. */
  lemma DivUnique(x: int, q: int, d: int)
    requires d > 0 && q * d <= x < (q + 1) * d
    ensures x / d == q
  {
    var r := x / d;
    assert x == r * d + x % d;
    assert (r - q) * d == r * d - q * d;
    assert (q + 1) * d == q * d + d;
    MulMono(r - q, d);
  }

  lemma MulMono(m: int, d: int)
    requires d > 0
    ensures m >= 1 ==> m * d >= d
    ensures m <= -1 ==> m * d <= -d
  {
    assert m * d == (m - 1) * d + d;
    assert m * d == (m + 1) * d - d;
  }

  /** Days of an era before its year `y` (years start on 1 March). */
  function DaysBeforeYear(y: int): int {
    365 * y + y / 4 - y / 100 + y / 400
  }

  /** A (March-based) year of an era has 365 or 366 days. */
  lemma YearLength(y: int)
    requires 0 <= y < 400
    ensures 365 <= DaysBeforeYear(y + 1) - DaysBeforeYear(y) <= 366
  {
    DivStep(y, 4);
    DivStep(y, 100);
    DivStep(y, 400);
  }

  /** February has 28 or 29 days: March 1st comes one (March-based) year length after the previous March 1st, less 337 days. */
  lemma FebruaryLength(y: int)
    ensures 28 <= DaysFromCivil(y, 3, 1) - DaysFromCivil(y, 2, 1) <= 29
  {
    var era := (y - 1) / 400;
    var yoe := y - 1 - era * 400;
    FirstOfMonth(y, 2, era, yoe);
    if yoe < 399 {
      FirstOfMonth(y, 3, era, yoe + 1);
      YearLength(yoe);
    } else {
      FirstOfMonth(y, 3, era + 1, 0);
      assert DaysBeforeYear(399) == 145731;
    }
  }

  /**
   * The first of a month by era and year of era (March-based, so January and
   * February count in the year before), `doy` days into that year.
   */
  lemma FirstOfMonth(y: int, m: int, era: int, yoe: int)
    requires 1 <= m <= 12 && 0 <= yoe < 400
    requires (if m <= 2 then y - 1 else y) == era * 400 + yoe
    ensures DaysFromCivil(y, m, 1)
            == era * 146097 + DaysBeforeYear(yoe) + (153 * (if m > 2 then m - 3 else m + 9) + 2) / 5 - 719468
  {
    DivUnique(if m <= 2 then y - 1 else y, era, 400);
  }

  /** Every month but December of the proleptic Gregorian calendar has 28 to 31 days. */
  lemma CivilMonthLength(y: int, m: int)
    requires 1 <= m < 12
    ensures 28 <= DaysFromCivil(y, m + 1, 1) - DaysFromCivil(y, m, 1) <= 31
  {
    if m == 2 {
      FebruaryLength(y);
    }
  }

  /** December has 31 days. */
  lemma DecemberLength(y: int)
    ensures DaysFromCivil(y + 1, 1, 1) - DaysFromCivil(y, 12, 1) == 31
  {
  }

  /** `MakeDay` of the first of consecutive months (the month may carry into the year) lies 28 to 31 days apart. */
  lemma MonthLength(year: int, month0: int)
    ensures 28 <= MakeDay(year, month0 + 1, 1) - MakeDay(year, month0, 1) <= 31
  {
    var q := month0 / 12;
    var y := year + q;
    var m := month0 % 12 + 1;
    if m < 12 {
      DivUnique(month0 + 1, q, 12);
      MonthStarts(year, month0, y, m, y, m + 1);
      CivilMonthLength(y, m);
    } else {
      DivUnique(month0 + 1, q + 1, 12);
      MonthStarts(year, month0, y, 12, y + 1, 1);
      DecemberLength(y);
    }
  }

  /** `MakeDay` of the first of a month and of the next, once the years `y`, `y'` and the months `m`, `m'` of both are known. */
  lemma MonthStarts(year: int, month0: int, y: int, m: int, y': int, m': int)
    requires 1 <= m <= 12 && 1 <= m' <= 12
    requires year + month0 / 12 == y && month0 % 12 + 1 == m
    requires year + (month0 + 1) / 12 == y' && (month0 + 1) % 12 + 1 == m'
    ensures MakeDay(year, month0, 1) == DaysFromCivil(y, m, 1)
    ensures MakeDay(year, month0 + 1, 1) == DaysFromCivil(y', m', 1)
  {
  }

  /** Moving one up changes a quotient by at most one. */
  lemma DivStep(y: int, k: int)
    requires k > 0
    ensures 0 <= (y + 1) / k - y / k <= 1
  {
    var q := y / k;
    assert y == q * k + y % k;
    assert (q + 1) * k == q * k + k;
    assert (q + 2) * k == q * k + k + k;
    if y + 1 < (q + 1) * k {
      DivUnique(y + 1, q, k);
    } else {
      DivUnique(y + 1, q + 1, k);
    }
  }

  /** The year of the era that holds its day `doe`, searching upward from year `y`. */
  function YearOfEra(doe: int, y: int): (yoe: int)
    requires 0 <= y < 400 && DaysBeforeYear(y) <= doe < 146097
    ensures y <= yoe < 400
    ensures DaysBeforeYear(yoe) <= doe < DaysBeforeYear(yoe + 1)
    decreases 400 - y
  {
    if doe < DaysBeforeYear(y + 1) then y else YearOfEra(doe, y + 1)
  }

  /**
   * The proleptic Gregorian date of day number `z` (days since 1970-01-01),
   * as `toISOString` prints it: it is the date `DaysFromCivil` maps back to `z`.
   */
  function CivilFromDays(z: int): (c: CivilDate)
    ensures 1 <= c.month <= 12 && 1 <= c.day <= 31
    ensures DaysFromCivil(c.year, c.month, c.day) == z
  {
    var z' := z + 719468;
    var era := z' / 146097;
    var doe := z' - era * 146097;
    var yoe := YearOfEra(doe, 0);
    YearLength(yoe);
    var doy := doe - DaysBeforeYear(yoe);
    var mp := (5 * doy + 2) / 153;
    var d := doy - (153 * mp + 2) / 5 + 1;
    var m := if mp < 10 then mp + 3 else mp - 9;
    var y := yoe + era * 400 + (if m <= 2 then 1 else 0);
    CivilRoundTrip(z, era, doe, yoe, doy, mp, d, m, y);
    CivilDate(y, m, d)
  }

  /** The day, month and year `CivilFromDays` computes name day `z` again. */
  lemma CivilRoundTrip(z: int, era: int, doe: int, yoe: int, doy: int, mp: int, d: int, m: int, y: int)
    requires doe == z + 719468 - era * 146097
    requires 0 <= yoe < 400 && doy == doe - DaysBeforeYear(yoe) && 0 <= doy <= 365
    requires mp == (5 * doy + 2) / 153 && d == doy - (153 * mp + 2) / 5 + 1
    requires m == (if mp < 10 then mp + 3 else mp - 9)
    requires y == yoe + era * 400 + (if m <= 2 then 1 else 0)
    ensures 1 <= m <= 12 && 1 <= d <= 31
    ensures DaysFromCivil(y, m, d) == z
  {
    assert 0 <= mp <= 11;
    var y' := if m <= 2 then y - 1 else y;
    assert y' == yoe + era * 400;
    assert era * 400 <= y' < (era + 1) * 400;
    DivUnique(y', era, 400);
    assert y' / 400 == era;
    assert y' - era * 400 == yoe;
    assert (if m > 2 then m - 3 else m + 9) == mp;
    assert yoe / 400 == 0;
  }

  /**
   * The date part of `toISOString()`: a four-digit year for years 0..9999,
   * otherwise a sign and six digits; then two-digit month and day.
   */
  function IsoDatePart(c: CivilDate): (s: string)
    requires 1 <= c.month <= 12 && 1 <= c.day <= 31 && -1_000_000 < c.year < 1_000_000
    ensures |s| >= 10
  {
    var year :=
      if 0 <= c.year <= 9999 then Text.PadDigits(c.year, 4)
      else (if c.year < 0 then "-" else "+") + Text.PadDigits(if c.year < 0 then -c.year else c.year, 6);
    year + "-" + Text.PadDigits(c.month, 2) + "-" + Text.PadDigits(c.day, 2)
  }

  /** Every valid `Date` lies in a year of at most six digits. */
  lemma YearBound(t: int)
    requires -MAX_TIME <= t <= MAX_TIME
    ensures -1_000_000 < CivilFromDays(t / MS_PER_DAY).year < 1_000_000
  {
  }

  /**
   * `formatDate(date)`: `date.toISOString().slice(0, 10)` for the instant
   * `t`; `None` for an invalid date, where `toISOString` throws.
   */
  function FormatDate(t: int): (r: Option<string>)
    ensures r.Some? <==> -MAX_TIME <= t <= MAX_TIME
    ensures r.Some? ==> |r.value| == 10
  {
    if -MAX_TIME <= t <= MAX_TIME then
      YearBound(t);
      Some(IsoDatePart(CivilFromDays(t / MS_PER_DAY))[..10])
    else None
  }

  /**
   * For years 0..9999 `formatDate` writes `YYYY-MM-DD`, and the numbers it
   * writes are the UTC calendar date of the instant: the date whose day
   * number is `floor(t / 86 400 000)`.
   */
  lemma FormatDateReadsBack(t: int)
    requires -MAX_TIME <= t <= MAX_TIME
    requires 0 <= CivilFromDays(t / MS_PER_DAY).year <= 9999
    ensures var s := FormatDate(t).value;
      && Text.IsoDateShape(s)
      && Text.DateKey(s) == CivilFromDays(t / MS_PER_DAY).year * 10000
           + CivilFromDays(t / MS_PER_DAY).month * 100 + CivilFromDays(t / MS_PER_DAY).day
      && var c := CivilFromDays(t / MS_PER_DAY);
         DaysFromCivil(c.year, c.month, c.day) * MS_PER_DAY <= t < (DaysFromCivil(c.year, c.month, c.day) + 1) * MS_PER_DAY
  {
    var z := t / MS_PER_DAY;
    var c := CivilFromDays(z);
    IsoDatePartReads(c);
    assert FormatDate(t).value == IsoDatePart(c);
    assert z * MS_PER_DAY <= t < (z + 1) * MS_PER_DAY;
  }

  /** A four-digit year prints as ten characters that read back as the date's key. */
  lemma IsoDatePartReads(c: CivilDate)
    requires 1 <= c.month <= 12 && 1 <= c.day <= 31 && 0 <= c.year <= 9999
    ensures |IsoDatePart(c)| == 10 && IsoDatePart(c)[..10] == IsoDatePart(c)
    ensures Text.IsoDateShape(IsoDatePart(c))
    ensures Text.DateKey(IsoDatePart(c)) == c.year * 10000 + c.month * 100 + c.day
  {
    var y, m, d := Text.PadDigits(c.year, 4), Text.PadDigits(c.month, 2), Text.PadDigits(c.day, 2);
    var s := y + "-" + m + "-" + d;
    assert IsoDatePart(c) == s;
    Text.IsoJoin(y, m, d);
  }

  /** Beyond year 9999 (or before year 0) the text starts with a sign and is not a `YYYY-MM-DD` date. */
  lemma FormatDateExtendedYear(t: int)
    requires -MAX_TIME <= t <= MAX_TIME
    requires !(0 <= CivilFromDays(t / MS_PER_DAY).year <= 9999)
    ensures FormatDate(t).value[0] == '+' || FormatDate(t).value[0] == '-'
    ensures !Text.IsoDateShape(FormatDate(t).value)
  {
  }
}

=== FILE: guards.dfy ===
/**
 * Route classification and access (`lib/auth/guards.ts`). Paths are the
 * request's `pathname` strings; prefix tests are `startsWith`, written
 * `p <= s`.
 */
module Guards {
  import opened Wrappers
  import opened Roles
  import opened Text

  const RUTAS_PUBLICAS: seq<string> := ["/", "/login", "/registro"]
  const PREFIJO_PROFESIONAL: string := "/profesional"
  const PREFIJO_PACIENTE: string := "/paciente"

  /** First path segments that are never a professional's public link. */
  const SLUGS_RESERVADOS: seq<string> := ["login", "registro", "logout", "profesional", "paciente", "api", "_next"]

  /** The capture of `/^\/([^/]+)$/`: the rest of a path made of one slash and at least one non-slash character. */
  function SingleSegment(pathname: string): (r: Option<string>)
    ensures r.Some? ==> pathname == "/" + r.value && |r.value| > 0 && '/' !in r.value
    ensures (|pathname| > 1 && pathname[0] == '/' && '/' !in pathname[1..]) ==> r.Some?
  {
    if |pathname| > 1 && pathname[0] == '/' && '/' !in pathname[1..] then
      assert pathname == "/" + pathname[1..];
      Some(pathname[1..])
    else None
  }

  /** `esRutaEnlacePublico`: a single non-reserved segment, such as "/dr-juan-perez". */
  predicate EsRutaEnlacePublico(pathname: string) {
    match SingleSegment(pathname)
    case None => false
    case Some(segment) => |segment| > 0 && segment !in SLUGS_RESERVADOS
  }

  /**
   * A public link is exactly "/" followed by one non-empty segment without a
   * further slash that is not reserved.
   */
  lemma EnlacePublicoIff(segment: string)
    ensures EsRutaEnlacePublico("/" + segment)
            <==> |segment| > 0 && '/' !in segment && segment !in SLUGS_RESERVADOS
  {
    var p := "/" + segment;
    assert p[1..] == segment;
  }

  /** The root and every path with a second slash are never public links. */
  lemma NotEnlacePublico(a: string, b: string)
    ensures !EsRutaEnlacePublico("/")
    ensures !EsRutaEnlacePublico("/" + a + "/" + b)
  {
    var p := "/" + a + "/" + b;
    assert p[1..][|a|] == '/';
  }

  /** `esRutaPublica`, as the source writes it: the `some` over the listed routes also carries the "/api/" test. */
  predicate EsRutaPublica(pathname: string) {
    || (exists i :: 0 <= i < |RUTAS_PUBLICAS| && (RUTAS_PUBLICAS[i] == pathname || "/api/" <= pathname))
    || EsRutaEnlacePublico(pathname)
  }

  /** A path is public exactly when it is "/", "/login" or "/registro", starts with "/api/", or is a public link. */
  lemma EsRutaPublicaIff(pathname: string)
    ensures EsRutaPublica(pathname)
            <==> pathname in {"/", "/login", "/registro"} || "/api/" <= pathname || EsRutaEnlacePublico(pathname)
  {
    assert RUTAS_PUBLICAS[0] == "/" && RUTAS_PUBLICAS[1] == "/login" && RUTAS_PUBLICAS[2] == "/registro";
  }

  /** `esRutaProfesional`: a plain prefix test, so "/profesionalX" counts. */
  predicate EsRutaProfesional(pathname: string) {
    PREFIJO_PROFESIONAL <= pathname
  }

  /** `esRutaPaciente`. */
  predicate EsRutaPaciente(pathname: string) {
    PREFIJO_PACIENTE <= pathname
  }

  /** Role areas: the prefix itself or anything below it, as in "/profesional/agenda". */
  predicate UnderArea(prefix: string, pathname: string) {
    pathname == prefix || prefix + "/" <= pathname
  }

  /** No path lies in both areas. */
  lemma AreasExclusive(pathname: string)
    ensures !(EsRutaProfesional(pathname) && EsRutaPaciente(pathname))
  {
    if |pathname| > 2 {
      assert PREFIJO_PROFESIONAL[2] != PREFIJO_PACIENTE[2];
      assert EsRutaProfesional(pathname) ==> pathname[2] == PREFIJO_PROFESIONAL[2];
      assert EsRutaPaciente(pathname) ==> pathname[2] == PREFIJO_PACIENTE[2];
    }
  }

  /**
   * No path is in both role areas. A path inside an area proper is never
   * public, but the prefix test also accepts single segments such as
   * "/profesionalX", which are public links.
   */
  lemma RoleAreasDisjoint(pathname: string)
    ensures !(EsRutaProfesional(pathname) && EsRutaPaciente(pathname))
    ensures UnderArea(PREFIJO_PROFESIONAL, pathname) ==> EsRutaProfesional(pathname) && !EsRutaPublica(pathname)
    ensures UnderArea(PREFIJO_PACIENTE, pathname) ==> EsRutaPaciente(pathname) && !EsRutaPublica(pathname)
    ensures EsRutaProfesional("/profesionalX") && EsRutaPublica("/profesionalX")
  {
    AreasExclusive(pathname);
    if UnderArea(PREFIJO_PROFESIONAL, pathname) {
      NotPublicUnderArea(PREFIJO_PROFESIONAL, pathname);
    }
    if UnderArea(PREFIJO_PACIENTE, pathname) {
      NotPublicUnderArea(PREFIJO_PACIENTE, pathname);
    }
    LooseAreaPrefix();
  }

  /** The area test is a bare prefix test: "/profesionalX" counts as the professional area and is also a public link. */
  lemma LooseAreaPrefix()
    ensures EsRutaProfesional("/profesionalX") && EsRutaPublica("/profesionalX")
  {
    EnlacePublicoIff("profesionalX");
    assert "/profesionalX" == "/" + "profesionalX";
    EsRutaPublicaIff("/profesionalX");
  }

  lemma NotPublicUnderArea(prefix: string, pathname: string)
    requires prefix == PREFIJO_PROFESIONAL || prefix == PREFIJO_PACIENTE
    requires UnderArea(prefix, pathname)
    ensures prefix <= pathname && !EsRutaPublica(pathname)
  {
    assert prefix <= pathname by {
      if pathname != prefix {
        assert (prefix + "/")[..|prefix|] == prefix;
      }
    }
    assert pathname[1] == prefix[1];
    EsRutaPublicaIff(pathname);
    if pathname == prefix {
      assert pathname[1..] == prefix[1..];
      assert pathname[1..] in SLUGS_RESERVADOS;
    } else {
      assert pathname[1..][|prefix| - 1] == '/';
    }
  }

  /** `rutaParaRol`: a role's dashboard, which lies in that role's own area, outside the other's, and is not public. */
  function RutaParaRol(role: UserRole): (r: string)
    ensures role == Profesional ==> EsRutaProfesional(r) && !EsRutaPaciente(r)
    ensures role == Paciente ==> EsRutaPaciente(r) && !EsRutaProfesional(r)
    ensures !EsRutaPublica(r)
  {
    var r := if RoleName(role) == "profesional" then PREFIJO_PROFESIONAL + "/dashboard" else PREFIJO_PACIENTE + "/dashboard";
    RoleAreasDisjoint(r);
    r
  }

  /** The two dashboards as the source spells them. */
  lemma DashboardPaths()
    ensures RutaParaRol(Profesional) == "/profesional/dashboard"
    ensures RutaParaRol(Paciente) == "/paciente/dashboard"
  {
    assert RoleName(Paciente) != "profesional" by {
      assert RoleName(Paciente)[1] != "profesional"[1];
    }
    assert PREFIJO_PROFESIONAL + "/dashboard" == "/profesional/dashboard";
    assert PREFIJO_PACIENTE + "/dashboard" == "/paciente/dashboard";
  }

  /** `puedeAccederARuta`. */
  predicate PuedeAccederARuta(role: Option<string>, pathname: string) {
    if !Truthy(role) || !IsValidRole(role.value) then false
    else if EsRutaPublica(pathname) then true
    else if role.value == "profesional" && EsRutaProfesional(pathname) then true
    else if role.value == "paciente" && EsRutaPaciente(pathname) then true
    else false
  }

  /**
   * Without a valid role nothing is reachable, not even a public path; with
   * one, exactly the public paths and the role's own area are.
   */
  lemma PuedeAccederIff(role: Option<string>, pathname: string)
    ensures role.None? || !IsValidRole(role.value) ==> !PuedeAccederARuta(role, pathname)
    ensures role.Some? && IsValidRole(role.value) ==>
              (PuedeAccederARuta(role, pathname)
               <==> EsRutaPublica(pathname)
                    || (role.value == "profesional" && EsRutaProfesional(pathname))
                    || (role.value == "paciente" && EsRutaPaciente(pathname)))
  {
  }

  /** A valid role may always open its own dashboard. */
  lemma DashboardReachable(role: UserRole)
    ensures PuedeAccederARuta(Some(RoleName(role)), RutaParaRol(role))
  {
  }
}

=== FILE: metrics.dfy ===
/**
 * The metrics summary of `getResumenMetricas` (lib/metricas.ts): the event
 * rows of one professional, already fetched, are counted per event tag, and
 * the subscription flag computed elsewhere is passed through.
 */
module Metricas {
  import Text

  const CITA_FORMULARIO := "cita_creada_formulario"
  const CITA_CHAT := "cita_creada_chat"
  const SUSCRIPCION_ACTIVADA := "suscripcion_activada"
  const CITA_CANCELADA := "cita_cancelada"

  /** The event tags of `eventos_sistema` (`EVENTOS`). */
  const EVENTOS: seq<string> := [CITA_FORMULARIO, CITA_CHAT, SUSCRIPCION_ACTIVADA, CITA_CANCELADA]

  /** `ResumenMetricas`. */
  datatype ResumenMetricas = ResumenMetricas(
    citasFormulario: nat,
    citasChat: nat,
    citasCanceladas: nat,
    suscripcionesActivadas: nat,
    tieneSuscripcionActiva: bool)

  /** `rows.filter((r) => r.evento === tag).length`. */
  function CountTag(rows: seq<string>, tag: string): (n: nat)
    ensures n == multiset(rows)[tag]
  {
    var n := Text.CountWhere(rows, (e: string) => e == tag);
    CountWhereIsMultiplicity(rows, (e: string) => e == tag, tag);
    n
  }

  /** Counting the elements equal to `x` gives the multiplicity of `x`. */
  lemma {:induction false} CountWhereIsMultiplicity<T>(s: seq<T>, f: T -> bool, x: T)
    requires forall y :: f(y) <==> y == x
    ensures Text.CountWhere(s, f) == multiset(s)[x]
  {
    if |s| > 0 {
      CountWhereIsMultiplicity(s[1..], f, x);
      assert s == [s[0]] + s[1..];
    }
  }

  /**
   * The summary of the rows `eventos`; `suscripcionActiva` is the value
   * `tieneSuscripcionActiva` returned for the same professional.
   */
  function ResumenDe(eventos: seq<string>, suscripcionActiva: bool): (r: ResumenMetricas)
    ensures r.citasFormulario == multiset(eventos)[CITA_FORMULARIO]
    ensures r.citasChat == multiset(eventos)[CITA_CHAT]
    ensures r.citasCanceladas == multiset(eventos)[CITA_CANCELADA]
    ensures r.suscripcionesActivadas == multiset(eventos)[SUSCRIPCION_ACTIVADA]
    ensures r.tieneSuscripcionActiva == suscripcionActiva
  {
    ResumenMetricas(
      CountTag(eventos, CITA_FORMULARIO),
      CountTag(eventos, CITA_CHAT),
      CountTag(eventos, CITA_CANCELADA),
      CountTag(eventos, SUSCRIPCION_ACTIVADA),
      suscripcionActiva)
  }

  /** The four tags are distinct, so no row is counted twice. */
  lemma {:induction false} TagsDisjoint(eventos: seq<string>)
    ensures multiset(eventos)[CITA_FORMULARIO] + multiset(eventos)[CITA_CHAT]
          + multiset(eventos)[CITA_CANCELADA] + multiset(eventos)[SUSCRIPCION_ACTIVADA] <= |eventos|
  {
    if |eventos| > 0 {
      TagsDisjoint(eventos[1..]);
      assert eventos == [eventos[0]] + eventos[1..];
      assert CITA_FORMULARIO != CITA_CHAT && CITA_FORMULARIO[6] != CITA_CANCELADA[6];
      assert CITA_FORMULARIO[0] != SUSCRIPCION_ACTIVADA[0] && CITA_CHAT[0] != SUSCRIPCION_ACTIVADA[0];
      assert CITA_CHAT[6] != CITA_CANCELADA[6] && CITA_CANCELADA[0] != SUSCRIPCION_ACTIVADA[0];
    }
  }

  /** The counts of a summary never add up to more than the number of rows. */
  lemma CountsBounded(eventos: seq<string>, suscripcionActiva: bool)
    ensures var r := ResumenDe(eventos, suscripcionActiva);
      r.citasFormulario + r.citasChat + r.citasCanceladas + r.suscripcionesActivadas <= |eventos|
  {
    TagsDisjoint(eventos);
  }

  /** Rows with no known tag are counted nowhere: only tagged rows move the counts. */
  lemma CountsAllIffTagged(eventos: seq<string>, suscripcionActiva: bool)
    ensures var r := ResumenDe(eventos, suscripcionActiva);
      r.citasFormulario + r.citasChat + r.citasCanceladas + r.suscripcionesActivadas == |eventos|
      <==> forall i :: 0 <= i < |eventos| ==> eventos[i] in EVENTOS
  {
    CountsAllIffTaggedRec(eventos);
  }

  lemma {:induction false} CountsAllIffTaggedRec(eventos: seq<string>)
    ensures multiset(eventos)[CITA_FORMULARIO] + multiset(eventos)[CITA_CHAT]
          + multiset(eventos)[CITA_CANCELADA] + multiset(eventos)[SUSCRIPCION_ACTIVADA] == |eventos|
      <==> forall i :: 0 <= i < |eventos| ==> eventos[i] in EVENTOS
  {
    if |eventos| > 0 {
      var rest := eventos[1..];
      CountsAllIffTaggedRec(rest);
      TagsDisjoint(rest);
      assert eventos == [eventos[0]] + rest;
      assert CITA_FORMULARIO != CITA_CHAT && CITA_FORMULARIO[6] != CITA_CANCELADA[6];
      assert CITA_FORMULARIO[0] != SUSCRIPCION_ACTIVADA[0] && CITA_CHAT[0] != SUSCRIPCION_ACTIVADA[0];
      assert CITA_CHAT[6] != CITA_CANCELADA[6] && CITA_CANCELADA[0] != SUSCRIPCION_ACTIVADA[0];
      assert forall i :: 1 <= i < |eventos| ==> eventos[i] == rest[i - 1];
    }
  }

  /** The summary does not depend on the order in which the rows arrive. */
  lemma OrderIrrelevant(a: seq<string>, b: seq<string>, suscripcionActiva: bool)
    requires multiset(a) == multiset(b)
    ensures ResumenDe(a, suscripcionActiva) == ResumenDe(b, suscripcionActiva)
  {
  }
}

=== FILE: middleware.dfy ===
/**
 * The request gate (`middleware.ts`): for a request path, the role stored in
 * the signed-in user's profile (`None` without a session or profile), and
 * whether the Supabase configuration is present, it lets the request through
 * or redirects it. The session and profile lookups are the `role` parameter.
 */
module Middleware {
  import opened Wrappers
  import opened Roles
  import opened Guards
  import opened Text

  /** The response: pass the request on, or redirect to `path` with an optional `redirect` query parameter. */
  datatype Decision = Next | Redirect(path: string, redirectParam: Option<string>)

  const LOGIN: string := "/login"
  const LOGOUT: string := "/logout"

  /**
   * Where a role string that failed the area check is sent: the login page
   * exactly when the role is not valid, and otherwise a protected page that
   * role may open.
   */
  function WrongAreaTarget(role: string): (r: string)
    ensures r == LOGIN <==> !IsValidRole(role)
    ensures r != LOGIN ==> PuedeAccederARuta(Some(role), r) && !EsRutaPublica(r)
  {
    match ParseRole(role)
    case Some(userRole) =>
      DashboardReachable(userRole);
      RutaParaRol(userRole)
    case None => LOGIN
  }

  /** `middleware(request)`, checks in the source's order. */
  function Decide(pathname: string, role: Option<string>, configured: bool): Decision {
    if !configured then Next
    else if pathname == LOGOUT then Next
    else if EsRutaPublica(pathname) then
      if EsRutaEnlacePublico(pathname) then Next
      else if role == Some("profesional") then Redirect("/profesional/dashboard", None)
      else if role == Some("paciente") then Redirect("/paciente/dashboard", None)
      else Next
    else if !Truthy(role) then Redirect(LOGIN, Some(pathname))
    else if EsRutaProfesional(pathname) then
      if role.value != "profesional" then Redirect(WrongAreaTarget(role.value), None) else Next
    else if EsRutaPaciente(pathname) then
      if role.value != "paciente" then Redirect(WrongAreaTarget(role.value), None) else Next
    else Redirect(LOGIN, None)
  }

  /** Without the Supabase configuration every request passes, and "/logout" always passes. */
  lemma UnconfiguredOrLogoutPasses(pathname: string, role: Option<string>, configured: bool)
    ensures !configured ==> Decide(pathname, role, configured) == Next
    ensures Decide(LOGOUT, role, configured) == Next
  {
  }

  /** A public link passes for every role, including none. */
  lemma EnlacePublicoPasses(pathname: string, role: Option<string>)
    requires EsRutaEnlacePublico(pathname)
    ensures Decide(pathname, role, true) == Next
  {
  }

  /** "/logout" is not public: its segment is reserved and it is not a listed route. */
  lemma LogoutNotPublic()
    ensures !EsRutaPublica(LOGOUT)
  {
    EsRutaPublicaIff(LOGOUT);
    EnlacePublicoIff("logout");
    assert LOGOUT == "/" + "logout";
    assert SLUGS_RESERVADOS[2] == "logout";
    assert LOGOUT[1] != "/api/"[1];
  }

  /**
   * On the other public paths a profesional goes to the professional
   * dashboard, a paciente to the patient dashboard, and anyone else passes.
   */
  lemma OtherPublicPaths(pathname: string, role: Option<string>)
    requires EsRutaPublica(pathname) && !EsRutaEnlacePublico(pathname)
    ensures role == Some("profesional") ==> Decide(pathname, role, true) == Redirect("/profesional/dashboard", None)
    ensures role == Some("paciente") ==> Decide(pathname, role, true) == Redirect("/paciente/dashboard", None)
    ensures role != Some("profesional") && role != Some("paciente") ==> Decide(pathname, role, true) == Next
  {
    LogoutNotPublic();
  }

  /** Public checks come first: a public path is never sent to the login page. */
  lemma PublicNeverToLogin(pathname: string, role: Option<string>)
    requires EsRutaPublica(pathname)
    ensures Decide(pathname, role, true).Next? || Decide(pathname, role, true).path != LOGIN
  {
  }

  /** A non-public path without a session or role goes to the login page, which is told where to return. */
  lemma NoRoleToLogin(pathname: string, role: Option<string>)
    requires !EsRutaPublica(pathname) && pathname != LOGOUT
    requires !Truthy(role)
    ensures Decide(pathname, role, true) == Redirect(LOGIN, Some(pathname))
  {
  }

  /**
   * In the professional area the profesional passes, a paciente goes to the
   * patient dashboard, and any other role string goes to the login page.
   */
  lemma ProfesionalArea(pathname: string, role: string)
    requires !EsRutaPublica(pathname) && pathname != LOGOUT && |role| > 0
    requires EsRutaProfesional(pathname)
    ensures Decide(pathname, Some(role), true)
            == if role == "profesional" then Next
               else if role == "paciente" then Redirect("/paciente/dashboard", None)
               else Redirect(LOGIN, None)
  {
    DashboardPaths();
  }

  /** The patient area, symmetrically. */
  lemma PacienteArea(pathname: string, role: string)
    requires !EsRutaPublica(pathname) && pathname != LOGOUT && |role| > 0
    requires EsRutaPaciente(pathname)
    ensures Decide(pathname, Some(role), true)
            == if role == "paciente" then Next
               else if role == "profesional" then Redirect("/profesional/dashboard", None)
               else Redirect(LOGIN, None)
  {
    assert "paciente" != "profesional" by {
      assert "paciente"[1] != "profesional"[1];
    }
    AreasExclusive(pathname);
    DashboardPaths();
    assert !EsRutaProfesional(pathname);
    assert Truthy(Some(role));
    if role == "paciente" {
      assert Decide(pathname, Some(role), true) == Next;
    } else {
      assert Decide(pathname, Some(role), true) == Redirect(WrongAreaTarget(role), None);
      if role == "profesional" {
        assert ParseRole(role) == Some(Profesional);
      } else {
        assert ParseRole(role) == None;
      }
    }
  }

  /** A non-public path outside both areas sends every role to the login page, without a return path. */
  lemma OutsideAreasToLogin(pathname: string, role: string)
    requires !EsRutaPublica(pathname) && pathname != LOGOUT && |role| > 0
    requires !EsRutaProfesional(pathname) && !EsRutaPaciente(pathname)
    ensures Decide(pathname, Some(role), true) == Redirect(LOGIN, None)
  {
  }

  /**
   * On a non-public path, a valid role is let through exactly when
   * `puedeAccederARuta` grants it: the gate and the guard agree there. (On
   * public paths they differ: the guard grants "/login", the gate redirects
   * a signed-in user to the dashboard.)
   */
  lemma GateAgreesWithGuard(pathname: string, role: string)
    requires !EsRutaPublica(pathname) && pathname != LOGOUT && IsValidRole(role)
    ensures Decide(pathname, Some(role), true) == Next <==> PuedeAccederARuta(Some(role), pathname)
  {
    AreasExclusive(pathname);
  }

  /** The login page passes everyone but a signed-in profesional or paciente, who go to their dashboards. */
  lemma LoginPage(role: Option<string>)
    ensures Decide(LOGIN, role, true)
            == if role == Some("profesional") then Redirect(RutaParaRol(Profesional), None)
               else if role == Some("paciente") then Redirect(RutaParaRol(Paciente), None)
               else Next
  {
    EsRutaPublicaIff(LOGIN);
    EnlacePublicoIff("login");
    assert LOGIN == "/" + "login";
    assert SLUGS_RESERVADOS[0] == "login";
    DashboardPaths();
  }

  /** A role's dashboard lets that role through. */
  lemma DashboardPasses(r: UserRole)
    ensures Decide(RutaParaRol(r), Some(RoleName(r)), true) == Next
  {
    RoleAreasDisjoint(RutaParaRol(r));
  }

  /**
   * Redirects settle: with the same role, the target of a redirect is let
   * through on the next request, except that a signed-in user sent to the
   * login page from a path outside both areas takes one more hop, to the
   * dashboard, which then passes.
   */
  lemma RedirectsSettle(pathname: string, role: Option<string>)
    requires Decide(pathname, role, true).Redirect?
    ensures var next := Decide(Decide(pathname, role, true).path, role, true);
            next == Next || (next.Redirect? && Decide(next.path, role, true) == Next)
    ensures role.Some? && !IsValidRole(role.value) ==> Decide(Decide(pathname, role, true).path, role, true) == Next
    ensures !EsRutaPublica(pathname) && (EsRutaProfesional(pathname) || EsRutaPaciente(pathname))
            ==> Decide(Decide(pathname, role, true).path, role, true) == Next
  {
    var target := Decide(pathname, role, true).path;
    LoginPage(role);
    DashboardPasses(Profesional);
    DashboardPasses(Paciente);
    if target != LOGIN {
      assert target == RutaParaRol(Profesional) || target == RutaParaRol(Paciente);
    }
  }
}

=== FILE: notifications.dfy ===
/**
 * The local read-state updates of `useNotificaciones`
 * (hooks/useNotificaciones.ts): marking one notification or all of them as
 * read once the database call has settled, and the unread count. Whether the
 * database call succeeded is a parameter; on failure the hook leaves its list
 * alone and asks for a reload.
 */
module Notificaciones {
  import opened Wrappers
  import Text

  /** `Notificacion`; nullable columns are `Option`s, `deleted_at` is whether it is set. */
  datatype Notificacion = Notificacion(
    id: string,
    userId: string,
    profesionalId: Option<string>,
    pacienteId: Option<string>,
    tipo: string,
    contenido: string,
    leida: bool,
    createdAt: string,
    deleted: bool)

  /** What a handler leaves behind: the list shown, and whether it called `refetch`. */
  datatype Efecto = Efecto(lista: seq<Notificacion>, refetch: bool)

  predicate Unread(n: Notificacion) {
    !n.leida
  }

  /** `noLeidas`: how many notifications of the list are unread. */
  function NoLeidas(ns: seq<Notificacion>): (k: nat)
    ensures k <= |ns|
  {
    Text.CountWhere(ns, Unread)
  }

  /** `prev.map((n) => (n.id === id ? { ...n, leida: true } : n))`. */
  function MarcarLocal(prev: seq<Notificacion>, id: string): (r: seq<Notificacion>)
    ensures |r| == |prev|
    ensures forall i :: 0 <= i < |r| ==> r[i].leida == (prev[i].leida || prev[i].id == id)
    ensures forall i :: 0 <= i < |r| ==> r[i].(leida := prev[i].leida) == prev[i]
  {
    seq(|prev|, i requires 0 <= i < |prev| => if prev[i].id == id then prev[i].(leida := true) else prev[i])
  }

  /** `prev.map((n) => ({ ...n, leida: true }))`. */
  function MarcarTodasLocal(prev: seq<Notificacion>): (r: seq<Notificacion>)
    ensures |r| == |prev|
    ensures forall i :: 0 <= i < |r| ==> r[i].leida && r[i].(leida := prev[i].leida) == prev[i]
  {
    seq(|prev|, i requires 0 <= i < |prev| => prev[i].(leida := true))
  }

  /**
   * `marcarLeida(id)`; `ok` says whether `marcarComoLeida` resolved. Only the
   * read flag of the notifications with that id can change, and only on
   * success; a failure reloads instead.
   */
  function MarcarLeida(prev: seq<Notificacion>, id: string, ok: bool): (e: Efecto)
    ensures e.refetch <==> !ok
    ensures |e.lista| == |prev|
    ensures forall i :: 0 <= i < |prev| ==> e.lista[i].leida == (prev[i].leida || (ok && prev[i].id == id))
    ensures forall i :: 0 <= i < |prev| ==> e.lista[i].(leida := prev[i].leida) == prev[i]
  {
    if ok then Efecto(MarcarLocal(prev, id), false) else Efecto(prev, true)
  }

  /**
   * `marcarTodasLeidas()`: without a user id nothing happens at all; otherwise
   * `ok` says whether `marcarTodasComoLeidas` resolved, and on success every
   * notification is read.
   */
  function MarcarTodasLeidas(prev: seq<Notificacion>, userId: Option<string>, ok: bool): (e: Efecto)
    ensures e.refetch <==> Text.Truthy(userId) && !ok
    ensures |e.lista| == |prev|
    ensures forall i :: 0 <= i < |prev| ==> e.lista[i].leida == (prev[i].leida || (Text.Truthy(userId) && ok))
    ensures forall i :: 0 <= i < |prev| ==> e.lista[i].(leida := prev[i].leida) == prev[i]
  {
    if !Text.Truthy(userId) then Efecto(prev, false)
    else if ok then Efecto(MarcarTodasLocal(prev), false)
    else Efecto(prev, true)
  }

  /** No unread notification is left exactly when every one is read. */
  lemma {:induction false} NoLeidasZeroIff(ns: seq<Notificacion>)
    ensures NoLeidas(ns) == 0 <==> forall i :: 0 <= i < |ns| ==> ns[i].leida
  {
    if |ns| > 0 {
      NoLeidasZeroIff(ns[1..]);
      assert forall i :: 1 <= i < |ns| ==> ns[i] == ns[1..][i - 1];
    }
  }

  /** After marking all, nothing is unread. */
  lemma MarcarTodasClears(prev: seq<Notificacion>)
    ensures NoLeidas(MarcarTodasLocal(prev)) == 0
  {
    NoLeidasZeroIff(MarcarTodasLocal(prev));
  }

  /**
   * Marking `id` read leaves unread exactly the notifications that were unread
   * and carry another id; in particular the count never grows.
   */
  lemma {:induction false} MarcarLocalUnread(prev: seq<Notificacion>, id: string)
    ensures NoLeidas(MarcarLocal(prev, id)) == Text.CountWhere(prev, (n: Notificacion) => !n.leida && n.id != id)
    ensures NoLeidas(MarcarLocal(prev, id)) <= NoLeidas(prev)
  {
    if |prev| > 0 {
      MarcarLocalUnread(prev[1..], id);
      assert MarcarLocal(prev, id)[1..] == MarcarLocal(prev[1..], id);
    }
  }

  /** Marking one or all is idempotent: doing it twice is doing it once. */
  lemma MarcarIdempotent(prev: seq<Notificacion>, id: string)
    ensures MarcarLocal(MarcarLocal(prev, id), id) == MarcarLocal(prev, id)
    ensures MarcarTodasLocal(MarcarTodasLocal(prev)) == MarcarTodasLocal(prev)
  {
  }

  /** Neither handler ever raises the unread count, whatever the database answers. */
  lemma NeverMoreUnread(prev: seq<Notificacion>, id: string, userId: Option<string>, ok: bool)
    ensures NoLeidas(MarcarLeida(prev, id, ok).lista) <= NoLeidas(prev)
    ensures NoLeidas(MarcarTodasLeidas(prev, userId, ok).lista) <= NoLeidas(prev)
  {
    MarcarLocalUnread(prev, id);
    MarcarTodasClears(prev);
  }
}

=== FILE: patient_appointments.dfy ===
/**
 * The patient's appointment list (`app/paciente/citas/page.tsx`): the
 * upcoming appointments, earliest first, and the rest, latest first. The
 * current instant is one parameter `now` (the source reads the clock once
 * per appointment and filter).
 */
module PacienteCitas {
  import opened AgendaTypes
  import Sorting

  /** An appointment still to come: scheduled and not started before `now`. */
  predicate EsFutura(now: int, c: Cita) {
    c.inicio >= now && c.estado == Programada
  }

  /** The complement the source writes out: started before `now`, or not scheduled. */
  predicate EsPasada(now: int, c: Cita) {
    c.inicio < now || c.estado != Programada
  }

  function Inicio(c: Cita): int {
    c.inicio
  }

  function InicioDesc(c: Cita): int {
    -c.inicio
  }

  /** `citasFuturas`. */
  function Futuras(citas: seq<Cita>, now: int): seq<Cita> {
    Sorting.SortBy(Sorting.Filter(citas, c => EsFutura(now, c)), Inicio)
  }

  /** `citasPasadas`. */
  function Pasadas(citas: seq<Cita>, now: int): seq<Cita> {
    Sorting.SortBy(Sorting.Filter(citas, c => EsPasada(now, c)), InicioDesc)
  }

  /**
   * The two lists partition the appointments: each appointment appears in
   * exactly one of them, as often as in the input.
   */
  lemma FuturasPasadasPartition(citas: seq<Cita>, now: int)
    ensures multiset(Futuras(citas, now)) + multiset(Pasadas(citas, now)) == multiset(citas)
    ensures |Futuras(citas, now)| + |Pasadas(citas, now)| == |citas|
  {
    Sorting.FilterPartition(citas, c => EsFutura(now, c), c => EsPasada(now, c));
    assert |multiset(Futuras(citas, now))| + |multiset(Pasadas(citas, now))| == |multiset(citas)|;
  }

  /**
   * The upcoming list holds exactly the scheduled appointments at or after
   * `now`; cancelled and completed ones go to the other list whatever their
   * date.
   */
  lemma FuturasMembers(citas: seq<Cita>, now: int, c: Cita)
    ensures c in Futuras(citas, now) <==> c in citas && c.estado == Programada && c.inicio >= now
    ensures c in citas && c.estado != Programada ==> c in Pasadas(citas, now) && c !in Futuras(citas, now)
  {
    Sorting.SortByMembers(Sorting.Filter(citas, c => EsFutura(now, c)), Inicio, c);
    Sorting.SortByMembers(Sorting.Filter(citas, c => EsPasada(now, c)), InicioDesc, c);
  }

  /** The upcoming list runs from the earliest start, the other list from the latest. */
  lemma FuturasPasadasOrder(citas: seq<Cita>, now: int)
    ensures forall i, j :: 0 <= i < j < |Futuras(citas, now)| ==> Futuras(citas, now)[i].inicio <= Futuras(citas, now)[j].inicio
    ensures forall i, j :: 0 <= i < j < |Pasadas(citas, now)| ==> Pasadas(citas, now)[i].inicio >= Pasadas(citas, now)[j].inicio
  {
    var f := Futuras(citas, now);
    var p := Pasadas(citas, now);
    assert Sorting.SortedBy(f, Inicio);
    assert Sorting.SortedBy(p, InicioDesc);
    forall i, j | 0 <= i < j < |p| ensures p[i].inicio >= p[j].inicio {
      assert InicioDesc(p[i]) <= InicioDesc(p[j]);
    }
    forall i, j | 0 <= i < j < |f| ensures f[i].inicio <= f[j].inicio {
      assert Inicio(f[i]) <= Inicio(f[j]);
    }
  }
}

=== FILE: roles.dfy ===
/**
 * User roles (`lib/auth/roles.ts`, `types/auth.ts`). A stored profile role is
 * an arbitrary string (the `profiles.role` column as read back); only the two
 * literals of `UserRole` are roles.
 */
module Roles {
  import opened Wrappers

  /** `UserRole`. */
  datatype UserRole = Profesional | Paciente

  function RoleName(r: UserRole): string {
    match r
    case Profesional => "profesional"
    case Paciente => "paciente"
  }

  /** `ROLES`: each key is mapped to the role string spelled the same way. */
  const ROLES: map<string, string> := map["profesional" := "profesional", "paciente" := "paciente"]

  /** The keys of `ROLES` are the role names, and each names itself. */
  lemma RolesIdentical()
    ensures ROLES.Keys == {RoleName(Profesional), RoleName(Paciente)}
    ensures forall k :: k in ROLES ==> ROLES[k] == k
  {
  }

  /** `isValidRole`. */
  predicate IsValidRole(value: string) {
    value == ROLES["profesional"] || value == ROLES["paciente"]
  }

  /** The `UserRole` a valid role string names; `None` for any other string. */
  function ParseRole(value: string): (r: Option<UserRole>)
    ensures r.Some? <==> IsValidRole(value)
    ensures r.Some? ==> RoleName(r.value) == value
  {
    if value == "profesional" then Some(Profesional)
    else if value == "paciente" then Some(Paciente)
    else None
  }

  /** Role names are valid and read back as the role they name. */
  lemma RoleNameRoundTrip(r: UserRole)
    ensures IsValidRole(RoleName(r))
    ensures ParseRole(RoleName(r)) == Some(r)
  {
  }

  /** `isProfesional`; `None` is `null`. */
  predicate IsProfesional(role: Option<string>) {
    role == Some(ROLES["profesional"])
  }

  /** `isPaciente`. */
  predicate IsPaciente(role: Option<string>) {
    role == Some(ROLES["paciente"])
  }

  /**
   * A string is a valid role exactly when it is "profesional" or
   * "paciente"; the two role tests never both hold, both fail on `null`, and
   * each implies a valid role.
   */
  lemma RoleTests(role: Option<string>, value: string)
    ensures IsValidRole(value) <==> value == "profesional" || value == "paciente"
    ensures !(IsProfesional(role) && IsPaciente(role))
    ensures role.None? ==> !IsProfesional(role) && !IsPaciente(role)
    ensures IsProfesional(role) || IsPaciente(role) ==> role.Some? && IsValidRole(role.value)
    ensures role.Some? && IsValidRole(role.value) ==> IsProfesional(role) || IsPaciente(role)
  {
  }
}

=== FILE: slot_scenarios.dfy ===
/**
 * Worked days of the free-slot engine: one Monday rule from 09:00 to 12:00 in
 * 30-minute slots, with nothing occupied, with an appointment at 10:00 and
 * with a blackout from 09:00 to 09:45. `dayStart` is the day's first instant
 * in the professional's zone.
 */
module SlotScenarios {
  import opened Wrappers
  import opened Text
  import opened Dates
  import opened AgendaTypes
  import opened Slots
  import Sorting

  /** Monday from 09:00 to 12:00 in 30-minute slots. */
  function MorningRule(profesionalId: string): Disponibilidad {
    Disponibilidad(profesionalId, 0, "09:00", "12:00", 30, false)
  }

  /** The 30-minute slot that starts `minute` minutes into the day. */
  function HalfHour(dayStart: int, minute: int): TimeSlot {
    TimeSlot(dayStart + minute * MS_PER_MINUTE, dayStart + (minute + 30) * MS_PER_MINUTE)
  }

  /** The morning rule reads as minutes 540 to 720. */
  lemma MorningTimes(p: string)
    ensures TimeToMinutes(MorningRule(p).horaInicio) == Some(540)
    ensures TimeToMinutes(MorningRule(p).horaFin) == Some(720)
    ensures RuleWalkEnds(MorningRule(p))
  {
    ClockReads(9, "09:00");
    ClockReads(12, "12:00");
  }

  /** The clock reading of hour `h` sharp is `60 h` minutes. */
  lemma ClockReads(h: int, clock: string)
    requires 0 <= h <= 99 && clock == TwoDigits(h) + ":" + TwoDigits(0)
    ensures TimeToMinutes(clock) == Some(60 * h)
  {
    TimeToMinutesOfClock(h, 0, []);
    assert clock + [] == clock;
  }

  /** The morning rule walks in six steps. */
  lemma MorningWalk(p: string, dayStart: int)
    ensures TimeToMinutes(MorningRule(p).horaInicio) == Some(540)
    ensures TimeToMinutes(MorningRule(p).horaFin) == Some(720)
    ensures RuleWalkEnds(MorningRule(p))
    ensures Candidates([MorningRule(p)], dayStart) == MorningSlots(dayStart)
  {
    MorningTimes(p);
    var w := Walk(dayStart, 540, 720, 30);
    assert Candidates([MorningRule(p)], dayStart) == w + [];
    MorningSteps(dayStart);
  }

  lemma MorningSteps(dayStart: int)
    ensures Walk(dayStart, 540, 720, 30) == MorningSlots(dayStart)
  {
    var w := Walk(dayStart, 540, 720, 30);
    WalkLength(dayStart, 540, 720, 30);
    assert StepFits(540, 30, 720, 5);
    assert !StepFits(540, 30, 720, 6);
    assert |w| == 6;
    assert w == [w[0], w[1], w[2], w[3], w[4], w[5]];
  }

  /** Half-hour slots at ascending minutes. */
  predicate AscendingMinutes(mins: seq<int>) {
    |mins| <= 1 || (mins[0] < mins[1] && AscendingMinutes(mins[1..]))
  }

  /** Ascending minutes: each is below its right-hand neighbour. */
  lemma {:induction false} AscendingNeighbours(mins: seq<int>)
    requires AscendingMinutes(mins)
    ensures forall i :: 0 <= i < |mins| - 1 ==> mins[i] < mins[i + 1]
  {
    if |mins| > 1 {
      AscendingNeighbours(mins[1..]);
      assert forall i :: 1 <= i < |mins| ==> mins[i] == mins[1..][i - 1];
    }
  }

  function HalfHours(dayStart: int, mins: seq<int>): (r: seq<TimeSlot>)
    ensures |r| == |mins| && forall i :: 0 <= i < |mins| ==> r[i] == HalfHour(dayStart, mins[i])
  {
    if |mins| == 0 then [] else [HalfHour(dayStart, mins[0])] + HalfHours(dayStart, mins[1..])
  }

  /** Half-hour slots at ascending minutes are sorted by start. */
  lemma HalfHoursSorted(dayStart: int, mins: seq<int>)
    requires AscendingMinutes(mins)
    ensures Sorting.SortedBy(HalfHours(dayStart, mins), StartOf)
  {
    var r := HalfHours(dayStart, mins);
    AscendingNeighbours(mins);
    forall i | 0 <= i < |r| - 1 ensures r[i].inicio < r[i + 1].inicio {
      assert mins[i] < mins[i + 1];
    }
    AscendingSorted(r);
  }

  /** Slots whose starts ascend strictly are sorted already. */
  lemma AscendingSorted(r: seq<TimeSlot>)
    requires forall i :: 0 <= i < |r| - 1 ==> r[i].inicio < r[i + 1].inicio
    ensures Sorting.SortedBy(r, StartOf)
  {
    forall i, j | 0 <= i < j < |r| ensures StartOf(r[i]) <= StartOf(r[j]) {
      AscendingChain(r, i, j);
    }
  }

  lemma {:induction false} AscendingChain(r: seq<TimeSlot>, i: int, j: int)
    requires forall i :: 0 <= i < |r| - 1 ==> r[i].inicio < r[i + 1].inicio
    requires 0 <= i < j < |r|
    ensures r[i].inicio < r[j].inicio
    decreases j - i
  {
    if i + 1 < j {
      AscendingChain(r, i + 1, j);
    }
  }

  /** The six half-hour slots 09:00 … 11:30. */
  function MorningSlots(dayStart: int): seq<TimeSlot> {
    HalfHours(dayStart, [540, 570, 600, 630, 660, 690])
  }

  /** Whatever the morning's free candidates are, in order, is what the engine returns. */
  lemma MorningPlan(p: string, dayStart: int, ocupados: seq<Interval>, expected: seq<TimeSlot>)
    requires FreeSlots(MorningSlots(dayStart), ocupados) == expected
    requires Sorting.SortedBy(expected, StartOf)
    ensures AllWalksEnd([MorningRule(p)])
    ensures ComputeSlots([MorningRule(p)], ocupados, dayStart) == expected
  {
    MorningWalk(p, dayStart);
    ComputeSlotsInOrder([MorningRule(p)], ocupados, dayStart, expected);
  }

  /** Nothing occupied: the six slots 09:00 … 11:30, in order, with no partial slot after 11:30. */
  lemma ScenarioFreeMorning(p: string, dayStart: int)
    ensures AllWalksEnd([MorningRule(p)])
    ensures ComputeSlots([MorningRule(p)], [], dayStart) == MorningSlots(dayStart)
  {
    NothingOccupied(dayStart);
    HalfHoursSorted(dayStart, [540, 570, 600, 630, 660, 690]);
    MorningPlan(p, dayStart, [], MorningSlots(dayStart));
  }

  lemma NothingOccupied(dayStart: int)
    ensures FreeSlots(MorningSlots(dayStart), []) == MorningSlots(dayStart)
  {
    FreeSlotsAllFree(MorningSlots(dayStart), []);
  }

  /** An appointment 10:00–10:30, as the occupied interval the engine reads. */
  function TenOClock(dayStart: int): seq<Interval> {
    [Interval(dayStart + 600 * MS_PER_MINUTE, dayStart + 630 * MS_PER_MINUTE)]
  }

  /** A programada appointment 10:00–10:30 takes out the 10:00 slot and nothing else. */
  lemma ScenarioAppointmentAtTen(p: string, dayStart: int)
    ensures AllWalksEnd([MorningRule(p)])
    ensures ComputeSlots([MorningRule(p)], TenOClock(dayStart), dayStart)
            == HalfHours(dayStart, [540, 570, 630, 660, 690])
  {
    TenOClockFree(dayStart);
    HalfHoursSorted(dayStart, [540, 570, 630, 660, 690]);
    MorningPlan(p, dayStart, TenOClock(dayStart), HalfHours(dayStart, [540, 570, 630, 660, 690]));
  }

  lemma TenOClockFree(dayStart: int)
    ensures FreeSlots(MorningSlots(dayStart), TenOClock(dayStart)) == HalfHours(dayStart, [540, 570, 630, 660, 690])
  {
    var occ := TenOClock(dayStart);
    var before := HalfHours(dayStart, [540, 570]);
    var at := HalfHours(dayStart, [600]);
    var after := HalfHours(dayStart, [630, 660, 690]);
    assert MorningSlots(dayStart) == before + at + after;
    FreeSlotsAppend(before + at, after, occ);
    FreeSlotsAppend(before, at, occ);
    assert ThreeCaseOverlap(at[0], occ[0]);
    FreeSlotsAllTaken(at, occ);
    assert forall i :: 0 <= i < |before| ==> !ThreeCaseOverlap(before[i], occ[0]);
    FreeSlotsAllFree(before, occ);
    assert forall i :: 0 <= i < |after| ==> !ThreeCaseOverlap(after[i], occ[0]);
    FreeSlotsAllFree(after, occ);
    assert before + after == HalfHours(dayStart, [540, 570, 630, 660, 690]);
  }

  /** A blackout 09:00–09:45, as the occupied interval the engine reads. */
  function MorningBlackout(dayStart: int): seq<Interval> {
    [Interval(dayStart + 540 * MS_PER_MINUTE, dayStart + 585 * MS_PER_MINUTE)]
  }

  /** A blackout 09:00–09:45 takes out 09:00 and 09:30, leaving four slots from 10:00. */
  lemma ScenarioBlackoutMorning(p: string, dayStart: int)
    ensures AllWalksEnd([MorningRule(p)])
    ensures ComputeSlots([MorningRule(p)], MorningBlackout(dayStart), dayStart)
            == HalfHours(dayStart, [600, 630, 660, 690])
  {
    BlackoutFree(dayStart);
    HalfHoursSorted(dayStart, [600, 630, 660, 690]);
    MorningPlan(p, dayStart, MorningBlackout(dayStart), HalfHours(dayStart, [600, 630, 660, 690]));
  }

  lemma BlackoutFree(dayStart: int)
    ensures FreeSlots(MorningSlots(dayStart), MorningBlackout(dayStart)) == HalfHours(dayStart, [600, 630, 660, 690])
  {
    var occ := MorningBlackout(dayStart);
    var taken := HalfHours(dayStart, [540, 570]);
    var free := HalfHours(dayStart, [600, 630, 660, 690]);
    assert MorningSlots(dayStart) == taken + free;
    FreeSlotsAppend(taken, free, occ);
    assert forall i :: 0 <= i < |taken| ==> ThreeCaseOverlap(taken[i], occ[0]);
    FreeSlotsAllTaken(taken, occ);
    assert forall i :: 0 <= i < |free| ==> !ThreeCaseOverlap(free[i], occ[0]);
    FreeSlotsAllFree(free, occ);
  }
}

=== FILE: slots.dfy ===
/**
 * The free-slot engine `getSlotsDisponibles` (`lib/agenda/slots.ts`).
 *
 * For one professional and one calendar date, the engine computes the day's
 * bounds in the professional's zone, picks the live weekly rules of the
 * weekday found at the day's start plus 12 h, walks every rule in steps of
 * its duration from its start time, drops each candidate that overlaps an
 * occupied interval (a live blackout, or an appointment that is programada or
 * completada and touches the day), and returns the survivors sorted by start.
 *
 * The three database reads become filters over a `Store` of rows; the
 * ISO-string round trips of the source are the identity on millisecond
 * instants.
 */
module Slots {
  import opened Wrappers
  import opened Text
  import opened Dates
  import opened AgendaTypes
  import Sorting

  // ---------------------------------------------------------------------------
  // Rule times

  /** `s.split(":")[0]`: `s` up to its first colon. */
  function BeforeColon(s: string): string {
    if |s| == 0 || s[0] == ':' then [] else [s[0]] + BeforeColon(s[1..])
  }

  /** What follows the first colon of `s`; `None` when there is none, so that `split(":")[1]` is undefined. */
  function AfterColon(s: string): Option<string> {
    if |s| == 0 then None
    else if s[0] == ':' then Some(s[1..])
    else AfterColon(s[1..])
  }

  /**
   * Splitting at the first colon: the head holds no colon, there is a rest
   * exactly when `s` has a colon, and head, colon and rest put back together
   * give `s`.
   */
  lemma {:induction false} SplitAtColon(s: string)
    ensures BeforeColon(s) <= s && ':' !in BeforeColon(s)
    ensures AfterColon(s).None? <==> ':' !in s
    ensures AfterColon(s).Some? ==> s == BeforeColon(s) + ":" + AfterColon(s).value
  {
    if |s| > 0 && s[0] != ':' {
      SplitAtColon(s[1..]);
      assert s == [s[0]] + s[1..];
    } else if |s| > 0 {
      assert s == ":" + s[1..];
    }
  }

  /**
   * `timeToMinutes`: hours times 60 plus minutes, read with `parseInt` from
   * the first two colon-separated fields; a missing minutes field reads as
   * "0", and `None` stands for the NaN that an unreadable field produces.
   */
  function TimeToMinutes(s: string): Option<int> {
    var h := ParseInt(BeforeColon(s));
    var m := ParseInt(MinutesField(s));
    if h.None? || m.None? then None else Some(h.value * 60 + m.value)
  }

  /** `s.split(":")[1] ?? "0"`. */
  function MinutesField(s: string): string {
    match AfterColon(s)
    case None => "0"
    case Some(rest) => BeforeColon(rest)
  }

  /** The head of `a + b` is `a` when `a` holds no colon and `b` is empty or starts with one. */
  lemma {:induction false} BeforeColonPrefix(a: string, b: string)
    requires ':' !in a
    requires |b| == 0 || b[0] == ':'
    ensures BeforeColon(a + b) == a
  {
    if |a| > 0 {
      assert (a + b)[1..] == a[1..] + b;
      BeforeColonPrefix(a[1..], b);
    } else {
      assert a + b == b;
    }
  }

  /** The rest of `a + ":" + b` is `b` when `a` holds no colon. */
  lemma {:induction false} AfterColonPrefix(a: string, b: string)
    requires ':' !in a
    ensures AfterColon(a + ":" + b) == Some(b)
  {
    if |a| > 0 {
      assert (a + ":" + b)[1..] == a[1..] + ":" + b;
      AfterColonPrefix(a[1..], b);
    } else {
      assert a + ":" + b == ":" + b;
    }
  }

  /**
   * "HH:mm" and "HH:mm:ss" read as 60·HH + mm; whatever follows the minutes
   * after a second colon, seconds included, is ignored.
   */
  lemma TimeToMinutesOfClock(h: int, m: int, tail: string)
    requires 0 <= h <= 99 && 0 <= m <= 99
    requires |tail| == 0 || tail[0] == ':'
    ensures TimeToMinutes(TwoDigits(h) + ":" + TwoDigits(m) + tail) == Some(60 * h + m)
  {
    var hh := TwoDigits(h);
    var mm := TwoDigits(m);
    var rest := ":" + mm + tail;
    var s := hh + ":" + mm + tail;
    assert s == hh + rest;
    assert BeforeColon(s) == hh by {
      BeforeColonPrefix(hh, rest);
    }
    assert MinutesField(s) == mm by {
      AfterColonPrefix(hh, mm + tail);
      assert s == hh + ":" + (mm + tail);
      BeforeColonPrefix(mm, tail);
    }
    assert ParseInt(hh) == Some(h) by {
      ParseTwoDigits(h, []);
      assert hh + [] == hh;
    }
    assert ParseInt(mm) == Some(m) by {
      ParseTwoDigits(m, []);
      assert mm + [] == mm;
    }
    TimeToMinutesOfFields(s, h, m);
  }

  lemma TimeToMinutesOfFields(s: string, h: int, m: int)
    requires ParseInt(BeforeColon(s)) == Some(h) && ParseInt(MinutesField(s)) == Some(m)
    ensures TimeToMinutes(s) == Some(60 * h + m)
  {
  }

  /** The seconds field of "HH:mm:ss" does not count. */
  lemma SecondsIgnored(h: int, m: int, sec: int)
    requires 0 <= h <= 99 && 0 <= m <= 99 && 0 <= sec <= 99
    ensures TimeToMinutes(TwoDigits(h) + ":" + TwoDigits(m) + ":" + TwoDigits(sec))
         == TimeToMinutes(TwoDigits(h) + ":" + TwoDigits(m))
         == Some(60 * h + m)
  {
    TimeToMinutesOfClock(h, m, ":" + TwoDigits(sec));
    assert TwoDigits(h) + ":" + TwoDigits(m) + ":" + TwoDigits(sec)
        == TwoDigits(h) + ":" + TwoDigits(m) + (":" + TwoDigits(sec));
    TimeToMinutesOfClock(h, m, []);
    assert TwoDigits(h) + ":" + TwoDigits(m) + [] == TwoDigits(h) + ":" + TwoDigits(m);
  }

  // ---------------------------------------------------------------------------
  // The walk over one rule

  /** The slot that starts `k` durations after minute `a` of the day that starts at `dayStart`. */
  function SlotAtStep(dayStart: int, a: int, dur: int, k: int): (s: TimeSlot)
    ensures s.fin - s.inicio == dur * MS_PER_MINUTE
  {
    var inicio := dayStart + (a + k * dur) * MS_PER_MINUTE;
    TimeSlot(inicio, AddMinutes(inicio, dur))
  }

  /** The loop condition `m + duracion <= finMin` fails at some point. */
  predicate WalkEnds(m: int, fin: int, dur: int) {
    dur > 0 || m + dur > fin
  }

  /** Step `k` of a walk from minute `m` ends by minute `fin`: the loop test `m + duracion <= finMin` at that step. */
  predicate StepFits(m: int, dur: int, fin: int, k: int) {
    m + (k + 1) * dur <= fin
  }

  /** The inner loop over minutes `m`, `m + dur`, …: its k-th element is the k-th step. */
  function Walk(dayStart: int, m: int, fin: int, dur: int): (r: seq<TimeSlot>)
    requires WalkEnds(m, fin, dur)
    ensures forall k :: 0 <= k < |r| ==> r[k] == SlotAtStep(dayStart, m, dur, k)
    decreases fin - m
  {
    if m + dur > fin then []
    else
      var tail := Walk(dayStart, m + dur, fin, dur);
      var r := [SlotAtStep(dayStart, m, dur, 0)] + tail;
      assert forall k :: 1 <= k < |r| ==> r[k] == SlotAtStep(dayStart, m, dur, k) by {
        forall k | 1 <= k < |r| ensures r[k] == SlotAtStep(dayStart, m, dur, k) {
          assert r[k] == tail[k - 1];
          StepShift(m, dur, k);
        }
      }
      r
  }

  /** With a positive duration, later steps start later. */
  lemma StepsAscend(m: int, dur: int, i: int, j: int)
    requires 0 <= i < j && dur > 0
    ensures m + i * dur < m + j * dur
  {
    MulNonNegative(j - i - 1, dur);
    assert (j - i) * dur == (j - i - 1) * dur + dur;
  }

  /** The walk of a positive duration is in strictly ascending order of start. */
  lemma WalkAscending(dayStart: int, m: int, fin: int, dur: int)
    requires dur > 0
    ensures forall i, j :: 0 <= i < j < |Walk(dayStart, m, fin, dur)| ==>
              StartOf(Walk(dayStart, m, fin, dur)[i]) < StartOf(Walk(dayStart, m, fin, dur)[j])
  {
    var w := Walk(dayStart, m, fin, dur);
    forall i, j | 0 <= i < j < |w| ensures StartOf(w[i]) < StartOf(w[j]) {
      StepsAscend(m, dur, i, j);
    }
  }

  /** Stepping from `m + dur` is stepping from `m` one step later. */
  lemma StepShift(m: int, dur: int, k: int)
    ensures m + dur + (k - 1) * dur == m + k * dur
  {
  }

  /**
   * The walk has a step exactly for every k whose slot ends by minute `fin`
   * (no partial trailing slot); a non-positive duration gives no step.
   */
  lemma {:induction false} WalkLength(dayStart: int, m: int, fin: int, dur: int)
    requires WalkEnds(m, fin, dur)
    ensures forall k :: 0 <= k ==> (k < |Walk(dayStart, m, fin, dur)| <==> dur > 0 && StepFits(m, dur, fin, k))
    decreases fin - m
  {
    if m + dur <= fin {
      WalkLength(dayStart, m + dur, fin, dur);
      forall k | 1 <= k
        ensures StepFits(m, dur, fin, k) <==> StepFits(m + dur, dur, fin, k - 1)
      {
        StepShift(m, dur, k + 1);
      }
    } else if dur > 0 {
      forall k | 0 <= k ensures !StepFits(m, dur, fin, k) {
        assert k * dur >= 0;
      }
    }
  }

  /** Whether a rule's walk ends: always when its duration is positive, and trivially when a time is NaN. */
  predicate RuleWalkEnds(r: Disponibilidad) {
    var a := TimeToMinutes(r.horaInicio);
    var b := TimeToMinutes(r.horaFin);
    a.None? || b.None? || WalkEnds(a.value, b.value, r.duracionCitaMin)
  }

  /** The candidates of one rule: the walk from `hora_inicio` to `hora_fin`; a NaN time makes the loop test false at once. */
  function RuleSlots(r: Disponibilidad, dayStart: int): seq<TimeSlot>
    requires RuleWalkEnds(r)
  {
    var a := TimeToMinutes(r.horaInicio);
    var b := TimeToMinutes(r.horaFin);
    if a.None? || b.None? then [] else Walk(dayStart, a.value, b.value, r.duracionCitaMin)
  }

  /**
   * `s` is the k-th step of rule `r` on the day starting at `dayStart`, for
   * some k ≥ 0, and ends by the rule's end.
   */
  ghost predicate GeneratedBy(s: TimeSlot, r: Disponibilidad, dayStart: int) {
    var a := TimeToMinutes(r.horaInicio);
    var b := TimeToMinutes(r.horaFin);
    && a.Some? && b.Some? && r.duracionCitaMin > 0
    && exists k :: 0 <= k && StepFits(a.value, r.duracionCitaMin, b.value, k)
                  && s == SlotAtStep(dayStart, a.value, r.duracionCitaMin, k)
  }

  /**
   * A generated slot lasts exactly the rule's duration, which is positive, and
   * lies between the rule's start and end minutes of the day.
   */
  lemma GeneratedFacts(s: TimeSlot, r: Disponibilidad, dayStart: int)
    requires GeneratedBy(s, r, dayStart)
    ensures r.duracionCitaMin > 0 && s.fin - s.inicio == r.duracionCitaMin * MS_PER_MINUTE
    ensures dayStart + TimeToMinutes(r.horaInicio).value * MS_PER_MINUTE <= s.inicio
    ensures s.fin <= dayStart + TimeToMinutes(r.horaFin).value * MS_PER_MINUTE
  {
    var a := TimeToMinutes(r.horaInicio).value;
    var b := TimeToMinutes(r.horaFin).value;
    var d := r.duracionCitaMin;
    var k :| 0 <= k && StepFits(a, d, b, k) && s == SlotAtStep(dayStart, a, d, k);
    var first := a + k * d;
    var last := a + (k + 1) * d;
    assert a <= first by { MulNonNegative(k, d); }
    assert last == first + d;
    assert s.inicio == dayStart + first * MS_PER_MINUTE;
    assert s.fin == dayStart + last * MS_PER_MINUTE;
    assert (first - a) * MS_PER_MINUTE >= 0;
    assert (b - last) * MS_PER_MINUTE >= 0;
  }

  lemma MulNonNegative(x: int, y: int)
    requires 0 <= x && 0 <= y
    ensures 0 <= x * y
  {
  }

  /** A rule's candidates are exactly its steps that end by its end. */
  lemma RuleSlotsExact(r: Disponibilidad, dayStart: int, s: TimeSlot)
    requires RuleWalkEnds(r)
    ensures s in RuleSlots(r, dayStart) <==> GeneratedBy(s, r, dayStart)
  {
    var a := TimeToMinutes(r.horaInicio);
    var b := TimeToMinutes(r.horaFin);
    if a.Some? && b.Some? {
      var w := RuleSlots(r, dayStart);
      WalkLength(dayStart, a.value, b.value, r.duracionCitaMin);
      if s in w {
        var k :| 0 <= k < |w| && w[k] == s;
        assert StepFits(a.value, r.duracionCitaMin, b.value, k);
      }
      if GeneratedBy(s, r, dayStart) {
        var k :| 0 <= k && StepFits(a.value, r.duracionCitaMin, b.value, k)
                 && s == SlotAtStep(dayStart, a.value, r.duracionCitaMin, k);
        assert w[k] == s;
      }
    }
  }

  /** A rule whose window is shorter than one duration (an inverted rule among them) yields no slot. */
  lemma ShortWindowNoSlots(r: Disponibilidad, dayStart: int)
    requires RuleWalkEnds(r)
    requires TimeToMinutes(r.horaInicio).Some? && TimeToMinutes(r.horaFin).Some?
    requires TimeToMinutes(r.horaFin).value - TimeToMinutes(r.horaInicio).value < r.duracionCitaMin
    ensures RuleSlots(r, dayStart) == []
  {
  }

  // ---------------------------------------------------------------------------
  // Candidates of all rules, the overlap test and the filter

  predicate AllWalksEnd(rules: seq<Disponibilidad>) {
    forall i :: 0 <= i < |rules| ==> RuleWalkEnds(rules[i])
  }

  /** The outer loop: every rule's candidates, rule after rule. */
  function Candidates(rules: seq<Disponibilidad>, dayStart: int): seq<TimeSlot>
    requires AllWalksEnd(rules)
  {
    if |rules| == 0 then [] else RuleSlots(rules[0], dayStart) + Candidates(rules[1..], dayStart)
  }

  /** A candidate of the day is a candidate of one of the rules. */
  lemma {:induction false} CandidatesMembers(rules: seq<Disponibilidad>, dayStart: int, s: TimeSlot)
    requires AllWalksEnd(rules)
    ensures s in Candidates(rules, dayStart) <==> exists j :: 0 <= j < |rules| && s in RuleSlots(rules[j], dayStart)
  {
    if |rules| > 0 {
      CandidatesMembers(rules[1..], dayStart, s);
      if exists j :: 0 <= j < |rules| && s in RuleSlots(rules[j], dayStart) {
        var j :| 0 <= j < |rules| && s in RuleSlots(rules[j], dayStart);
        if j > 0 {
          assert rules[1..][j - 1] == rules[j];
        }
      }
      if s in Candidates(rules[1..], dayStart) {
        var j :| 0 <= j < |rules[1..]| && s in RuleSlots(rules[1..][j], dayStart);
        assert rules[1..][j] == rules[j + 1];
      }
    }
  }

  /** An occupied interval: a blackout or an appointment, as instants. */
  datatype Interval = Interval(inicio: int, fin: int)

  /**
   * The source's overlap test, three cases: the slot starts inside the
   * interval, ends inside it, or covers it.
   */
  predicate ThreeCaseOverlap(s: TimeSlot, o: Interval) {
    || (s.inicio >= o.inicio && s.inicio < o.fin)
    || (s.fin > o.inicio && s.fin <= o.fin)
    || (s.inicio <= o.inicio && s.fin >= o.fin)
  }

  /**
   * For a non-empty slot and a non-empty interval the three cases are the
   * half-open overlap `[inicio, fin)`; a slot that only touches the interval
   * at either end is not excluded.
   */
  lemma ThreeCaseIsHalfOpenOverlap(s: TimeSlot, o: Interval)
    requires s.inicio < s.fin && o.inicio < o.fin
    ensures ThreeCaseOverlap(s, o) <==> s.inicio < o.fin && s.fin > o.inicio
    ensures s.fin == o.inicio || s.inicio == o.fin ==> !ThreeCaseOverlap(s, o)
  {
  }

  /** An empty interval lying on a slot's end excludes the slot, unlike the half-open test. */
  lemma EmptyIntervalAtEdge(s: TimeSlot, t: int)
    requires s.inicio < s.fin && (t == s.inicio || t == s.fin)
    ensures ThreeCaseOverlap(s, Interval(t, t))
    ensures !(s.inicio < t && s.fin > t)
  {
  }

  /** `ocupados.some(...)`. */
  predicate Solapado(s: TimeSlot, ocupados: seq<Interval>) {
    exists i :: 0 <= i < |ocupados| && ThreeCaseOverlap(s, ocupados[i])
  }

  /** The candidates that overlap no occupied interval, every copy of each kept, in order. */
  function FreeSlots(cands: seq<TimeSlot>, ocupados: seq<Interval>): (r: seq<TimeSlot>)
    ensures forall s {:trigger multiset(r)[s]} :: multiset(r)[s] == if Solapado(s, ocupados) then 0 else multiset(cands)[s]
  {
    if |cands| == 0 then []
    else
      assert cands == [cands[0]] + cands[1..];
      var rest := FreeSlots(cands[1..], ocupados);
      if Solapado(cands[0], ocupados) then rest else [cands[0]] + rest
  }

  /** Filtering distributes over concatenation. */
  lemma {:induction false} FreeSlotsAppend(a: seq<TimeSlot>, b: seq<TimeSlot>, ocupados: seq<Interval>)
    ensures FreeSlots(a + b, ocupados) == FreeSlots(a, ocupados) + FreeSlots(b, ocupados)
  {
    if |a| > 0 {
      assert (a + b)[1..] == a[1..] + b;
      FreeSlotsAppend(a[1..], b, ocupados);
    } else {
      assert a + b == b;
    }
  }

  /** Candidates that overlap nothing all survive, in order. */
  lemma {:induction false} FreeSlotsAllFree(cands: seq<TimeSlot>, ocupados: seq<Interval>)
    requires forall i :: 0 <= i < |cands| ==> !Solapado(cands[i], ocupados)
    ensures FreeSlots(cands, ocupados) == cands
  {
    if |cands| > 0 {
      FreeSlotsAllFree(cands[1..], ocupados);
      assert cands == [cands[0]] + cands[1..];
    }
  }

  /** Candidates that all overlap something all go. */
  lemma {:induction false} FreeSlotsAllTaken(cands: seq<TimeSlot>, ocupados: seq<Interval>)
    requires forall i :: 0 <= i < |cands| ==> Solapado(cands[i], ocupados)
    ensures FreeSlots(cands, ocupados) == []
  {
    if |cands| > 0 {
      FreeSlotsAllTaken(cands[1..], ocupados);
    }
  }

  function StartOf(s: TimeSlot): int {
    s.inicio
  }

  /**
   * The engine after its reads: no rule, no slot; otherwise the free
   * candidates, every copy kept, sorted ascending by start.
   */
  function ComputeSlots(rules: seq<Disponibilidad>, ocupados: seq<Interval>, dayStart: int): (r: seq<TimeSlot>)
    requires AllWalksEnd(rules)
    ensures Sorting.SortedBy(r, StartOf)
    ensures forall s {:trigger multiset(r)[s]} :: multiset(r)[s] == if Solapado(s, ocupados) then 0 else multiset(Candidates(rules, dayStart))[s]
  {
    if |rules| == 0 then [] else Sorting.SortBy(FreeSlots(Candidates(rules, dayStart), ocupados), StartOf)
  }

  /** When the free candidates are in order already, they are the result as they stand. */
  lemma ComputeSlotsInOrder(rules: seq<Disponibilidad>, ocupados: seq<Interval>, dayStart: int, expected: seq<TimeSlot>)
    requires AllWalksEnd(rules) && |rules| > 0
    requires FreeSlots(Candidates(rules, dayStart), ocupados) == expected
    requires Sorting.SortedBy(expected, StartOf)
    ensures ComputeSlots(rules, ocupados, dayStart) == expected
  {
    Sorting.SortBySortedIdentity(expected, StartOf);
  }

  // ---------------------------------------------------------------------------
  // The reads

  /** Rows of the three tables the engine reads. */
  datatype Store = Store(disponibilidad: seq<Disponibilidad>, bloqueos: seq<BloqueoAgenda>, citas: seq<Cita>)

  predicate RuleSelected(r: Disponibilidad, profesionalId: string, dia: int) {
    r.profesionalId == profesionalId && r.diaSemana == dia && !r.deleted
  }

  /** The `disponibilidad` read: the professional's live rules of weekday `dia`. */
  function LiveRules(rows: seq<Disponibilidad>, profesionalId: string, dia: int): (r: seq<Disponibilidad>)
    ensures forall x :: x in r <==> x in rows && RuleSelected(x, profesionalId, dia)
  {
    if |rows| == 0 then []
    else
      var rest := LiveRules(rows[1..], profesionalId, dia);
      assert forall x :: x in rows <==> x == rows[0] || x in rows[1..];
      if RuleSelected(rows[0], profesionalId, dia) then [rows[0]] + rest else rest
  }

  /** A live blackout of the professional that overlaps the day: `fecha_fin > dayStart` and `fecha_inicio < dayEnd`. */
  predicate BlockOccupies(b: BloqueoAgenda, profesionalId: string, dayStart: int, dayEnd: int) {
    b.profesionalId == profesionalId && !b.deleted && b.fechaFin > dayStart && b.fechaInicio < dayEnd
  }

  /** An appointment of the professional, programada or completada, not deleted, that overlaps the day. */
  predicate CitaOccupies(c: Cita, profesionalId: string, dayStart: int, dayEnd: int) {
    && c.profesionalId == profesionalId && !c.deleted
    && (c.estado == Programada || c.estado == Completada)
    && c.fin > dayStart && c.inicio < dayEnd
  }

  /** The `bloqueos_agenda` read, as intervals. */
  function BlockIntervals(rows: seq<BloqueoAgenda>, profesionalId: string, dayStart: int, dayEnd: int): (r: seq<Interval>)
    ensures forall o :: o in r <==> exists b :: b in rows && BlockOccupies(b, profesionalId, dayStart, dayEnd)
                                                && o == Interval(b.fechaInicio, b.fechaFin)
  {
    if |rows| == 0 then []
    else
      var rest := BlockIntervals(rows[1..], profesionalId, dayStart, dayEnd);
      assert forall x :: x in rows <==> x == rows[0] || x in rows[1..];
      if BlockOccupies(rows[0], profesionalId, dayStart, dayEnd)
      then [Interval(rows[0].fechaInicio, rows[0].fechaFin)] + rest
      else rest
  }

  /** The `citas` read, as intervals. */
  function CitaIntervals(rows: seq<Cita>, profesionalId: string, dayStart: int, dayEnd: int): (r: seq<Interval>)
    ensures forall o :: o in r <==> exists c :: c in rows && CitaOccupies(c, profesionalId, dayStart, dayEnd)
                                                && o == Interval(c.inicio, c.fin)
  {
    if |rows| == 0 then []
    else
      var rest := CitaIntervals(rows[1..], profesionalId, dayStart, dayEnd);
      assert forall x :: x in rows <==> x == rows[0] || x in rows[1..];
      if CitaOccupies(rows[0], profesionalId, dayStart, dayEnd)
      then [Interval(rows[0].inicio, rows[0].fin)] + rest
      else rest
  }

  /** `ocupados`: the blackouts followed by the appointments. */
  function Ocupados(store: Store, profesionalId: string, bounds: DayBounds): seq<Interval> {
    BlockIntervals(store.bloqueos, profesionalId, bounds.start, bounds.end)
      + CitaIntervals(store.citas, profesionalId, bounds.start, bounds.end)
  }

  /** The weekday of the day: the zone's weekday at the day's start plus 12 h. */
  function Weekday(bounds: DayBounds, labelAt: int -> string): int {
    DayOfWeek(bounds.start + 12 * MS_PER_HOUR, labelAt)
  }

  /** The walk of every rule selected for `fecha` ends: the loop of the source terminates only then. */
  predicate SelectedWalksEnd(store: Store, profesionalId: string, fecha: CivilDate,
                             clockAt: int -> ClockParts, labelAt: int -> string)
  {
    var b := GetDayBounds(fecha, clockAt);
    b.None? || AllWalksEnd(LiveRules(store.disponibilidad, profesionalId, Weekday(b.value, labelAt)))
  }

  /**
   * `getSlotsDisponibles(supabase, profesionalId, fecha, timezone)`, where
   * `clockAt` and `labelAt` are the zone's wall-clock and weekday lookups.
   * `None` is the RangeError of a date whose instants are out of range.
   */
  function GetSlotsDisponibles(store: Store, profesionalId: string, fecha: CivilDate,
                               clockAt: int -> ClockParts, labelAt: int -> string): (r: Option<seq<TimeSlot>>)
    requires SelectedWalksEnd(store, profesionalId, fecha, clockAt, labelAt)
    ensures r.None? <==> GetDayBounds(fecha, clockAt).None?
    ensures r.Some? ==> Sorting.SortedBy(r.value, StartOf)
  {
    match GetDayBounds(fecha, clockAt)
    case None => None
    case Some(bounds) =>
      var rules := LiveRules(store.disponibilidad, profesionalId, Weekday(bounds, labelAt));
      if |rules| == 0 then Some([])
      else Some(ComputeSlots(rules, Ocupados(store, profesionalId, bounds), bounds.start))
  }

  // ---------------------------------------------------------------------------
  // Properties of the engine

  /** The top level on a date in range: the pure core on the selected rules and the day's occupied intervals. */
  lemma GetSlotsUnfold(store: Store, profesionalId: string, fecha: CivilDate,
                       clockAt: int -> ClockParts, labelAt: int -> string)
    requires SelectedWalksEnd(store, profesionalId, fecha, clockAt, labelAt)
    requires GetDayBounds(fecha, clockAt).Some?
    ensures var bounds := GetDayBounds(fecha, clockAt).value;
            var rules := LiveRules(store.disponibilidad, profesionalId, Weekday(bounds, labelAt));
            AllWalksEnd(rules)
            && GetSlotsDisponibles(store, profesionalId, fecha, clockAt, labelAt)
               == Some(ComputeSlots(rules, Ocupados(store, profesionalId, bounds), bounds.start))
  {
  }

  /**
   * The pure core returns exactly the steps of its rules that overlap no
   * occupied interval.
   */
  lemma ComputeSlotsExact(rules: seq<Disponibilidad>, ocupados: seq<Interval>, dayStart: int, s: TimeSlot)
    requires AllWalksEnd(rules)
    ensures s in ComputeSlots(rules, ocupados, dayStart)
            <==> (exists j :: 0 <= j < |rules| && GeneratedBy(s, rules[j], dayStart)) && !Solapado(s, ocupados)
  {
    assert s in ComputeSlots(rules, ocupados, dayStart)
           <==> s in multiset(ComputeSlots(rules, ocupados, dayStart));
    assert s in Candidates(rules, dayStart) <==> s in multiset(Candidates(rules, dayStart));
    CandidatesMembers(rules, dayStart, s);
    forall j | 0 <= j < |rules| ensures s in RuleSlots(rules[j], dayStart) <==> GeneratedBy(s, rules[j], dayStart) {
      RuleSlotsExact(rules[j], dayStart, s);
    }
  }

  /** `s` is a step of a live rule of the professional for the day's weekday. */
  ghost predicate FromSelectedRule(s: TimeSlot, store: Store, profesionalId: string, bounds: DayBounds,
                                   labelAt: int -> string)
  {
    exists rule :: rule in store.disponibilidad && RuleSelected(rule, profesionalId, Weekday(bounds, labelAt))
                   && GeneratedBy(s, rule, bounds.start)
  }

  /**
   * Soundness, exclusion and completeness at once: a slot is returned exactly
   * when it is a step, ending by the rule's end, of a live rule of the
   * professional for the weekday found at the day's start plus 12 h, and it
   * overlaps no live blackout and no programada or completada appointment
   * touching the day.
   */
  lemma SlotsExact(store: Store, profesionalId: string, fecha: CivilDate,
                   clockAt: int -> ClockParts, labelAt: int -> string, s: TimeSlot)
    requires SelectedWalksEnd(store, profesionalId, fecha, clockAt, labelAt)
    requires GetDayBounds(fecha, clockAt).Some?
    ensures var bounds := GetDayBounds(fecha, clockAt).value;
            s in GetSlotsDisponibles(store, profesionalId, fecha, clockAt, labelAt).value
            <==> FromSelectedRule(s, store, profesionalId, bounds, labelAt)
                 && !Solapado(s, Ocupados(store, profesionalId, bounds))
  {
    var bounds := GetDayBounds(fecha, clockAt).value;
    var rules := LiveRules(store.disponibilidad, profesionalId, Weekday(bounds, labelAt));
    var ocupados := Ocupados(store, profesionalId, bounds);
    GetSlotsUnfold(store, profesionalId, fecha, clockAt, labelAt);
    ComputeSlotsExact(rules, ocupados, bounds.start, s);
    SelectedRuleIndex(store.disponibilidad, profesionalId, Weekday(bounds, labelAt), bounds.start, s);
  }

  /** A step of some selected rule, by index or by row. */
  lemma SelectedRuleIndex(rows: seq<Disponibilidad>, profesionalId: string, dia: int, dayStart: int, s: TimeSlot)
    ensures var rules := LiveRules(rows, profesionalId, dia);
            (exists j :: 0 <= j < |rules| && GeneratedBy(s, rules[j], dayStart))
            <==> exists rule :: rule in rows && RuleSelected(rule, profesionalId, dia) && GeneratedBy(s, rule, dayStart)
  {
    var rules := LiveRules(rows, profesionalId, dia);
    if exists rule :: rule in rows && RuleSelected(rule, profesionalId, dia) && GeneratedBy(s, rule, dayStart) {
      var rule :| rule in rows && RuleSelected(rule, profesionalId, dia) && GeneratedBy(s, rule, dayStart);
      RuleAtIndex(rows, profesionalId, dia, rule);
    }
  }

  lemma RuleAtIndex(rows: seq<Disponibilidad>, profesionalId: string, dia: int, rule: Disponibilidad)
    requires rule in rows && RuleSelected(rule, profesionalId, dia)
    ensures exists j :: 0 <= j < |LiveRules(rows, profesionalId, dia)| && LiveRules(rows, profesionalId, dia)[j] == rule
  {
    assert rule in LiveRules(rows, profesionalId, dia);
  }

  /**
   * No returned slot overlaps an occupied interval of the day, under the
   * source's three-case test and, for a non-empty interval, as half-open
   * intervals; every returned slot lasts its rule's positive duration.
   */
  lemma SlotsAvoidOccupied(store: Store, profesionalId: string, fecha: CivilDate,
                           clockAt: int -> ClockParts, labelAt: int -> string, s: TimeSlot, o: Interval)
    requires SelectedWalksEnd(store, profesionalId, fecha, clockAt, labelAt)
    requires GetDayBounds(fecha, clockAt).Some?
    requires s in GetSlotsDisponibles(store, profesionalId, fecha, clockAt, labelAt).value
    requires o in Ocupados(store, profesionalId, GetDayBounds(fecha, clockAt).value)
    ensures s.inicio < s.fin
    ensures !ThreeCaseOverlap(s, o)
    ensures o.inicio < o.fin ==> !(s.inicio < o.fin && s.fin > o.inicio)
  {
    var bounds := GetDayBounds(fecha, clockAt).value;
    SlotsExact(store, profesionalId, fecha, clockAt, labelAt, s);
    var rule :| rule in store.disponibilidad && RuleSelected(rule, profesionalId, Weekday(bounds, labelAt))
                && GeneratedBy(s, rule, bounds.start);
    GeneratedFacts(s, rule, bounds.start);
    var ocupados := Ocupados(store, profesionalId, bounds);
    var i :| 0 <= i < |ocupados| && ocupados[i] == o;
    if o.inicio < o.fin {
      ThreeCaseIsHalfOpenOverlap(s, o);
    }
  }

  /**
   * Without a live rule for the weekday there is no slot, whatever the
   * blackouts and appointments are: they are not read.
   */
  lemma NoRulesNoSlots(store: Store, other: Store, profesionalId: string, fecha: CivilDate,
                       clockAt: int -> ClockParts, labelAt: int -> string)
    requires GetDayBounds(fecha, clockAt).Some?
    requires LiveRules(store.disponibilidad, profesionalId, Weekday(GetDayBounds(fecha, clockAt).value, labelAt)) == []
    requires other.disponibilidad == store.disponibilidad
    ensures SelectedWalksEnd(store, profesionalId, fecha, clockAt, labelAt)
    ensures GetSlotsDisponibles(store, profesionalId, fecha, clockAt, labelAt) == Some([])
    ensures SelectedWalksEnd(other, profesionalId, fecha, clockAt, labelAt)
    ensures GetSlotsDisponibles(other, profesionalId, fecha, clockAt, labelAt) == Some([])
  {
  }
}

=== FILE: slug.dfy ===
/**
 * Slug generation (lib/utils/slug.ts): the normalised base of a name, the
 * random six-character suffix, and the candidate slug joining them.
 *
 * `toLowerCase().normalize("NFD")` is a parameter `fold`; the model only asks
 * that it leave slug text (lower-case letters, digits, dashes) unchanged.
 * `Math.random()` is a sequence of draws in [0, 1).
 */
module Slug {
  import Text
  import Sorting

  /** The characters `[a-z0-9]` that survive normalisation. */
  predicate IsSlugChar(c: char) {
    Text.IsLowerAscii(c) || Text.IsDigit(c)
  }

  /** Combining diacritical marks, `[̀-ͯ]`. */
  predicate IsCombiningMark(c: char) {
    '\U{0300}' <= c <= '\U{036F}'
  }

  predicate SlugChars(s: string) {
    forall i :: 0 <= i < |s| ==> IsSlugChar(s[i]) || s[i] == '-'
  }

  predicate NoDoubleDash(s: string) {
    forall i :: 0 <= i < |s| - 1 ==> s[i] != '-' || s[i + 1] != '-'
  }

  /** A well-formed slug: non-empty, `[a-z0-9-]` only, no dash at either end, no two dashes in a row. */
  predicate IsSlug(s: string) {
    |s| > 0 && SlugChars(s) && s[0] != '-' && s[|s| - 1] != '-' && NoDoubleDash(s)
  }

  const USUARIO := "usuario"

  /** `.replace(/[̀-ͯ]/g, "")`. */
  function RemoveMarks(s: string): string {
    Sorting.Filter(s, (c: char) => !IsCombiningMark(c))
  }

  /** `s` without its leading run of non-slug characters. */
  function DropRun(s: string): (r: string)
    ensures |r| <= |s| && r == s[|s| - |r|..]
    ensures |r| > 0 ==> IsSlugChar(r[0])
    ensures Sorting.Filter(r, IsSlugChar) == Sorting.Filter(s, IsSlugChar)
  {
    if |s| > 0 && !IsSlugChar(s[0]) then DropRun(s[1..]) else s
  }

  /** `.replace(/[^a-z0-9]+/g, "-")`: every maximal run of other characters becomes one dash. */
  function Collapse(s: string): (r: string)
    ensures SlugChars(r) && NoDoubleDash(r)
    ensures |r| > 0 && r[0] == '-' <==> |s| > 0 && !IsSlugChar(s[0])
    ensures |r| == 0 <==> |s| == 0
    decreases |s|
  {
    if |s| == 0 then ""
    else if IsSlugChar(s[0]) then
      var t := Collapse(s[1..]);
      ConsSlug([s[0]], t);
      [s[0]] + t
    else
      var t := Collapse(DropRun(s[1..]));
      ConsSlug("-", t);
      "-" + t
  }

  /** Putting one slug character, or a dash before a text that does not start with one, keeps slug text. */
  lemma ConsSlug(c: string, t: string)
    requires |c| == 1 && (IsSlugChar(c[0]) || c[0] == '-')
    requires SlugChars(t) && NoDoubleDash(t)
    requires c[0] == '-' && |t| > 0 ==> t[0] != '-'
    ensures SlugChars(c + t) && NoDoubleDash(c + t)
    ensures (c + t)[0] == c[0]
  {
    var r := c + t;
    assert forall i :: 1 <= i < |r| ==> r[i] == t[i - 1];
  }

  /** `.replace(/^-|-$/g, "")`: one leading and one trailing dash go. */
  function StripEdge(w: string): string {
    StripTail(StripHead(w))
  }

  function StripHead(w: string): string {
    if |w| > 0 && w[0] == '-' then w[1..] else w
  }

  function StripTail(a: string): string {
    if |a| > 0 && a[|a| - 1] == '-' then a[..|a| - 1] else a
  }

  /** `normalizarParaSlug(nombre)`. */
  function Normalizar(nombre: string, fold: string -> string): (r: string)
    ensures IsSlug(r)
  {
    var w := Collapse(RemoveMarks(fold(Text.Trim(nombre))));
    var x := StripEdge(w);
    StripEdgeSlug(w);
    UsuarioIsSlug();
    if x == "" then USUARIO else x
  }

  lemma UsuarioIsSlug()
    ensures IsSlug(USUARIO)
  {
    assert forall i :: 0 <= i < |USUARIO| ==> IsSlugChar(USUARIO[i]);
  }

  /** Stripping the edges of a collapsed text leaves a slug, or nothing. */
  lemma StripEdgeSlug(w: string)
    requires SlugChars(w) && NoDoubleDash(w)
    ensures StripEdge(w) == "" || IsSlug(StripEdge(w))
  {
    StripHeadSlug(w);
    StripTailSlug(StripHead(w));
  }

  /** Stripping the edges removes dashes only, so the letters and digits stay. */
  lemma StripEdgeKeepsAlnum(w: string)
    ensures Sorting.Filter(StripEdge(w), IsSlugChar) == Sorting.Filter(w, IsSlugChar)
  {
    var a := StripHead(w);
    if |w| > 0 && w[0] == '-' {
      assert w == "-" + a;
      Sorting.FilterAppend("-", a, IsSlugChar);
      assert Sorting.Filter("-", IsSlugChar) == [];
    }
    if |a| > 0 && a[|a| - 1] == '-' {
      DropLastDash(a);
    }
  }

  lemma StripHeadSlug(w: string)
    requires SlugChars(w) && NoDoubleDash(w)
    ensures var a := StripHead(w);
      SlugChars(a) && NoDoubleDash(a) && (|a| > 0 ==> a[0] != '-')
  {
    if |w| > 0 && w[0] == '-' {
      var a := w[1..];
      assert forall i :: 0 <= i < |a| ==> a[i] == w[i + 1];
    }
  }

  lemma StripTailSlug(a: string)
    requires SlugChars(a) && NoDoubleDash(a) && (|a| > 0 ==> a[0] != '-')
    ensures StripTail(a) == "" || IsSlug(StripTail(a))
  {
    if |a| > 0 && a[|a| - 1] == '-' {
      assert StripTail(a) == a[..|a| - 1];
      PrefixSlug(a, |a| - 1);
    } else {
      assert StripTail(a) == a;
    }
  }

  /** Dropping a final dash keeps the letters and digits. */
  lemma DropLastDash(a: string)
    requires |a| > 0 && a[|a| - 1] == '-'
    ensures Sorting.Filter(a[..|a| - 1], IsSlugChar) == Sorting.Filter(a, IsSlugChar)
  {
    var b := a[..|a| - 1];
    assert a == b + "-";
    Sorting.FilterAppend(b, "-", IsSlugChar);
    assert Sorting.Filter("-", IsSlugChar) == [];
  }

  /** A prefix of slug text is slug text; it ends in a dash only if the next character is not one. */
  lemma PrefixSlug(a: string, n: nat)
    requires SlugChars(a) && NoDoubleDash(a) && n < |a| && a[n] == '-'
    requires |a| > 0 ==> a[0] != '-'
    ensures n == 0 || IsSlug(a[..n])
  {
    var b := a[..n];
    assert forall i :: 0 <= i < n ==> b[i] == a[i];
    if n > 0 {
      assert a[n - 1] != '-';
      assert SlugChars(b);
      assert NoDoubleDash(b);
    }
  }

  /** The letters and digits of a text pass through collapsing unchanged and in order. */
  lemma {:induction false} CollapseKeepsAlnum(s: string)
    ensures Sorting.Filter(Collapse(s), IsSlugChar) == Sorting.Filter(s, IsSlugChar)
    decreases |s|
  {
    if |s| > 0 {
      if IsSlugChar(s[0]) {
        CollapseKeepsAlnum(s[1..]);
        Sorting.FilterAppend([s[0]], Collapse(s[1..]), IsSlugChar);
      } else {
        var d := DropRun(s[1..]);
        CollapseKeepsAlnum(d);
        Sorting.FilterAppend("-", Collapse(d), IsSlugChar);
      }
    }
  }

  /**
   * The base keeps exactly the letters and digits left after folding and
   * removing the marks, in order; when there are none it is "usuario".
   */
  lemma NormalizarKeepsAlnum(nombre: string, fold: string -> string)
    ensures var v := RemoveMarks(fold(Text.Trim(nombre)));
      if Sorting.Filter(v, IsSlugChar) == [] then Normalizar(nombre, fold) == USUARIO
      else Sorting.Filter(Normalizar(nombre, fold), IsSlugChar) == Sorting.Filter(v, IsSlugChar)
  {
    var v := RemoveMarks(fold(Text.Trim(nombre)));
    var w := Collapse(v);
    CollapseKeepsAlnum(v);
    StripEdgeSlug(w);
    StripEdgeKeepsAlnum(w);
    var x := StripEdge(w);
    if x != "" {
      assert x[0] in x && IsSlugChar(x[0]);
      assert x[0] in Sorting.Filter(x, IsSlugChar);
    }
  }

  /** A string that starts with a letter or digit has no run to drop. */
  lemma DropRunNone(s: string)
    requires |s| == 0 || IsSlugChar(s[0])
    ensures DropRun(s) == s
  {
  }

  /** Dropping the first character of slug text leaves slug text, which cannot start with a dash after one. */
  lemma SlugTail(s: string)
    requires |s| > 0 && SlugChars(s) && NoDoubleDash(s)
    ensures SlugChars(s[1..]) && NoDoubleDash(s[1..])
    ensures !IsSlugChar(s[0]) ==> s[0] == '-' && (|s| == 1 || IsSlugChar(s[1]))
  {
    var t := s[1..];
    assert forall i :: 0 <= i < |t| ==> t[i] == s[i + 1];
    assert |s| > 1 ==> s[0] != '-' || s[1] != '-';
  }

  /** Collapsing leaves slug text unchanged. */
  lemma {:induction false} CollapseFixed(s: string)
    requires SlugChars(s) && NoDoubleDash(s)
    ensures Collapse(s) == s
    decreases |s|
  {
    if |s| > 0 {
      var t := s[1..];
      SlugTail(s);
      CollapseFixed(t);
      CollapseStep(s);
      if !IsSlugChar(s[0]) {
        DropRunNone(t);
        assert s == "-" + t;
      } else {
        assert s == [s[0]] + t;
      }
    }
  }

  /** One step of `Collapse`: a letter or digit is kept, a run of other characters becomes one dash. */
  lemma CollapseStep(s: string)
    requires |s| > 0
    ensures IsSlugChar(s[0]) ==> Collapse(s) == [s[0]] + Collapse(s[1..])
    ensures !IsSlugChar(s[0]) ==> Collapse(s) == "-" + Collapse(DropRun(s[1..]))
  {
  }

  /** A run of other characters is dropped up to the next letter or digit. */
  lemma {:induction false} DropRunPadded(x: string, b: string)
    requires forall i :: 0 <= i < |x| ==> !IsSlugChar(x[i])
    requires |b| == 0 || IsSlugChar(b[0])
    ensures DropRun(x + b) == b
    decreases |x|
  {
    if |x| == 0 {
      assert x + b == b;
      DropRunNone(b);
    } else {
      assert (x + b)[1..] == x[1..] + b;
      DropRunPadded(x[1..], b);
    }
  }

  /** Letters and digits pass through `Collapse` one by one. */
  lemma {:induction false} CollapseKeepsSlugPrefix(a: string, b: string)
    requires forall i :: 0 <= i < |a| ==> IsSlugChar(a[i])
    ensures Collapse(a + b) == a + Collapse(b)
    decreases |a|
  {
    if |a| == 0 {
      assert a + b == b;
    } else {
      var s := a + b;
      var rest := a[1..] + b;
      assert s[0] == a[0] && s[1..] == rest;
      CollapseStep(s);
      var c := Collapse(rest);
      CollapseKeepsSlugPrefix(a[1..], b);
      assert c == a[1..] + Collapse(b);
      ConsRest(a, Collapse(b));
    }
  }

  lemma ConsRest<T>(a: seq<T>, t: seq<T>)
    requires |a| > 0
    ensures [a[0]] + (a[1..] + t) == a + t
  {
    assert a == [a[0]] + a[1..];
  }

  /** A run of other characters before text that starts at a letter or digit collapses to one '-'. */
  lemma CollapseRun(x: string, b: string)
    requires |x| > 0 && forall i :: 0 <= i < |x| ==> !IsSlugChar(x[i])
    requires |b| == 0 || IsSlugChar(b[0])
    ensures Collapse(x + b) == "-" + Collapse(b)
  {
    var t := x + b;
    assert t[1..] == x[1..] + b;
    assert !IsSlugChar(t[0]) by {
      assert t[0] == x[0];
    }
    DropRunPadded(x[1..], b);
    CollapseStep(t);
  }

  /**
   * The separator rule: letters and digits, then a run of other characters,
   * then text that starts at a letter or digit, collapse to the letters and
   * digits, one '-', and the collapsed rest.
   */
  lemma CollapseSeparator(a: string, x: string, b: string)
    requires forall i :: 0 <= i < |a| ==> IsSlugChar(a[i])
    requires |x| > 0 && forall i :: 0 <= i < |x| ==> !IsSlugChar(x[i])
    requires |b| == 0 || IsSlugChar(b[0])
    ensures Collapse(a + x + b) == a + "-" + Collapse(b)
  {
    var t := x + b;
    Assoc(a, x, b);
    CollapseKeepsSlugPrefix(a, t);
    CollapseRun(x, b);
    Assoc(a, "-", Collapse(b));
  }

  lemma Assoc<T>(a: seq<T>, b: seq<T>, c: seq<T>)
    ensures a + b + c == a + (b + c)
  {
  }

  /** Normalising a slug returns it, provided case folding leaves slug text alone. */
  lemma NormalizarIdempotent(nombre: string, fold: string -> string)
    requires forall t :: SlugChars(t) ==> fold(t) == t
    ensures Normalizar(Normalizar(nombre, fold), fold) == Normalizar(nombre, fold)
  {
    NormalizarFixed(Normalizar(nombre, fold), fold);
  }

  /** A slug is its own normal form. */
  lemma NormalizarFixed(s: string, fold: string -> string)
    requires IsSlug(s)
    requires fold(s) == s
    ensures Normalizar(s, fold) == s
  {
    assert !Text.IsSpace(s[0]) && !Text.IsSpace(s[|s| - 1]);
    Text.TrimNoEdgeSpace(s);
    assert Text.Trim(s) == s;
    assert forall i :: 0 <= i < |s| ==> !IsCombiningMark(s[i]);
    Sorting.FilterAll(s, (c: char) => !IsCombiningMark(c));
    assert RemoveMarks(fold(Text.Trim(s))) == s;
    CollapseFixed(s);
    assert StripHead(s) == s;
    assert StripEdge(s) == s;
  }

  /** The suffix alphabet of `generarSufijoCorto`. */
  const CHARS := "abcdefghijklmnopqrstuvwxyz0123456789"

  /** `Math.floor(r * chars.length)` for a draw `r` of `Math.random()`. */
  function PickIndex(r: real): (k: nat)
    requires 0.0 <= r < 1.0
    ensures k < |CHARS|
    ensures k as real <= r * 36.0 < k as real + 1.0
  {
    (r * 36.0).Floor
  }

  /** `generarSufijoCorto()`: six characters, the i-th chosen by the i-th draw. */
  method SufijoCorto(draws: seq<real>) returns (result: string)
    requires |draws| >= 6
    requires forall i :: 0 <= i < |draws| ==> 0.0 <= draws[i] < 1.0
    ensures |result| == 6
    ensures forall i :: 0 <= i < 6 ==> result[i] == CHARS[PickIndex(draws[i])]
    ensures forall i :: 0 <= i < 6 ==> IsSlugChar(result[i])
  {
    result := "";
    var i := 0;
    while i < 6
      invariant 0 <= i <= 6 && |result| == i
      invariant forall j :: 0 <= j < i ==> result[j] == CHARS[PickIndex(draws[j])]
    {
      result := result + [CHARS[PickIndex(draws[i])]];
      i := i + 1;
    }
    CharsAreSlugChars();
  }

  lemma CharsAreSlugChars()
    ensures forall k :: 0 <= k < |CHARS| ==> IsSlugChar(CHARS[k])
  {
  }

  /** Every six-character string over the alphabet is the suffix of some draws. */
  lemma SufijoReachable(s: string)
    requires |s| == 6 && forall i :: 0 <= i < 6 ==> IsSlugChar(s[i])
    ensures exists draws: seq<real> :: Reaches(draws, s)
  {
    var draws := seq(6, i requires 0 <= i < 6 => DrawFor(CharIndex(s[i])));
    assert forall i :: 0 <= i < 6 ==> draws[i] == DrawFor(CharIndex(s[i]));
    assert Reaches(draws, s);
  }

  /** Six draws in [0, 1) that make the suffix `s`. */
  ghost predicate Reaches(draws: seq<real>, s: string) {
    |draws| == 6 && |s| == 6
    && (forall i :: 0 <= i < 6 ==> 0.0 <= draws[i] < 1.0)
    && forall i :: 0 <= i < 6 ==> s[i] == CHARS[PickIndex(draws[i])]
  }

  /** The position of `c` in the alphabet. */
  function CharIndex(c: char): (k: nat)
    requires IsSlugChar(c)
    ensures k < |CHARS| && CHARS[k] == c
  {
    CharsLayout();
    if Text.IsLowerAscii(c) then c as int - 'a' as int else c as int - '0' as int + 26
  }

  /** The alphabet is the 26 lower-case letters followed by the ten digits. */
  lemma CharsLayout()
    ensures |CHARS| == 36
    ensures forall k :: 0 <= k < 26 ==> CHARS[k] == ('a' as int + k) as char
    ensures forall k :: 26 <= k < 36 ==> CHARS[k] == ('0' as int + k - 26) as char
  {
  }

  /** A draw that picks the `k`-th character of the alphabet. */
  function DrawFor(k: nat): (r: real)
    requires k < |CHARS|
    ensures 0.0 <= r < 1.0 && PickIndex(r) == k
  {
    var r := k as real / 36.0;
    assert r * 36.0 == k as real;
    r
  }

  /** A slug, a dash and a non-empty run of slug characters make a slug. */
  lemma JoinSlug(base: string, suffix: string)
    requires IsSlug(base)
    requires |suffix| > 0 && forall i :: 0 <= i < |suffix| ==> IsSlugChar(suffix[i])
    ensures IsSlug(base + "-" + suffix)
  {
    var r := base + "-" + suffix;
    assert forall i :: 0 <= i < |base| ==> r[i] == base[i];
    assert r[|base|] == '-';
    assert forall i :: |base| < i < |r| ==> r[i] == suffix[i - |base| - 1];
  }

  /** `generarSlugCandidato(nombre)`: the base, a dash and the six suffix characters the draws pick from the alphabet. */
  method SlugCandidato(nombre: string, fold: string -> string, draws: seq<real>) returns (slug: string)
    requires |draws| >= 6
    requires forall i :: 0 <= i < |draws| ==> 0.0 <= draws[i] < 1.0
    ensures var base := Normalizar(nombre, fold);
      |slug| == |base| + 7 && slug[..|base| + 1] == base + "-"
    ensures var base := Normalizar(nombre, fold);
      forall i :: 0 <= i < 6 ==> slug[|base| + 1 + i] == CHARS[PickIndex(draws[i])]
    ensures IsSlug(slug)
  {
    var base := Normalizar(nombre, fold);
    var sufijo := SufijoCorto(draws);
    slug := base + "-" + sufijo;
    assert slug[..|base| + 1] == base + "-";
    assert forall i :: 0 <= i < 6 ==> slug[|base| + 1 + i] == sufijo[i];
    JoinSlug(base, sufijo);
  }
}

=== FILE: sorting.dfy ===
/**
 * `Array.prototype.filter`, and `Array.prototype.sort` with a numeric
 * comparator `(a, b) => key(a) - key(b)` as a stable insertion sort on
 * sequences. A descending sort is the ascending sort on the negated key.
 */
module Sorting {

  /**
   * `s.filter(f)`: the elements satisfying `f`, each as often as it occurs in
   * `s`, and no others (their order is the subject of `FilterAppend`).
   */
  function Filter<T(!new)>(s: seq<T>, f: T -> bool): (r: seq<T>)
    ensures |r| <= |s|
    ensures forall i :: 0 <= i < |r| ==> r[i] in s && f(r[i])
    ensures forall i :: 0 <= i < |s| && f(s[i]) ==> s[i] in r
    ensures forall x :: multiset(r)[x] == if f(x) then multiset(s)[x] else 0
  {
    if |s| == 0 then []
    else
      var rest := Filter(s[1..], f);
      assert s == [s[0]] + s[1..];
      assert forall x :: x in s <==> x == s[0] || x in s[1..];
      if f(s[0]) then [s[0]] + rest else rest
  }

  /** Filtering a concatenation filters each part. */
  lemma {:induction false} FilterAppend<T(!new)>(a: seq<T>, b: seq<T>, f: T -> bool)
    ensures Filter(a + b, f) == Filter(a, f) + Filter(b, f)
  {
    if |a| > 0 {
      assert (a + b)[1..] == a[1..] + b;
      FilterAppend(a[1..], b, f);
    } else {
      assert a + b == b;
    }
  }

  /** Filtering with a predicate every element satisfies changes nothing. */
  lemma {:induction false} FilterAll<T(!new)>(s: seq<T>, f: T -> bool)
    requires forall i :: 0 <= i < |s| ==> f(s[i])
    ensures Filter(s, f) == s
  {
    if |s| > 0 {
      FilterAll(s[1..], f);
    }
  }

  /**
   * A predicate and a predicate that holds exactly where the first fails
   * split a sequence: every element lands in exactly one of the two filters,
   * as often as it occurs.
   */
  lemma {:induction false} FilterPartition<T(!new)>(s: seq<T>, f: T -> bool, g: T -> bool)
    requires forall x :: g(x) == !f(x)
    ensures multiset(Filter(s, f)) + multiset(Filter(s, g)) == multiset(s)
  {
    if |s| > 0 {
      FilterPartition(s[1..], f, g);
      assert s == [s[0]] + s[1..];
    }
  }

  ghost predicate SortedBy<T>(s: seq<T>, key: T -> int) {
    forall i, j :: 0 <= i < j < |s| ==> key(s[i]) <= key(s[j])
  }

  /** Every element of `s` has a key of at least `k`. */
  ghost predicate AllAtLeast<T>(s: seq<T>, key: T -> int, k: int) {
    forall i :: 0 <= i < |s| ==> k <= key(s[i])
  }

  /** Puts `x` into `s` ahead of the first element whose key is at least its own. */
  function InsertBy<T>(x: T, s: seq<T>, key: T -> int): (r: seq<T>)
    ensures multiset(r) == multiset(s) + multiset{x}
    ensures |r| == |s| + 1
  {
    if |s| == 0 then [x]
    else if key(x) <= key(s[0]) then [x] + s
    else
      assert s == [s[0]] + s[1..];
      [s[0]] + InsertBy(x, s[1..], key)
  }

  /** A lower bound on the keys of `s` and of `x` bounds the keys of the insertion. */
  lemma {:induction false} InsertByAtLeast<T>(x: T, s: seq<T>, key: T -> int, k: int)
    requires AllAtLeast(s, key, k) && k <= key(x)
    ensures AllAtLeast(InsertBy(x, s, key), key, k)
  {
    if |s| > 0 && key(x) > key(s[0]) {
      InsertByAtLeast(x, s[1..], key, k);
    }
  }

  /** Insertion keeps a sorted sequence sorted. */
  lemma {:induction false} InsertBySorted<T>(x: T, s: seq<T>, key: T -> int)
    requires SortedBy(s, key)
    ensures SortedBy(InsertBy(x, s, key), key)
  {
    if |s| > 0 && key(x) > key(s[0]) {
      InsertBySorted(x, s[1..], key);
      InsertByAtLeast(x, s[1..], key, key(s[0]));
    }
  }

  /** The elements of `s` ordered by ascending `key`. */
  function SortBy<T>(s: seq<T>, key: T -> int): (r: seq<T>)
    ensures SortedBy(r, key)
    ensures multiset(r) == multiset(s)
    ensures |r| == |s|
  {
    if |s| == 0 then []
    else
      var sortedTail := SortBy(s[1..], key);
      InsertBySorted(s[0], sortedTail, key);
      var r := InsertBy(s[0], sortedTail, key);
      assert s == [s[0]] + s[1..];
      assert multiset(s) == multiset{s[0]} + multiset(s[1..]);
      assert multiset(r) == multiset(s[1..]) + multiset{s[0]};
      r
  }

  /** Sorting neither loses nor invents elements. */
  lemma SortByMembers<T>(s: seq<T>, key: T -> int, x: T)
    ensures x in SortBy(s, key) <==> x in s
  {
    assert x in multiset(SortBy(s, key)) <==> x in multiset(s);
  }

  /** Sorting an already sorted sequence returns it unchanged; in particular sorting is idempotent. */
  lemma {:induction false} SortBySortedIdentity<T>(s: seq<T>, key: T -> int)
    requires SortedBy(s, key)
    ensures SortBy(s, key) == s
  {
    if |s| > 0 {
      SortBySortedIdentity(s[1..], key);
      assert s == [s[0]] + s[1..];
    }
  }

  lemma SortByIdempotent<T>(s: seq<T>, key: T -> int)
    ensures SortBy(SortBy(s, key), key) == SortBy(s, key)
  {
    SortBySortedIdentity(SortBy(s, key), key);
  }
}

=== FILE: subscription.dfy ===
/**
 * The subscription card's `activa` predicate
 * (app/profesional/dashboard/EstadoSuscripcionCard.tsx): a subscription is
 * shown as active when its status is "activa" and today's UTC date lies
 * between its start and end dates, both inclusive. The dates are
 * `YYYY-MM-DD` strings compared as strings; for such dates that is the
 * calendar order.
 */
module Suscripcion {
  import opened Wrappers
  import opened Text
  import Dates

  /** The columns of a `suscripciones` row the card reads; `fecha_*` are nullable. */
  datatype SuscripcionRow = SuscripcionRow(estado: string, fechaInicio: Option<string>, fechaFin: Option<string>)

  /** How `getSuscripcionByProfesional` settled: a row or none, or a thrown error. */
  datatype Carga = Cargada(row: Option<SuscripcionRow>) | Fallida

  /** `cargar`: the subscription the card keeps; an error is caught and keeps `null`. */
  function Cargar(c: Carga): (s: Option<SuscripcionRow>)
    ensures c.Fallida? ==> s.None?
    ensures c.Cargada? ==> s == c.row
  {
    match c
    case Cargada(row) => row
    case Fallida => None
  }

  /**
   * `activa`, where `hoy` is `new Date().toISOString().slice(0, 10)`. A missing
   * row, another status or a null date make it false.
   */
  predicate Activa(s: Option<SuscripcionRow>, hoy: string) {
    match s
    case None => false
    case Some(row) =>
      && row.estado == "activa"
      && row.fechaInicio.Some? && row.fechaFin.Some?
      && LexLe(row.fechaInicio.value, hoy)
      && LexLe(hoy, row.fechaFin.value)
  }

  /**
   * For `YYYY-MM-DD` dates the card counts a subscription active from its
   * first day through its last day, both included.
   */
  lemma ActivaByDay(row: SuscripcionRow, hoy: string)
    requires row.fechaInicio.Some? && row.fechaFin.Some?
    requires IsoDateShape(row.fechaInicio.value) && IsoDateShape(row.fechaFin.value) && IsoDateShape(hoy)
    ensures Activa(Some(row), hoy) <==>
      (row.estado == "activa" && DateKey(row.fechaInicio.value) <= DateKey(hoy) <= DateKey(row.fechaFin.value))
  {
    IsoLexOrder(row.fechaInicio.value, hoy);
    IsoLexOrder(hoy, row.fechaFin.value);
  }

  /**
   * The card shows a subscription active only after a load that succeeded
   * and returned an active row; a failed load, a missing row, another status
   * or a missing date all show it as inactive.
   */
  lemma InactiveCases(c: Carga, hoy: string)
    ensures Activa(Cargar(c), hoy) <==> c.Cargada? && Activa(c.row, hoy)
    ensures c.Fallida? ==> !Activa(Cargar(c), hoy)
    ensures Cargar(c).Some? && Cargar(c).value.estado != "activa" ==> !Activa(Cargar(c), hoy)
    ensures Cargar(c).Some? && (Cargar(c).value.fechaInicio.None? || Cargar(c).value.fechaFin.None?) ==> !Activa(Cargar(c), hoy)
  {
  }

  /**
   * With `hoy` computed from the clock reading `now` (in the years 0..9999),
   * the card shows the subscription active exactly on the UTC days from its
   * start date through its end date.
   */
  lemma ActivaOnUtcDay(row: SuscripcionRow, now: int)
    requires -Dates.MAX_TIME <= now <= Dates.MAX_TIME
    requires 0 <= Dates.CivilFromDays(now / Dates.MS_PER_DAY).year <= 9999
    requires row.fechaInicio.Some? && row.fechaFin.Some?
    requires IsoDateShape(row.fechaInicio.value) && IsoDateShape(row.fechaFin.value)
    ensures var c := Dates.CivilFromDays(now / Dates.MS_PER_DAY);
      var today := c.year * 10000 + c.month * 100 + c.day;
      Activa(Some(row), Dates.FormatDate(now).value) <==>
        (row.estado == "activa" && DateKey(row.fechaInicio.value) <= today <= DateKey(row.fechaFin.value))
  {
    Dates.FormatDateReadsBack(now);
    ActivaByDay(row, Dates.FormatDate(now).value);
  }
}

=== FILE: text.dfy ===
/**
 * String primitives of JavaScript used throughout the application, on
 * `seq<char>`: whitespace trimming (`String.prototype.trim`), substring search
 * (`includes`), prefix tests (`startsWith`, written `p <= s` in Dafny) and the
 * character classes the regular expressions of the source use.
 */
module Text {

  import opened Wrappers

  /** JavaScript's WhiteSpace and LineTerminator characters (what `trim` and `\s` match). */
  predicate IsSpace(c: char) {
    || c == ' ' || c == '\t' || c == '\n' || c == '\r'
    || c == '\U{000B}' || c == '\U{000C}' || c == '\U{00A0}' || c == '\U{FEFF}'
    || c == '\U{1680}' || ('\U{2000}' <= c <= '\U{200A}')
    || c == '\U{2028}' || c == '\U{2029}' || c == '\U{202F}' || c == '\U{205F}'
    || c == '\U{3000}'
  }

  /** `\d` without the `u` flag: the ASCII digits only. */
  predicate IsDigit(c: char) {
    '0' <= c <= '9'
  }

  predicate IsLowerAscii(c: char) {
    'a' <= c <= 'z'
  }

  /** Numeric value of an ASCII digit. */
  function DigitValue(c: char): (v: int)
    requires IsDigit(c)
    ensures 0 <= v <= 9
  {
    c as int - '0' as int
  }

  predicate NoEdgeSpace(s: string) {
    |s| == 0 || (!IsSpace(s[0]) && !IsSpace(s[|s| - 1]))
  }

  /** Drops the leading whitespace of `s`. */
  function TrimStart(s: string): (r: string)
    ensures |r| <= |s| && r == s[|s| - |r|..]
    ensures forall i :: 0 <= i < |s| - |r| ==> IsSpace(s[i])
    ensures |r| > 0 ==> !IsSpace(r[0])
  {
    if |s| > 0 && IsSpace(s[0]) then
      var r := TrimStart(s[1..]);
      assert s[1..][|s| - 1 - |r|..] == s[|s| - |r|..];
      assert forall i :: 1 <= i < |s| - |r| ==> s[i] == s[1..][i - 1];
      r
    else s
  }

  /** Drops the trailing whitespace of `s`. */
  function TrimEnd(s: string): (r: string)
    ensures |r| <= |s| && r == s[..|r|]
    ensures forall i :: |r| <= i < |s| ==> IsSpace(s[i])
    ensures |r| > 0 ==> !IsSpace(r[|r| - 1])
  {
    if |s| > 0 && IsSpace(s[|s| - 1]) then
      var r := TrimEnd(s[..|s| - 1]);
      assert s[..|s| - 1][..|r|] == s[..|r|];
      assert forall i :: |r| <= i < |s| - 1 ==> s[i] == s[..|s| - 1][i];
      r
    else s
  }

  /** `p` occurs in `s` starting at index `i`. */
  predicate OccursAt(s: string, p: string, i: int) {
    0 <= i <= |s| - |p| && s[i..i + |p|] == p
  }

  /**
   * `String.prototype.trim`: `s` without its leading and trailing whitespace,
   * i.e. a piece of `s` with only whitespace before and after it and none at
   * its own edges.
   */
  function Trim(s: string): (r: string)
    ensures NoEdgeSpace(r)
    ensures exists i :: (&& OccursAt(s, r, i)
                         && (forall j :: 0 <= j < i ==> IsSpace(s[j]))
                         && (forall j :: i + |r| <= j < |s| ==> IsSpace(s[j])))
  {
    var t := TrimStart(s);
    var r := TrimEnd(t);
    TrimPiece(s, t, r);
    assert |r| > 0 ==> r[0] == t[0] && !IsSpace(t[0]);
    assert NoEdgeSpace(r);
    r
  }

  /** The piece left by trimming both ends sits at `|s| - |t|`, with whitespace only around it. */
  lemma TrimPiece(s: string, t: string, r: string)
    requires |t| <= |s| && t == s[|s| - |t|..]
    requires forall i :: 0 <= i < |s| - |t| ==> IsSpace(s[i])
    requires |r| <= |t| && r == t[..|r|]
    requires forall i :: |r| <= i < |t| ==> IsSpace(t[i])
    ensures OccursAt(s, r, |s| - |t|)
    ensures forall j :: |s| - |t| + |r| <= j < |s| ==> IsSpace(s[j])
  {
    forall j | |s| - |t| + |r| <= j < |s|
      ensures IsSpace(s[j])
    {
      assert s[j] == t[j - (|s| - |t|)];
    }
  }

  /** Leading whitespace in front of a text that does not start with whitespace is exactly what `TrimStart` drops. */
  lemma {:induction false} TrimStartPadded(pre: string, x: string)
    requires forall i :: 0 <= i < |pre| ==> IsSpace(pre[i])
    requires |x| == 0 || !IsSpace(x[0])
    ensures TrimStart(pre + x) == x
    decreases |pre|
  {
    if |pre| > 0 {
      assert (pre + x)[1..] == pre[1..] + x;
      TrimStartPadded(pre[1..], x);
    } else {
      assert pre + x == x;
    }
  }

  /** Trailing whitespace after a text that does not end with whitespace is exactly what `TrimEnd` drops. */
  lemma {:induction false} TrimEndPadded(x: string, post: string)
    requires forall i :: 0 <= i < |post| ==> IsSpace(post[i])
    requires |x| == 0 || !IsSpace(x[|x| - 1])
    ensures TrimEnd(x + post) == x
    decreases |post|
  {
    if |post| > 0 {
      assert (x + post)[..|x + post| - 1] == x + post[..|post| - 1];
      TrimEndPadded(x, post[..|post| - 1]);
    } else {
      assert x + post == x;
    }
  }

  /** Trimming a text padded with whitespace on both sides gives the text back. */
  lemma TrimPadded(pre: string, x: string, post: string)
    requires forall i :: 0 <= i < |pre| ==> IsSpace(pre[i])
    requires forall i :: 0 <= i < |post| ==> IsSpace(post[i])
    requires |x| > 0 && NoEdgeSpace(x)
    ensures Trim(pre + x + post) == x
  {
    assert pre + x + post == pre + (x + post);
    TrimStartPadded(pre, x + post);
    TrimEndPadded(x, post);
  }

  /** Trimming leaves a string without edge whitespace unchanged. */
  lemma TrimNoEdgeSpace(s: string)
    requires NoEdgeSpace(s)
    ensures Trim(s) == s
  {
  }

  /** `Trim` is idempotent. */
  lemma TrimIdempotent(s: string)
    ensures Trim(Trim(s)) == Trim(s)
  {
    TrimNoEdgeSpace(Trim(s));
  }

  /**
   * `s.trim() || null`: `null` exactly for a blank text, otherwise the
   * non-empty piece of `s` that only whitespace surrounds, with none at its
   * own edges (so `TrimmedOrNullStable` gives it back when sent again).
   */
  function TrimmedOrNull(s: string): (r: Option<string>)
    ensures r.None? <==> forall i :: 0 <= i < |s| ==> IsSpace(s[i])
    ensures r.Some? ==> |r.value| > 0 && NoEdgeSpace(r.value)
    ensures r.Some? ==> exists i :: (&& OccursAt(s, r.value, i)
                                     && (forall j :: 0 <= j < i ==> IsSpace(s[j]))
                                     && (forall j :: i + |r.value| <= j < |s| ==> IsSpace(s[j])))
  {
    var t := Trim(s);
    BlankIff(s);
    if |t| == 0 then None else Some(t)
  }

  /** A text trims to "" exactly when it is all whitespace. */
  lemma BlankIff(s: string)
    ensures |Trim(s)| == 0 <==> forall i :: 0 <= i < |s| ==> IsSpace(s[i])
  {
    var t := Trim(s);
    var k :| (&& OccursAt(s, t, k)
              && (forall j :: 0 <= j < k ==> IsSpace(s[j]))
              && (forall j :: k + |t| <= j < |s| ==> IsSpace(s[j])));
    if |t| > 0 {
      assert s[k] == t[0] && !IsSpace(t[0]);
    }
  }

  /** Sending the stored value through `trim() || null` again gives it back; `null` is read back as "". */
  lemma TrimmedOrNullStable(s: string)
    ensures TrimmedOrNull(TrimmedOrNull(s).GetOr("")) == TrimmedOrNull(s)
  {
    TrimIdempotent(s);
    TrimNoEdgeSpace("");
  }

  /** JavaScript truthiness of an optional string: `null` and "" are falsy. */
  predicate Truthy(s: Option<string>) {
    s.Some? && |s.value| > 0
  }

  /** A `YYYY-MM-DD` date as `/^\d{4}-\d{2}-\d{2}$/` accepts it: four digits, "-", two digits, "-", two digits. */
  predicate IsoDateShape(t: string) {
    && |t| == 10
    && IsDigit(t[0]) && IsDigit(t[1]) && IsDigit(t[2]) && IsDigit(t[3])
    && t[4] == '-' && IsDigit(t[5]) && IsDigit(t[6])
    && t[7] == '-' && IsDigit(t[8]) && IsDigit(t[9])
  }

  /** `s.includes(p)`: `p` occurs in `s` as a contiguous piece. */
  predicate Contains(s: string, p: string)
    decreases |s|
  {
    p <= s || (|s| > 0 && Contains(s[1..], p))
  }

  /** `startsWith` is an occurrence at position 0. */
  lemma PrefixAtZero(s: string, p: string)
    ensures p <= s <==> OccursAt(s, p, 0)
  {
    if OccursAt(s, p, 0) {
      assert s[..|p|] == p;
    }
  }

  /** `Contains` agrees with the positional definition of an occurrence. */
  lemma ContainsAt(s: string, p: string)
    ensures Contains(s, p) <==> exists i :: OccursAt(s, p, i)
  {
    if Contains(s, p) {
      ContainsOccurs(s, p);
    }
    if exists i :: OccursAt(s, p, i) {
      var i :| OccursAt(s, p, i);
      OccursContains(s, p, i);
    }
  }

  lemma {:induction false} ContainsOccurs(s: string, p: string)
    requires Contains(s, p)
    ensures exists i :: OccursAt(s, p, i)
    decreases |s|
  {
    PrefixAtZero(s, p);
    if !(p <= s) {
      ContainsOccurs(s[1..], p);
      var i :| OccursAt(s[1..], p, i);
      assert s[i + 1..i + 1 + |p|] == s[1..][i..i + |p|];
      assert OccursAt(s, p, i + 1);
    }
  }

  lemma {:induction false} OccursContains(s: string, p: string, i: int)
    requires OccursAt(s, p, i)
    ensures Contains(s, p)
    decreases i
  {
    if i == 0 {
      PrefixAtZero(s, p);
    } else {
      assert s[1..][i - 1..i - 1 + |p|] == s[i..i + |p|];
      OccursContains(s[1..], p, i - 1);
    }
  }

  /** Whatever stands between two pieces is contained in their concatenation. */
  lemma ContainsInfix(a: string, p: string, b: string)
    ensures Contains(a + p + b, p)
  {
    var s := a + p + b;
    assert OccursAt(s, p, |a|);
    ContainsAt(s, p);
  }

  /** Longest prefix of `s` made of ASCII digits. */
  function DigitPrefix(s: string): (r: string)
    ensures r <= s
    ensures forall i :: 0 <= i < |r| ==> IsDigit(r[i])
    ensures |r| < |s| ==> !IsDigit(s[|r|])
  {
    if |s| > 0 && IsDigit(s[0]) then [s[0]] + DigitPrefix(s[1..]) else []
  }

  /**
   * `parseInt(s, 10)`: leading whitespace is skipped, an optional sign is read,
   * then the longest run of digits; `None` stands for `NaN` (no digit at all).
   */
  function ParseInt(s: string): Option<int> {
    if |s| > 0 && IsSpace(s[0]) then ParseInt(s[1..]) else ParseSigned(s)
  }

  /** The sign and digits part of `parseInt`. */
  function ParseSigned(t: string): Option<int> {
    if |t| > 0 && t[0] == '-' then
      match ReadDigits(t[1..], None)
      case None => None
      case Some(v) => Some(-v)
    else ReadDigits(SignStripped(t), None)
  }

  /** Reads the leading digits of `s` onto the value `acc` read so far (`None` before the first digit). */
  function ReadDigits(s: string, acc: Option<int>): Option<int> {
    if |s| > 0 && IsDigit(s[0]) then ReadDigits(s[1..], Some(acc.GetOr(0) * 10 + DigitValue(s[0]))) else acc
  }

  /** `t` without one leading `+` or `-`. */
  function SignStripped(t: string): string {
    if |t| > 0 && (t[0] == '-' || t[0] == '+') then t[1..] else t
  }

  /** Once a digit has been read, the value is a number. */
  lemma {:induction false} ReadDigitsKeepsValue(s: string, acc: Option<int>)
    requires acc.Some?
    ensures ReadDigits(s, acc).Some?
  {
    if |s| > 0 && IsDigit(s[0]) {
      ReadDigitsKeepsValue(s[1..], Some(acc.GetOr(0) * 10 + DigitValue(s[0])));
    }
  }

  /** `parseInt` gives NaN exactly when no digit follows the leading whitespace and the optional sign. */
  lemma {:induction false} ParseIntNaN(s: string)
    ensures ParseInt(s).None? <==> |DigitPrefix(SignStripped(TrimStart(s)))| == 0
  {
    if |s| > 0 && IsSpace(s[0]) {
      ParseIntNaN(s[1..]);
    } else {
      var u := SignStripped(s);
      if |u| > 0 && IsDigit(u[0]) {
        ReadDigitsKeepsValue(u[1..], Some(DigitValue(u[0])));
      }
    }
  }

  /** Two-digit, zero-padded decimal rendering of `n` (as in "09"). */
  function TwoDigits(n: int): (r: string)
    requires 0 <= n <= 99
    ensures |r| == 2 && IsDigit(r[0]) && IsDigit(r[1])
  {
    [('0' as int + n / 10) as char, ('0' as int + n % 10) as char]
  }

  /** A zero-padded two-digit field reads back as the number it renders. */
  lemma ParseTwoDigits(n: int, rest: string)
    requires 0 <= n <= 99
    requires |rest| == 0 || !IsDigit(rest[0])
    ensures ParseInt(TwoDigits(n) + rest) == Some(n)
  {
    var d := TwoDigits(n);
    var s := d + rest;
    assert s[1..][1..] == rest;
    assert ReadDigits(rest, Some(n)) == Some(n);
    assert ReadDigits(s[1..], Some(n / 10)) == ReadDigits(rest, Some(n / 10 * 10 + n % 10));
    assert ReadDigits(s, None) == ReadDigits(s[1..], Some(n / 10));
    assert ParseSigned(s) == ReadDigits(s, None);
  }

  /** Number of elements of `s` satisfying `f`: `s.filter(f).length`. */
  function CountWhere<T>(s: seq<T>, f: T -> bool): (n: nat)
    ensures n <= |s|
  {
    if |s| == 0 then 0 else (if f(s[0]) then 1 else 0) + CountWhere(s[1..], f)
  }

  /**
   * JavaScript's `a <= b` on strings: lexicographic order of the characters,
   * a proper prefix coming first.
   */
  predicate LexLe(a: string, b: string) {
    |a| == 0 || (|b| > 0 && (a[0] < b[0] || (a[0] == b[0] && LexLe(a[1..], b[1..]))))
  }

  function Pow10(n: nat): (p: nat)
    ensures p >= 1
  {
    if n == 0 then 1 else 10 * Pow10(n - 1)
  }

  predicate AllDigits(s: string) {
    forall i :: 0 <= i < |s| ==> IsDigit(s[i])
  }

  /** The number a string of decimal digits writes, leading zeros allowed. */
  function DigitsValue(s: string): (v: nat)
    requires AllDigits(s)
    ensures v < Pow10(|s|)
  {
    if |s| == 0 then 0
    else
      var p := Pow10(|s| - 1);
      var rest := DigitsValue(s[1..]);
      MulBound(DigitValue(s[0]), p);
      DigitValue(s[0]) * p + rest
  }

  lemma MulBound(d: int, p: nat)
    requires 0 <= d <= 9
    ensures 0 <= d * p && d * p + p <= 10 * p
  {
  }

  /**
   * On digit strings of one length the string order is the numeric order:
   * zero-padded numbers compare as strings the way they compare as numbers.
   */
  lemma {:induction false} DigitsLexOrder(a: string, b: string)
    requires |a| == |b| && AllDigits(a) && AllDigits(b)
    ensures LexLe(a, b) <==> DigitsValue(a) <= DigitsValue(b)
    ensures a == b <==> DigitsValue(a) == DigitsValue(b)
  {
    if |a| > 0 {
      var p := Pow10(|a| - 1);
      var da, db := DigitValue(a[0]), DigitValue(b[0]);
      DigitsLexOrder(a[1..], b[1..]);
      var ra, rb := DigitsValue(a[1..]), DigitsValue(b[1..]);
      assert DigitsValue(a) == da * p + ra;
      assert DigitsValue(b) == db * p + rb;
      if da < db {
        MulStep(da, db, p);
      } else if db < da {
        MulStep(db, da, p);
      } else {
        assert a[0] == b[0];
        if a[1..] == b[1..] {
          assert a == [a[0]] + a[1..] && b == [b[0]] + b[1..];
        }
      }
    }
  }

  lemma MulStep(x: int, y: int, p: nat)
    requires x < y
    ensures x * p + p <= y * p
  {
    var k := y - x;
    assert y * p == x * p + k * p;
    assert k * p == p + (k - 1) * p;
    assert (k - 1) * p >= 0;
  }

  /**
   * Comparing two concatenations whose first parts have one length: the
   * first parts decide unless they are equal.
   */
  lemma {:induction false} LexLeAppend(p: string, q: string, p': string, q': string)
    requires |p| == |p'|
    ensures LexLe(p + q, p' + q') <==> (p != p' && LexLe(p, p')) || (p == p' && LexLe(q, q'))
  {
    if |p| == 0 {
      assert p + q == q && p' + q' == q';
    } else {
      assert (p + q)[1..] == p[1..] + q && (p' + q')[1..] == p'[1..] + q';
      LexLeAppend(p[1..], q, p'[1..], q');
      if p[0] == p'[0] && p[1..] != p'[1..] {
        assert p != p';
      }
      if p[1..] == p'[1..] && p[0] == p'[0] {
        assert p == [p[0]] + p[1..] && p' == [p'[0]] + p'[1..];
      }
    }
  }

  /** `n` written with exactly `w` decimal digits, zero-padded on the left. */
  function PadDigits(n: nat, w: nat): (s: string)
    requires n < Pow10(w)
    ensures |s| == w && AllDigits(s) && DigitsValue(s) == n
    decreases w
  {
    if w == 0 then ""
    else
      var head := PadDigits(n / 10, w - 1);
      var c := ('0' as int + n % 10) as char;
      DigitsValueSnoc(head, c);
      head + [c]
  }

  /** Appending a digit multiplies the value by ten and adds the digit. */
  lemma {:induction false} DigitsValueSnoc(s: string, c: char)
    requires AllDigits(s) && IsDigit(c)
    ensures AllDigits(s + [c])
    ensures DigitsValue(s + [c]) == DigitsValue(s) * 10 + DigitValue(c)
  {
    var t := s + [c];
    assert AllDigits(t);
    if |s| > 0 {
      assert t[0] == s[0] && t[1..] == s[1..] + [c];
      DigitsValueSnoc(s[1..], c);
      SnocArith(DigitValue(s[0]), Pow10(|s| - 1), DigitsValue(s[1..]), DigitValue(c));
    } else {
      assert t[1..] == [];
    }
  }

  lemma SnocArith(d0: int, p: int, rest: int, dc: int)
    ensures d0 * (10 * p) + (rest * 10 + dc) == (d0 * p + rest) * 10 + dc
  {
  }

  /** The calendar position of a `YYYY-MM-DD` date as the number YYYYMMDD. */
  function DateKey(s: string): (k: nat)
    requires IsoDateShape(s)
  {
    assert AllDigits(s[..4]) && AllDigits(s[5..7]) && AllDigits(s[8..]);
    DigitsValue(s[..4]) * 10000 + DigitsValue(s[5..7]) * 100 + DigitsValue(s[8..])
  }

  /** Four, two and two digits joined by dashes have the ISO date shape and split back into the same fields. */
  lemma IsoJoin(y: string, m: string, d: string)
    requires |y| == 4 && |m| == 2 && |d| == 2 && AllDigits(y) && AllDigits(m) && AllDigits(d)
    ensures var s := y + "-" + m + "-" + d;
      IsoDateShape(s) && s[..4] == y && s[5..7] == m && s[8..] == d
  {
    var s := y + "-" + m + "-" + d;
    assert s[..4] == y && s[5..7] == m && s[8..] == d;
    assert s[4] == '-' && s[7] == '-';
    assert IsDigit(y[0]) && IsDigit(y[1]) && IsDigit(y[2]) && IsDigit(y[3]);
    assert IsDigit(m[0]) && IsDigit(m[1]) && IsDigit(d[0]) && IsDigit(d[1]);
  }

  /** For `YYYY-MM-DD` dates, string order is calendar order, and equal keys mean equal strings. */
  lemma IsoLexOrder(a: string, b: string)
    requires IsoDateShape(a) && IsoDateShape(b)
    ensures LexLe(a, b) <==> DateKey(a) <= DateKey(b)
    ensures a == b <==> DateKey(a) == DateKey(b)
  {
    assert AllDigits(a[..4]) && AllDigits(a[5..7]) && AllDigits(a[8..]);
    assert AllDigits(b[..4]) && AllDigits(b[5..7]) && AllDigits(b[8..]);
    DigitsLexOrder(a[..4], b[..4]);
    DigitsLexOrder(a[5..7], b[5..7]);
    DigitsLexOrder(a[8..], b[8..]);
    IsoLexParts(a, b);
    KeyOrder(DigitsValue(a[..4]), DigitsValue(a[5..7]), DigitsValue(a[8..]),
             DigitsValue(b[..4]), DigitsValue(b[5..7]), DigitsValue(b[8..]));
  }

  /** Two ISO dates compare as their year, month and day fields do, in that order. */
  lemma IsoLexParts(a: string, b: string)
    requires IsoDateShape(a) && IsoDateShape(b)
    ensures LexLe(a, b) <==>
      ((a[..4] != b[..4] && LexLe(a[..4], b[..4])) ||
       (a[..4] == b[..4] && ((a[5..7] != b[5..7] && LexLe(a[5..7], b[5..7])) ||
                             (a[5..7] == b[5..7] && LexLe(a[8..], b[8..])))))
    ensures a == b <==> (a[..4] == b[..4] && a[5..7] == b[5..7] && a[8..] == b[8..])
  {
    IsoSplit(a);
    IsoSplit(b);
    LexLeAppend(a[..4], a[4..], b[..4], b[4..]);
    LexLeAppend(a[4..5], a[5..], b[4..5], b[5..]);
    LexLeAppend(a[5..7], a[7..], b[5..7], b[7..]);
    LexLeAppend(a[7..8], a[8..], b[7..8], b[8..]);
    assert a[4..5] == b[4..5] && a[7..8] == b[7..8];
    LexLeSelf(a[4..5]);
    LexLeSelf(a[7..8]);
  }

  /** The key `y * 10000 + m * 100 + d` orders dates by year, then month, then day. */
  lemma KeyOrder(y1: nat, m1: nat, d1: nat, y2: nat, m2: nat, d2: nat)
    requires m1 < 100 && d1 < 100 && m2 < 100 && d2 < 100
    ensures y1 * 10000 + m1 * 100 + d1 <= y2 * 10000 + m2 * 100 + d2 <==>
      (y1 < y2 || (y1 == y2 && (m1 < m2 || (m1 == m2 && d1 <= d2))))
    ensures y1 * 10000 + m1 * 100 + d1 == y2 * 10000 + m2 * 100 + d2 <==>
      (y1 == y2 && m1 == m2 && d1 == d2)
  {
    if y1 < y2 {
      assert y1 * 10000 + 10000 <= y2 * 10000;
    } else if y1 > y2 {
      assert y2 * 10000 + 10000 <= y1 * 10000;
    }
  }

  lemma IsoSplit(s: string)
    requires IsoDateShape(s)
    ensures s == s[..4] + s[4..] && s[4..] == s[4..5] + s[5..]
    ensures s[5..] == s[5..7] + s[7..] && s[7..] == s[7..8] + s[8..]
    ensures s == s[..4] + s[4..5] + s[5..7] + s[7..8] + s[8..]
  {
  }

  lemma {:induction false} LexLeSelf(s: string)
    ensures LexLe(s, s)
  {
    if |s| > 0 {
      LexLeSelf(s[1..]);
    }
  }
}

=== FILE: wrappers.dfy ===
/** Optional values: the model's rendering of JavaScript's `null` / `undefined`. */
module Wrappers {

  datatype Option<+T> = None | Some(value: T) {

    /** The wrapped value, or `default` when absent (JavaScript's `??`). */
    function GetOr(default: T): T {
      match this
      case Some(v) => v
      case None => default
    }
  }
}
